=== FILE: README.md ===
# smtg in Dafny

A model of the mail-to-Telegram gateway *smtg*. An SMTP server accepts
mail for one domain. It checks each message (SPF, DKIM, DNS blocklists),
annotates and archives it, and hands it down a chain of routes. The
Telegram route converts the message into Telegram's restricted HTML and
posts it to a chat. The model covers two generations of the code:

- the current package under `smtg/`: the RCPT domain check, message
  preparation and annotation, the spam and SPF reject rule, the route
  chain (`handler.py`); the two HTML transducers `HTMLSimplifier` and
  `HTMLSplitter` (`parsers.py`); and message assembly and the order of
  bot calls (`telegram.py`);
- the older single-file version: per-login handlers with one default
  handler (`inbox.py`), the stack-less HTML converter (`parser.py`), and
  the delivery path with file-name sanitising, escaping, whitespace
  normalisation and 4096-character slicing (`bot.py`).

Everything is pure. The HTML transducers are folds over a pre-tokenised
`seq<Event>`, with their stack and visibility flag held in an explicit
state. The e-mail message is a list of header fields with the semantics
of Python's `email.message`: setting a field appends, and reading returns
the first field whose name matches without regard to case. Bot API calls
are returned as a trace of `BotCall` values, not performed. Lookups,
clocks, hashes, decoders and the HTML tokenizer are parameters. The
decoders of the older version can fail, as the strict UTF-8 decodings
they stand for do.

Modules, one per file:

| module | file | models |
|---|---|---|
| `Strings` | strings.dfy | the `str` operations used: lower-casing, `strip`, `split`/`join`, the regex substitutions as functions |
| `Markup` | markup.dfy | events, `html.escape`, the replace chain of `safe` |
| `Mail` | mail.dfy | header fields, `Get`/`Add`, recorded bot calls |
| `Handler` | handler.dfy | smtg/handler.py |
| `Simplifier` | simplifier.dfy | `HTMLSimplifier` in smtg/parsers.py |
| `Splitter` | splitter.dfy | `HTMLSplitter` in smtg/parsers.py |
| `Telegram` | telegram.dfy | smtg/telegram.py |
| `Inbox` | inbox.dfy | inbox.py |
| `LegacyParser` | legacyparser.dfy | parser.py |
| `LegacyBot` | legacybot.dfy | bot.py |

The model follows the code as written. Behaviour worth knowing:

- Routes match addresses exactly. No route does `local+tag` sub-address
  matching, and no route filters on blacklist keywords. `TelegramRoute`
  ignores the recipients it is given and returns `[]` unless a send
  raises, so it always ends the chain.
- Every later part and every attachment replies to the *first* part. They
  do not reply to the previous part.
- Visibility in `HTMLSimplifier` is one flag, not a nesting count. Any
  `</script>` or `</style>` makes text visible again.
- `HTMLSplitter` escapes the remainder of a split text run a second time,
  so `&` arrives as `&amp;amp;`.
- The older converter writes link targets unescaped. `sanitize_fn` copies
  the extension unchanged, slashes included. A name such as `a.b/c` then
  names a media file inside a directory that usually does not exist, so
  `open` raises and the whole `send_message` fails. Whether the write
  succeeds is the parameter `stores`.
- A sender can shadow the gateway's own header fields. Examples are
  `X-Smtg-Rcpt-To`, `X-SPF-Check` and `X-DKIM-Check`: the sender's field
  comes first, and reads return the first match.

## Model

| member | source | states |
|---|---|---|
| Handler.HandleRcpt | smtg/handler.py:56-63 | An address whose lower-cased form ends in `@` plus the lower-cased host name is appended to the recipients, with its options, and answered `250 OK`. Any other address gets `553 Mailbox … does not exist` and leaves the envelope untouched. |
| Handler.AcceptedAddresses | smtg/handler.py:57-60 | Every address kept by the domain filter belongs to the served domain. |
| Handler.RcptSessionKeepsInDomain | smtg/handler.py:56-63 | After any sequence of RCPT commands, the envelope lists exactly the in-domain addresses, in command order, after the ones it already held. The sender is unchanged. |
| Handler.Prepare | smtg/handler.py:76-84 | Four fields are appended after the original ones, and body and attachments are unchanged. `X-Smtg-Rcpt-To` reads back as the comma-join of the recipients, unless the message already carried that field, which then shadows it. |
| Handler.IsSpam | smtg/handler.py:97 | Three or more detectors always mean spam, and none never does. Without a configured provider, or with an empty one, only the count decides. A configured provider among the detectors means spam, and with at most two detectors nothing else does. |
| Handler.SpamMonotone | smtg/handler.py:97 | A one-step consequence of `IsSpam`, kept as an illustration: more detections never turn spam into non-spam. |
| Handler.DnsblValue | smtg/handler.py:103 | The `X-DNSBL` value starts with `pass` exactly when the message is spam. |
| Handler.DnsblValueRoundTrip | smtg/handler.py:103 | Splitting the part after `;detected_by=` on commas gives back the detector list, when it is non-empty and comma-free. |
| Handler.Annotate | smtg/handler.py:99-103 | Five fields are appended after the original ones, and body and attachments are unchanged. `X-DKIM-Check` is `pass` exactly when DKIM passed. `X-DNSBL` starts with `pass` exactly when the message is spam. |
| Handler.AnnotateKeepsRcptTo | smtg/handler.py:99-103 | The annotation fields never change what `X-Smtg-Rcpt-To` reads. |
| Handler.RunChain | smtg/handler.py:118-122 | No more routes run than there are, and the first route receives the recipients the chain was given. |
| Handler.ChainShape | smtg/handler.py:116-122 | Each invoked route receives what the previous one returned. The chain goes on exactly while routes return a non-empty list. It ends early only at a route that returned `[]` or raised, and it raised exactly when its last invoked route raised. |
| Handler.ChainCalls | smtg/handler.py:118-122 | The chain's bot calls are exactly those of the routes it invoked, in order. Later routes contribute nothing. |
| Handler.HandleMessage | smtg/handler.py:97-122 | The archived message is the annotated one in every outcome. No route runs exactly when the message is spam or SPF failed. A missing `X-Smtg-Rcpt-To` makes the split raise. Otherwise the chain runs on that field split at commas. |
| Handler.RecipientsRoundTrip | smtg/handler.py:76-119 | A message without its own `X-Smtg-Rcpt-To`, if not rejected, reaches the first route with exactly the envelope's recipients, when there is at least one and none holds a comma. |
| Handler.SenderHeaderShadowsRecipients | smtg/handler.py:76-119 | A message carrying its own `X-Smtg-Rcpt-To` is routed to the recipients named in that field, not to the envelope's. |
| Mail.GetAfterAdd | smtg/handler.py:99-103 | A field set on a message is read back only when no field of that name existed before. An earlier field shadows it. |
| Strings.SplitJoin | smtg/handler.py:116 | Splitting the comma-join of a non-empty list of comma-free strings gives the list back. |
| Strings.SplitJoinEmpty | smtg/handler.py:116 | The join of no recipients splits into one empty recipient. |
| Simplifier.Href | smtg/parsers.py:83-90 | The link target is the value of the first attribute named `href` in any case that has a value, or `#` when there is none. |
| Simplifier.KindOf | smtg/parsers.py:77-83 | `code` renders as code, `b` and `strong` as bold, `i` and `em` as italic, and `a` as a link, each kind from exactly those tags. |
| Simplifier.OnStart | smtg/parsers.py:68-95 | While hidden, nothing changes. Otherwise `br` emits a newline. A tracked tag is pushed, lower-cased, and appends exactly its opening: `code` as code, `b`/`strong` as bold, `i`/`em` as italic, `a` as a link to `Href`. Any other start tag emits nothing and keeps the stack, and `script`/`style` hide. The stack still matches the open tags emitted. |
| Simplifier.OnData | smtg/parsers.py:97-103 | Hidden or blank text adds nothing. Otherwise exactly one piece is added after the old output: the text with its whitespace runs collapsed, then escaped with quotes. It holds no `<`, `>` or `"`, keeps the collapsed shape and is not blank. |
| Simplifier.OnDataKeepsText | smtg/parsers.py:97-103 | The piece a visible run adds, collapsed then escaped, holds exactly the non-whitespace characters of the text, escaped, in order: no text of the run is lost or invented. |
| Simplifier.EscapeNonSpaces | smtg/parsers.py:101-103 | Escaping commutes with dropping whitespace, because whitespace is never escaped and entities hold none. |
| Simplifier.EscapeKeepsCollapsed | smtg/parsers.py:101-103 | Escaping collapsed text keeps it collapsed, because entities hold no whitespace. |
| Simplifier.PopThrough | smtg/parsers.py:112-117 | An end tag on the stack pops down to and including its topmost occurrence. It emits the closings of every popped tag, innermost first. |
| Simplifier.OnEnd | smtg/parsers.py:105-133 | `</script>`/`</style>` make text visible again. A tracked end tag not on the stack is a no-op. One on the stack closes everything above it first. `</p>` and `</div>` emit a blank line. Any other end tag leaves output and stack unchanged. The stack still matches the open tags. |
| Simplifier.EndTracked | smtg/parsers.py:111-117 | A tracked end tag on the stack closes and pops down to its topmost occurrence, innermost first. One not on the stack changes nothing. The stack still matches the open tags. |
| Simplifier.EndUntracked | smtg/parsers.py:118-125 | Any other end tag keeps the stack. It appends a blank line for `p` and `div` and nothing otherwise. |
| Simplifier.CloseAllNest | smtg/parsers.py:138-140 | Closing the stack innermost first closes exactly the tags it holds. |
| Simplifier.Feed | smtg/parsers.py:68-133 | Over any event stream, the stack holds exactly the tags whose opening was emitted and not yet closed. |
| Simplifier.OnClose | smtg/parsers.py:135-140 | `close` closes every open tag, innermost first, leaving an empty stack and a balanced output. |
| Simplifier.Pieces | smtg/parsers.py:59-140 | The output is balanced over code, b, i and a for every input, however malformed its nesting. |
| Simplifier.Simplify | smtg/parsers.py:142 | The result has no run of three newlines. Apart from newlines, it is exactly the rendered balanced output. When that output has no run of three newlines, the result is the output itself, so its line breaks and blank lines survive. |
| Strings.CollapseNewlinesIdle | smtg/parsers.py:142 | Text without three newlines in a row is left exactly as it is. |
| Strings.CollapseNewlinesAppend | smtg/parsers.py:142 | The rewrite works run by run: two texts joined at a seam that is not inside a run of newlines are rewritten separately. |
| Strings.CollapseNewlinesRun | smtg/parsers.py:142 | A maximal run of n newlines anywhere in the text becomes min(n, 2) newlines, and the text on either side is rewritten on its own. |
| Strings.CollapseNewlinesNoTriple | smtg/parsers.py:142 | Replacing runs of three or more newlines by two leaves no run of three. |
| Strings.CollapseIsCollapsed | smtg/parsers.py:101 | After replacing whitespace runs by one space, no two spaces are adjacent and no other whitespace remains. |
| Strings.CollapseRun | smtg/parsers.py:101 | A maximal run of whitespace anywhere in the text becomes exactly one space, and the text on either side is collapsed on its own. |
| Strings.CollapseAppend | smtg/parsers.py:101 | The whitespace rewrite works run by run: two texts joined after a non-whitespace character are collapsed separately. |
| Simplifier.VisibilityIsLastHider | smtg/parsers.py:91-108 | After any stream, text is visible exactly when the last `script`/`style` tag was an end tag, or when there was none and it was visible before. Nesting is not counted. |
| Simplifier.HiddenEmitsNothing | smtg/parsers.py:68-109 | While hidden, events other than a `script`/`style` end tag neither emit nor push anything. |
| Splitter.AttrsMarkupQuotes | smtg/parsers.py:43-48 | Each rendered attribute holds exactly its two delimiting quotes, so an escaped value cannot close its own quotes. |
| Splitter.CutData | smtg/parsers.py:25-35 | The part's text and the remainder together are the old part plus the new text. The part is filled to `min(max(len(active), 3939), len(active) + len(data))`. |
| Splitter.PushEscaped | smtg/parsers.py:22-37 | Below the 3876 threshold the text is appended. The recursion never ends exactly when a split is due and the reopened tags alone reach the threshold. The stack is unchanged. |
| Splitter.RemainderShrinks | smtg/parsers.py:25-35 | After a split, the re-escaped remainder has fewer `&`, or as many with the first one earlier, or the overflowing part had already reached the threshold. So the recursion ends when the reopened tags fit. |
| Splitter.PushEscapedParts | smtg/parsers.py:25-35 | Earlier parts are kept. Each finished part starts with the old active part and ends with the stack's closings, innermost first, and holds at most `max(len(active), 3939)` characters before them. Each later part and the new active part begin by reopening the stack in order. |
| Splitter.Feed | smtg/parsers.py:15-51 | Parts once finished are never changed. |
| Splitter.OnClose | smtg/parsers.py:53-56 | `close` appends the active part as the last part. |
| Splitter.Step | smtg/parsers.py:15-41 | A start tag appends its markup and pushes itself, lower-cased, with its attributes. An end tag raises exactly when nothing is open, and otherwise appends its closing and pops the top, whichever tag that is. `EmptyStackPop` comes from end tags only. The stack depth follows the events. |
| Splitter.PopFailsIffUnfit | smtg/parsers.py:39-41 | Over any stream, a run that meets an end tag with nothing open always fails. `EmptyStackPop` happens only on such a stream; an `UnboundedRecursion` can come first. |
| Splitter.Run | smtg/parsers.py:6-56 | A run that does not raise yields the fed parts plus the active part, so at least one, even for an empty stream. A stream that closes a tag with nothing open always fails, and `EmptyStackPop` happens for no other stream. |
| Splitter.ShortStreamStaysActive | smtg/parsers.py:15-51 | A stream whose markup stays under the threshold is copied into the active part unchanged, with no split. |
| Splitter.ShortStreamIsOnePart | smtg/parsers.py:6-56 | A short stream that never closes an unopened tag becomes exactly one part: its re-rendered markup. |
| Splitter.RemainderEscapedTwice | smtg/parsers.py:23-35 | One worked example, illustrating the general `SplitOnce` step: with 3938 characters in the part, `a&b` finishes the part with `a`. The next part starts with `&amp;amp;b`, because the remainder is escaped a second time. |
| Telegram.HeaderLinesKeepSubject | smtg/telegram.py:42-43 | The escaped subject sits between `📧 <b>` and the first `</b>` and holds no `<`, so it can be read back and cannot open a tag. |
| Telegram.BodyText | smtg/telegram.py:45-54 | A missing body gives the italic placeholder. An HTML body gives the simplifier's result with whitespace cut from its two ends only, so inner spaces and line breaks stay; its non-whitespace text is that of the rendered pieces. A plain-text body gives the escaped content with whitespace cut from its ends only, with no angle bracket. Any other content type contributes nothing. |
| Strings.Strip | smtg/telegram.py:52-54 | `strip` returns a slice of its input with only whitespace outside it and no whitespace at either end. It keeps every non-whitespace character, and it is empty exactly when the input is all whitespace. |
| Strings.StripIsTheTrim | smtg/telegram.py:52-54 | Any slice that cuts only whitespace from the ends and leaves none at either end is `Strip`'s result, so the contract determines `strip`. |
| Telegram.HtmlBodyKeepsText | smtg/telegram.py:48-51 | Stripping and collapsing newlines remove only whitespace from the simplifier's rendered pieces. |
| Telegram.PlainBodyIsSafe | smtg/telegram.py:53-54 | A stripped, escaped plain-text body holds no `<` or `>`. |
| Telegram.Warnings | smtg/telegram.py:58-61 | The SPF line appears, first, exactly when the SPF result is not `pass` or `neutral`. The DKIM line appears, last, exactly when the DKIM result is `fail`. There are no lines otherwise. |
| Telegram.Content | smtg/telegram.py:42-61 | Content exists exactly when Subject, From and To are present. It is the header lines, then the body text, then a newline and the warnings. |
| Telegram.Files | smtg/telegram.py:63-66 | There is one file per attachment, in order, with its data and its file name, or `Attachment` when it has none. |
| Telegram.ConvertMessage | smtg/telegram.py:41-72 | The parts are exactly the splitter's parts for the assembled content, and there is at least one. The files are exactly the message's attachments, in order, each with its data and its file name or `Attachment`. Conversion fails exactly when a header is missing or the splitter raises. |
| Telegram.PartSends | smtg/telegram.py:84-91 | There is one `send_message` per part, in order. The first has no reply anchor, and every later one replies to the first part's id. |
| Telegram.AttachmentSends | smtg/telegram.py:93-111 | No attachments make no call, one makes one `send_document`, and several make one `send_media_group` holding all of them in order. |
| Telegram.Deliver | smtg/telegram.py:82-111 | The part sends come first. They are followed by no call when there is no attachment, one `send_document` with the single file, or one `send_media_group` with all files. That call replies to the first part when there is one. |
| Telegram.DeliverSendsParts | smtg/telegram.py:84-91 | Reading the texts back from the trace gives the parts, complete, in order, each once. |
| Telegram.DeliverSendsFiles | smtg/telegram.py:93-111 | Reading the files back from the trace gives the converted attachments, complete and in order. |
| Telegram.MessageFilesDelivered | smtg/telegram.py:63-111 | The files the route's calls carry are the message's attachments, each with its data and its file name or `Attachment`. |
| Telegram.AttachmentsAnchorToFirstPart | smtg/telegram.py:93-111 | The attachment call replies to the first part's id. |
| Telegram.Attempt | smtg/telegram.py:84-111 | Sending a planned series of calls stops at the first call the Bot API rejects. The calls made are the plan up to and including that call, and the run raises exactly when some planned call fails. Otherwise every call is made and the route returns `[]`. |
| Telegram.RouteCall | smtg/telegram.py:79-113 | A message that cannot be converted raises before any call. Otherwise the route makes `Deliver`'s calls up to the first one that raises, and returns `[]` exactly when none does. |
| Telegram.TelegramRouteEndsChain | smtg/telegram.py:79-113 | The route's behaviour does not depend on the recipients. It returns `[]` or raises, so no later route in the chain runs either way. |
| Telegram.WarningsReflectChecks | smtg/telegram.py:58-61 | For a message without check fields of its own, the SPF warning appears exactly when the SPF result was not `pass` or `neutral`, and the DKIM warning exactly when DKIM failed. |
| Telegram.ForgedChecksHideWarnings | smtg/telegram.py:58-61 | A sender's own `X-SPF-Check: pass` and `X-DKIM-Check: pass` suppress both warnings, whatever the checks found. |
| Inbox.Process | inbox.py:21-25 | A route handles an address, with one call of its function, exactly when the address is its login at the host, compared in lower case. Otherwise it makes no call. |
| Inbox.MatchIsInDomain | inbox.py:21-25 | Every address a handler takes is one that `handle_RCPT` accepts. |
| Inbox.DefaultRoute | inbox.py:40-46 | Setting the default fails exactly when one is already set. Otherwise the default becomes the new function. |
| Inbox.DefaultRouteKeepsFirst | inbox.py:40-46 | After a first default is set, a second attempt fails, and the first stays. |
| Inbox.HandleRcpt | inbox.py:57-63 | An in-domain address is appended and answered `250 OK`. Any other gets `550 Not relaying to this domain` and the list is unchanged. |
| Inbox.FirstMatch | inbox.py:74-76 | Finds the first handler whose login matches, or none exactly when no handler matches. |
| Inbox.RouteRecipient | inbox.py:74-80 | At most one call per recipient: its first matching handler, else the default if set and not yet fired. The default counts as fired afterwards exactly when it had already fired or fires now. |
| Inbox.Dispatch | inbox.py:71-80 | At most one call per recipient, each carrying the message's DKIM and SPF flags. A default call names the configured default and happens only while the default has not fired. |
| Inbox.DispatchAll | inbox.py:71-80 | The loop over recipients makes exactly the calls of the recipient-by-recipient dispatch, in order. |
| Inbox.HandleData | inbox.py:65-82 | The flags are read from `Authentication-Results` and `Received-SPF`. When no handler call raises, the calls are the dispatch's and the reply is `250 Message accepted for delivery`. Otherwise the calls stop at the first raising one, with no reply. |
| Inbox.DefaultFiresOnce | inbox.py:71-80 | The default handler fires at most once per message. It fires exactly when a default is set and some recipient matched no handler. |
| Inbox.HandlerCallsFollowRecipients | inbox.py:73-76 | Each recipient that some handler matches yields exactly one call, of the first such handler, in recipient order. |
| LegacyParser.FirstHref | parser.py:20-23 | Finds the first attribute named exactly `href`, or none exactly when there is no such attribute. |
| LegacyParser.Step | parser.py:9-44 | Output is only appended to. Data is appended verbatim exactly while visible. A start or end tag appends its Telegram markup whatever the flag. `script`/`style` start tags hide text, their end tags show it, and nothing else moves the flag. |
| LegacyParser.Feed | parser.py:9-44 | Over any stream, the output already produced is never changed. |
| LegacyParser.FeedAppend | parser.py:9-44 | Feeding two chunks in turn is feeding their concatenation. |
| LegacyParser.VisibleIsLastToggle | parser.py:25-40 | The visibility flag is what the last `script`/`style` tag set, or the initial flag when there was none. |
| LegacyParser.NestedHidersReopenEarly | parser.py:25-40 | One example illustrating `VisibleIsLastToggle`: `</script>` inside an outer `<style>` already shows text again. |
| LegacyParser.TagsIgnoreVisibility | parser.py:9-40 | A stream of tags emits the same markup whether text is hidden or not. Only data is gated. |
| LegacyParser.TextShownIffVisible | parser.py:42-44 | Text is appended verbatim and unescaped exactly when the last `script`/`style` tag before it was a closing one, or there was none. |
| LegacyParser.UnbalancedCloseEmitted | parser.py:28-34 | One example illustrating `TagsIgnoreVisibility` and `Step`: nothing pairs tags: a lone `</b>` is emitted as it is. |
| LegacyBot.Extension | bot.py:25-28 | The extension holds no dot. The name ends with a dot and the extension when it has a dot. Otherwise the extension is `q`. |
| LegacyBot.SplitLastSegment | bot.py:26 | The last piece of `split(".")` holds no dot and ends the name, preceded by a dot when the name has one. |
| LegacyBot.Sanitize | bot.py:18-35 | The function raises exactly on a name beyond ASCII. A short alphanumeric name is kept. A name not kept whose 30-character head is alphanumeric becomes the head, a dot and the extension. Every other name becomes the digest, a dot and the extension. |
| LegacyBot.SanitizeShortUnchangedIff | bot.py:30-35 | A name under 30 characters comes back unchanged exactly when it is alphanumeric. |
| LegacyBot.SanitizeCutUnchangedIff | bot.py:30-33 | A name cut to its head comes back unchanged exactly when it already is 30 alphanumeric characters, a dot and a last segment without dots, such as a 30-character stem with `.pdf`. |
| LegacyBot.SanitizeFixesKeptNames | bot.py:30-35 | A name that was kept or cut to its head is a fixed point: sanitising the result again changes nothing. |
| LegacyBot.ExtensionKeepsSlash | bot.py:25-35 | One example illustrating `Sanitize` and `Extension`: `a.b/c` becomes the digest followed by `.b/c`: the extension is copied unsanitised. |
| LegacyBot.Safe | bot.py:38-44 | `safe` raises exactly when the header does not decode. Otherwise the decoded header comes out with no `<` or `>`. |
| LegacyBot.SafeIsEscape | bot.py:43-44 | When the header decodes, replacing `&` first, then `<` and `>`, escapes each character once, as `html.escape` without quotes does. |
| Markup.ReplaceChainIsEscape | bot.py:43-44 | The three replacements in this order equal one-pass escaping. |
| LegacyBot.Normalise | bot.py:52-55 | The text the parser sees is the payload with line endings rewritten and every whitespace run replaced by one space: the last two substitutions change nothing. It is collapsed, holds no newline, and keeps every non-whitespace character of the payload, in order. |
| LegacyBot.NormaliseShape | bot.py:52-55 | Removing newlines after the whitespace collapse changes nothing. The normalised text holds no newline, and its whitespace runs are single spaces. It keeps every non-space character of the payload, in order. |
| LegacyBot.NormaliseRun | bot.py:52-55 | On text without carriage returns, a maximal run of whitespace becomes one space and the text on either side is normalised on its own. |
| LegacyBot.CrLfIdle | bot.py:52 | Text without carriage returns passes the line-ending rewrite unchanged. |
| LegacyBot.CrLfKeepsNonSpaces | bot.py:52 | Rewriting `\r\n` and `\r` to `\n` keeps every non-space character, in order. |
| LegacyBot.ContentsFrom | bot.py:47-48 | A container yields one content per child when none raises. |
| LegacyBot.Content | bot.py:46-63 | A single part raises exactly when it fails on its own: a text part that does not decode, or an attachment whose name is beyond ASCII or whose media file cannot be written. A container raises exactly when one of its children does. An attachment that succeeds had its media file written, and becomes a line starting `Attachment <type>, ` and ending in the sanitised file name. |
| LegacyBot.Attachment | bot.py:58-63 | The attachment branch raises exactly when the name raises in `sanitize_fn` or `open` cannot write the media file. Otherwise the file was written and the line starts `Attachment <type>, ` and ends in the sanitised name. |
| LegacyBot.ContentRaisesIffPartFails | bot.py:46-63 | `message_content` raises exactly when some text part in the tree does not decode as UTF-8, or some attachment has a name beyond ASCII or a media file that cannot be written. |
| LegacyBot.Warnings | bot.py:72-75 | The DKIM line appears, first, exactly when DKIM is false. The SPF line appears, last, exactly when SPF is false. There are none when both hold. |
| LegacyBot.MessageText | bot.py:67-75 | The text is missing exactly when a header line or the content raises. |
| LegacyBot.Heading | bot.py:67-68 | The header lines are missing exactly when the subject, sender or recipient does not decode. |
| LegacyBot.MessageTextShape | bot.py:38-75 | The text starts with the subject, sender and recipient lines and ends with a newline and the warnings. It is missing exactly when a header or a text part does not decode, or an attachment name raises or its media file cannot be written. |
| LegacyBot.SubjectCannotOpenTags | bot.py:67-68 | The decoded subject, escaped, sits between the icon's `<b>` and the first `</b>` and holds no `<`. |
| LegacyBot.Slices | bot.py:76-101 | A text shorter than 4096 is sent whole. Otherwise the slices are non-empty and at most 4096 long, all full but the last, and concatenated they give the text. |
| LegacyBot.Send | bot.py:65-101 | `send_message` raises exactly when a header or a text part does not decode, or an attachment name raises or its media file cannot be written. Otherwise each call is a `send_message` to the configured chat with at most 4096 characters, and the texts concatenate to the whole message. A message shorter than 4096 is one call, and every call but the last carries exactly 4096 characters. |

## Left out

- The SMTP server and its wiring (app.py, smtg/app.py, smtg/__main__.py) and configuration loading (smtg/config.py): plumbing. The host name, the DNSBL provider and the chat are parameters.
- The SPF, DKIM and DNSBL lookups: foreign network calls. Their results are the `Checks` input.
- The uuid, the date-named archive file and its write: side effects. The archived message is part of the result.
- Python's `email` package (parsing, `get_body`, `iter_attachments`, `get_content`, `decode_header`, transfer decoding): library code. The body, attachments and MIME tree arrive already decoded, and `decode` and the payload decoder are parameters that may fail.
- The `HTMLParser` tokenizer, with its character-reference conversion and buffering: library code. Events arrive pre-tokenised and lower-cased, and `tokenize` is a parameter where markup text is re-parsed.
- aiogram and the Bot API: network calls. Calls are recorded as a trace. Which calls raise is the parameter `fails`, and the id of the first sent part is the parameter `firstId`.
- In bot.py, the retry without HTML after a failed call, `time.sleep` and `print(message.items())`: output and error handling outside the text logic.
- `create_bot`, `MailHandler.add_route` and `__init__`, `MailHandler.handle_MAIL` in inbox.py, and the `route` decorator: set-up code. The decorator could not register a handler as written, because `decorate` takes an extra `self`. So the model's registry lists handlers directly.
- async/await: every operation is modelled sequentially.
- `spam.blacklist` in the configuration: no code reads it.
- Python's recursion limit: the splitter's endless recursion is reported as the `UnboundedRecursion` failure. A finite recursion deeper than the limit is modelled as succeeding: `handle_data` recurses once per split, so a text run of roughly a thousand parts (about 4 MB) raises `RecursionError` in the source but yields its parts here.
- Routes are pure functions of the recipients and the message. A Python route receives the live message and list and could change them in place for later routes. The one route shipped, `TelegramRoute`, changes neither.
- Strings.Lower: lower-cases ASCII letters only. Python's `str.lower` also maps other alphabets, so the model is exact for ASCII host names and addresses only.
- Telegram.Files: assumes `wrap_io` never raises. In the source, `get_content` raises `KeyError` on a multipart attachment, and `wrap_io` raises `ValueError` (smtg/telegram.py:38) for content that is not text, bytes or a message. Each attachment's data is taken as already wrapped.
- LegacyBot.Sanitize: the decoded value of `quopri.decodestring` is never used by the source. Only its raising on non-ASCII names is modelled.
- LegacyBot.Icon: the source writes the envelope icon as two UTF-16 surrogate halves, which a Dafny character cannot hold. Two U+FFFD characters stand in for them, keeping the length Python counts.
- LegacyBot.Normalise: the third substitution, `(\n\s)+\n` to `\n`, is not spelled out. It runs after all whitespace has become single spaces, so it never matches.
- LegacyBot.Content: one clock reading (`now`) is used for every attachment of a message. The source reads the clock once per attachment. Whether `open` can write a media file is the parameter `stores`, given the file name; the file's contents are not modelled.
- LegacyBot.Send: the chat is a parameter. `CHAT_ID` comes from a configuration file that is not part of this model.

=== FILE: handler.dfy ===
/** `MailHandler` of smtg/handler.py: which recipients the SMTP session
    accepts, the headers added to a received message, the spam and SPF
    reject rule, and the chain of routes a message is passed through.

    The SPF, DKIM and DNSBL lookups, the uuid and the archive file are
    inputs and outputs here: the lookup results arrive as `Checks`, the
    message id as a string, and the archive write as the `archived`
    message of the result. */
module Handler {
  import opened Strings
  import opened Mail

  // ---------------------------------------------------------------------
  // RCPT
  // ---------------------------------------------------------------------

  datatype Envelope = Envelope(mailFrom: string, rcptTos: seq<string>, rcptOptions: seq<string>)

  datatype RcptReply = RcptReply(reply: string, envelope: Envelope)

  /** The address belongs to the served domain: its lower-cased form ends
      with `@` and the lower-cased host name. */
  predicate InDomain(address: string, hostname: string) {
    EndsWith(Lower(address), "@" + Lower(hostname))
  }

  /** `handle_RCPT`. */
  function HandleRcpt(env: Envelope, address: string, options: seq<string>, hostname: string): (r: RcptReply)
    ensures InDomain(address, hostname) ==>
      r.reply == "250 OK" && r.envelope.mailFrom == env.mailFrom
      && r.envelope.rcptTos == env.rcptTos + [address] && r.envelope.rcptOptions == env.rcptOptions + options
    ensures !InDomain(address, hostname) ==>
      r.reply == "553 Mailbox " + address + " does not exist" && r.envelope == env
  {
    if !InDomain(address, hostname) then RcptReply("553 Mailbox " + address + " does not exist", env)
    else RcptReply("250 OK", env.(rcptTos := env.rcptTos + [address], rcptOptions := env.rcptOptions + options))
  }

  datatype RcptCommand = RcptCommand(address: string, options: seq<string>)

  /** A session's RCPT commands, in order. */
  function RcptSession(env: Envelope, cmds: seq<RcptCommand>, hostname: string): Envelope
    decreases |cmds|
  {
    if |cmds| == 0 then env
    else RcptSession(HandleRcpt(env, cmds[0].address, cmds[0].options, hostname).envelope, cmds[1..], hostname)
  }

  /** The addresses of the commands that name the served domain. */
  function AcceptedAddresses(cmds: seq<RcptCommand>, hostname: string): (r: seq<string>)
    ensures forall i :: 0 <= i < |r| ==> InDomain(r[i], hostname)
    decreases |cmds|
  {
    if |cmds| == 0 then []
    else if InDomain(cmds[0].address, hostname) then [cmds[0].address] + AcceptedAddresses(cmds[1..], hostname)
    else AcceptedAddresses(cmds[1..], hostname)
  }

  /** After a session the envelope lists exactly the in-domain addresses,
      in the order they were given, after those it already held. */
  lemma {:induction false} RcptSessionKeepsInDomain(env: Envelope, cmds: seq<RcptCommand>, hostname: string)
    ensures RcptSession(env, cmds, hostname).rcptTos == env.rcptTos + AcceptedAddresses(cmds, hostname)
    ensures RcptSession(env, cmds, hostname).mailFrom == env.mailFrom
    decreases |cmds|
  {
    if |cmds| == 0 {
      assert env.rcptTos + [] == env.rcptTos;
    } else {
      var next := HandleRcpt(env, cmds[0].address, cmds[0].options, hostname).envelope;
      RcptSessionKeepsInDomain(next, cmds[1..], hostname);
      if InDomain(cmds[0].address, hostname) {
        assert env.rcptTos + [cmds[0].address] + AcceptedAddresses(cmds[1..], hostname)
            == env.rcptTos + ([cmds[0].address] + AcceptedAddresses(cmds[1..], hostname));
      }
    }
  }

  // ---------------------------------------------------------------------
  // prepare_message
  // ---------------------------------------------------------------------

  /** `session.peer`: a (host, port) pair, or whatever else the server put
      there. */
  datatype Peer = PeerPair(host: string, port: int) | PeerName(name: string)

  datatype Session = Session(hostName: string, peer: Peer)

  function PeerHost(p: Peer): string {
    match p
    case PeerPair(host, _) => host
    case PeerName(name) => name
  }

  const RcptToHeader: string := "X-Smtg-Rcpt-To"

  /** `prepare_message` after parsing: four envelope headers appended. */
  function Prepare(m: Message, session: Session, env: Envelope): (r: Message)
    ensures r.body == m.body && r.attachments == m.attachments
    ensures |r.headers| == |m.headers| + 4 && r.headers[..|m.headers|] == m.headers
    ensures Get(m.headers, RcptToHeader).None? ==> Get(r.headers, RcptToHeader) == Some(Join(env.rcptTos, ','))
    ensures Get(m.headers, RcptToHeader).Some? ==> Get(r.headers, RcptToHeader) == Get(m.headers, RcptToHeader)
  {
    var added := [Header("X-Smtg-Sender-Hostname", session.hostName),
                  Header("X-Smtg-Mail-From", env.mailFrom),
                  Header(RcptToHeader, Join(env.rcptTos, ',')),
                  Header("X-Smtg-Peer", PeerHost(session.peer))];
    PreparedRcptTo(added);
    GetAppend(m.headers, added, RcptToHeader);
    var r := m.(headers := m.headers + added);
    assert r.headers[..|m.headers|] == m.headers;
    r
  }

  /** Names of different lengths never match. */
  lemma DifferentNames(a: string, b: string)
    requires |a| != |b|
    ensures !SameName(a, b)
  {
    assert |Lower(a)| == |a|;
  }

  lemma PreparedRcptTo(added: seq<Header>)
    requires |added| == 4 && added[2].name == RcptToHeader
    requires added[0].name == "X-Smtg-Sender-Hostname" && added[1].name == "X-Smtg-Mail-From"
    ensures Get(added, RcptToHeader) == Some(added[2].value)
  {
    DifferentNames("X-Smtg-Sender-Hostname", RcptToHeader);
    DifferentNames("X-Smtg-Mail-From", RcptToHeader);
    assert added[1..][1..][0] == added[2];
  }

  // ---------------------------------------------------------------------
  // handle_message: checks, annotation, reject rule
  // ---------------------------------------------------------------------

  /** What the SPF, DKIM and DNSBL lookups reported; `detectedBy` holds the
      keys of the DNSBL `detected_by` dictionary, in order. */
  datatype Checks = Checks(spfResult: string, spfDetails: string, dkim: bool, detectedBy: seq<string>)

  /** The spam rule: the configured DNSBL provider (when one is set and not
      empty) reported the peer, or more than two providers did. */
  function IsSpam(dnsbl: Option<string>, detectedBy: seq<string>): (r: bool)
    ensures |detectedBy| > 2 ==> r
    ensures |detectedBy| == 0 ==> !r
    ensures dnsbl.None? || dnsbl == Some("") ==> (r <==> |detectedBy| > 2)
    ensures dnsbl.Some? && dnsbl.value != "" && dnsbl.value in detectedBy ==> r
    ensures |detectedBy| <= 2 && r ==> dnsbl.Some? && dnsbl.value != "" && dnsbl.value in detectedBy
  {
    (dnsbl.Some? && dnsbl.value != "" && dnsbl.value in detectedBy) || |detectedBy| > 2
  }

  /** More detections never turn spam into non-spam. */
  lemma SpamMonotone(dnsbl: Option<string>, a: seq<string>, b: seq<string>)
    requires IsSpam(dnsbl, a)
    requires forall x :: x in a ==> x in b
    requires |a| <= |b|
    ensures IsSpam(dnsbl, b)
  {
  }

  /** The `X-DNSBL` value: verdict, then the detecting providers. */
  function DnsblValue(spam: bool, detectedBy: seq<string>): (v: string)
    ensures StartsWith(v, "pass") <==> spam
  {
    var verdict := if spam then "pass" else "fail";
    var v := verdict + ";detected_by=" + Join(detectedBy, ',');
    assert v[..4] == verdict;
    v
  }

  const DnsblSeparator: string := ";detected_by="

  /** The provider list can be read back from `X-DNSBL`: after the fixed
      prefix, splitting on commas gives the detectors, when there are some
      and none holds a comma. */
  lemma DnsblValueRoundTrip(spam: bool, detectedBy: seq<string>)
    requires |detectedBy| > 0
    requires forall i :: 0 <= i < |detectedBy| ==> ',' !in detectedBy[i]
    ensures var v := DnsblValue(spam, detectedBy);
      |v| >= 17 && v[4..17] == DnsblSeparator && Split(v[17..], ',') == detectedBy
  {
    var verdict := if spam then "pass" else "fail";
    var v := DnsblValue(spam, detectedBy);
    assert v == verdict + DnsblSeparator + Join(detectedBy, ',');
    assert v[17..] == Join(detectedBy, ',');
    SplitJoin(detectedBy, ',');
  }

  /** The five annotation headers, appended in the source's order. */
  function Annotate(m: Message, id: string, checks: Checks, spam: bool): (r: Message)
    ensures r.body == m.body && r.attachments == m.attachments
    ensures |r.headers| == |m.headers| + 5 && r.headers[..|m.headers|] == m.headers
    ensures r.headers[|m.headers| + 3].name == "X-DKIM-Check"
    ensures r.headers[|m.headers| + 3].value == "pass" <==> checks.dkim
    ensures r.headers[|m.headers| + 4].name == "X-DNSBL"
    ensures StartsWith(r.headers[|m.headers| + 4].value, "pass") <==> spam
  {
    var m1 := Add(m, "X-Smtg-Id", id);
    var m2 := Add(m1, "X-SPF-Check", checks.spfResult);
    var m3 := Add(m2, "X-SPF-Check-Details", checks.spfDetails);
    var m4 := Add(m3, "X-DKIM-Check", if checks.dkim then "pass" else "fail");
    var m5 := Add(m4, "X-DNSBL", DnsblValue(spam, checks.detectedBy));
    assert m5.headers[..|m.headers|] == m.headers;
    m5
  }

  /** `if is_spam or spf_result == "fail": return`. */
  predicate Rejects(spam: bool, spfResult: string) {
    spam || spfResult == "fail"
  }

  // ---------------------------------------------------------------------
  // The route chain
  // ---------------------------------------------------------------------

  /** What a route did: returned the recipients left for later routes, or
      raised (which ends `handle_message`). */
  datatype RouteResult = Returned(remaining: seq<string>) | Raised

  /** A route's bot calls and its result. */
  datatype RouteRun = RouteRun(calls: seq<BotCall>, result: RouteResult)

  /** `MailRoute`: recipients and message in, remaining recipients out. */
  type Route = (seq<string>, Message) -> RouteRun

  /** A run of the chain: the recipients each invoked route received, in
      route order, all bot calls, and whether a route raised. */
  datatype Chain = Chain(inputs: seq<seq<string>>, calls: seq<BotCall>, raised: bool)

  /** Does this route run end the chain? */
  predicate Stops(run: RouteRun) {
    run.result.Raised? || |run.result.remaining| == 0
  }

  /** The `for route in self.routes` loop. */
  function RunChain(routes: seq<Route>, recipients: seq<string>, m: Message): (r: Chain)
    ensures |r.inputs| <= |routes|
    ensures |routes| > 0 ==> |r.inputs| > 0 && r.inputs[0] == recipients
    decreases |routes|
  {
    if |routes| == 0 then Chain([], [], false)
    else
      var run := routes[0](recipients, m);
      if Stops(run) then Chain([recipients], run.calls, run.result.Raised?)
      else
        var tail := RunChain(routes[1..], run.result.remaining, m);
        Chain([recipients] + tail.inputs, run.calls + tail.calls, tail.raised)
  }

  /** Routes run in list order, each on what the previous one returned;
      the chain goes on exactly while routes return recipients, and it
      raised iff its last invoked route raised. */
  lemma {:induction false} ChainShape(routes: seq<Route>, recipients: seq<string>, m: Message)
    ensures var r := RunChain(routes, recipients, m);
      && (forall i :: 0 <= i < |r.inputs| - 1 ==>
            !Stops(routes[i](r.inputs[i], m)) && routes[i](r.inputs[i], m).result.remaining == r.inputs[i + 1])
      && (0 < |r.inputs| < |routes| ==> Stops(routes[|r.inputs| - 1](r.inputs[|r.inputs| - 1], m)))
      && (r.raised <==> 0 < |r.inputs| && routes[|r.inputs| - 1](r.inputs[|r.inputs| - 1], m).result.Raised?)
    decreases |routes|
  {
    if |routes| > 0 {
      var run := routes[0](recipients, m);
      if !Stops(run) {
        var tail := RunChain(routes[1..], run.result.remaining, m);
        ChainShape(routes[1..], run.result.remaining, m);
        var r := RunChain(routes, recipients, m);
        assert r.inputs == [recipients] + tail.inputs;
        forall i | 0 < i < |r.inputs|
          ensures r.inputs[i] == tail.inputs[i - 1] && routes[i] == routes[1..][i - 1]
        {
        }
      }
    }
  }

  /** The bot calls of the invoked routes, concatenated in order. */
  function CallsOf(routes: seq<Route>, inputs: seq<seq<string>>, m: Message): seq<BotCall>
    requires |inputs| <= |routes|
    decreases |inputs|
  {
    if |inputs| == 0 then [] else routes[0](inputs[0], m).calls + CallsOf(routes[1..], inputs[1..], m)
  }

  /** The chain's calls are exactly those of the routes it invoked, in
      order: no route outside `inputs` runs. */
  lemma {:induction false} ChainCalls(routes: seq<Route>, recipients: seq<string>, m: Message)
    ensures RunChain(routes, recipients, m).calls == CallsOf(routes, RunChain(routes, recipients, m).inputs, m)
    decreases |routes|
  {
    if |routes| > 0 {
      var run := routes[0](recipients, m);
      if !Stops(run) {
        ChainCalls(routes[1..], run.result.remaining, m);
        var r := RunChain(routes, recipients, m);
        assert r.inputs[1..] == RunChain(routes[1..], run.result.remaining, m).inputs;
      } else {
        assert CallsOf(routes[1..], [], m) == [];
        assert run.calls + [] == run.calls;
      }
    }
  }

  datatype Disposition =
    | RejectedAsSpam          // spam, or SPF failed: no route runs
    | RecipientsMissing       // no `X-Smtg-Rcpt-To` header: `None.split` raises
    | Routed(chain: Chain)

  /** The message as archived, and what happened next. */
  datatype Handled = Handled(archived: Message, disposition: Disposition)

  /** `handle_message`. The archive is written before the reject decision,
      so every outcome carries the annotated message. */
  function HandleMessage(m: Message, dnsbl: Option<string>, id: string, checks: Checks, routes: seq<Route>): (r: Handled)
    ensures r.archived == Annotate(m, id, checks, IsSpam(dnsbl, checks.detectedBy))
    ensures r.disposition.RejectedAsSpam? <==> Rejects(IsSpam(dnsbl, checks.detectedBy), checks.spfResult)
    ensures r.disposition.RecipientsMissing? <==>
      !Rejects(IsSpam(dnsbl, checks.detectedBy), checks.spfResult) && Get(r.archived.headers, RcptToHeader).None?
    ensures r.disposition.Routed? ==>
      r.disposition.chain == RunChain(routes, Split(Get(r.archived.headers, RcptToHeader).value, ','), r.archived)
  {
    var spam := IsSpam(dnsbl, checks.detectedBy);
    var archived := Annotate(m, id, checks, spam);
    if Rejects(spam, checks.spfResult) then Handled(archived, RejectedAsSpam)
    else
      match Get(archived.headers, RcptToHeader)
      case None => Handled(archived, RecipientsMissing)
      case Some(v) => Handled(archived, Routed(RunChain(routes, Split(v, ','), archived)))
  }

  /** The annotation headers never hide an earlier `X-Smtg-Rcpt-To`. */
  lemma AnnotateKeepsRcptTo(m: Message, id: string, checks: Checks, spam: bool)
    ensures Get(Annotate(m, id, checks, spam).headers, RcptToHeader) == Get(m.headers, RcptToHeader)
  {
    var a := Annotate(m, id, checks, spam);
    var tail := a.headers[|m.headers|..];
    assert a.headers == m.headers + tail;
    AnnotationNames(m, id, checks, spam);
    GetNone(tail, RcptToHeader);
    GetAppend(m.headers, tail, RcptToHeader);
  }

  lemma AnnotationNames(m: Message, id: string, checks: Checks, spam: bool)
    ensures var tail := Annotate(m, id, checks, spam).headers[|m.headers|..];
      forall i :: 0 <= i < |tail| ==> |tail[i].name| != |RcptToHeader|
  {
  }

  lemma {:induction false} GetNone(hs: seq<Header>, key: string)
    requires forall i :: 0 <= i < |hs| ==> |hs[i].name| != |key|
    ensures Get(hs, key).None?
  {
    forall i | 0 <= i < |hs|
      ensures !SameName(hs[i].name, key)
    {
      DifferentNames(hs[i].name, key);
    }
  }

  /** The Rcpt-To round trip: a message that arrived without its own
      `X-Smtg-Rcpt-To` field, accepted and not rejected, reaches the first
      route with exactly the recipients of the envelope, provided there is
      at least one and none contains a comma. */
  lemma RecipientsRoundTrip(m: Message, session: Session, env: Envelope, dnsbl: Option<string>,
                            id: string, checks: Checks, routes: seq<Route>)
    requires Get(m.headers, RcptToHeader).None?
    requires |env.rcptTos| > 0 && forall i :: 0 <= i < |env.rcptTos| ==> ',' !in env.rcptTos[i]
    requires !Rejects(IsSpam(dnsbl, checks.detectedBy), checks.spfResult)
    requires |routes| > 0
    ensures var r := HandleMessage(Prepare(m, session, env), dnsbl, id, checks, routes);
      r.disposition.Routed? && r.disposition.chain.inputs[0] == env.rcptTos
  {
    var p := Prepare(m, session, env);
    AnnotateKeepsRcptTo(p, id, checks, IsSpam(dnsbl, checks.detectedBy));
    SplitJoin(env.rcptTos, ',');
  }

  /** The header is read by first match, so a message that already carries
      an `X-Smtg-Rcpt-To` field of its own is routed to the recipients that
      field names, not to the envelope's. */
  lemma SenderHeaderShadowsRecipients(m: Message, session: Session, env: Envelope, dnsbl: Option<string>,
                                      id: string, checks: Checks, routes: seq<Route>, forged: string)
    requires Get(m.headers, RcptToHeader) == Some(forged)
    requires !Rejects(IsSpam(dnsbl, checks.detectedBy), checks.spfResult)
    requires |routes| > 0
    ensures var r := HandleMessage(Prepare(m, session, env), dnsbl, id, checks, routes);
      r.disposition.Routed? && r.disposition.chain.inputs[0] == Split(forged, ',')
  {
    var p := Prepare(m, session, env);
    AnnotateKeepsRcptTo(p, id, checks, IsSpam(dnsbl, checks.detectedBy));
  }
}

=== FILE: inbox.dfy ===
/** inbox.py, the older single-file server: per-login handlers, one
    optional default handler, the RCPT domain check and the dispatch of a
    received message to the handlers of its recipients.

    Handlers are identified by a number (`func`) instead of a Python
    callable; a call is recorded, not performed. The message passed to a
    handler is the same for every call of one `handle_DATA` and is left
    out of the recorded call. */
module Inbox {
  import opened Strings
  import opened Mail
  import Handler

  /** `MailRoute(login, func)`. */
  datatype MailRoute = MailRoute(login: string, func: nat)

  /** The address is the handler's login at the served host. */
  predicate Matches(route: MailRoute, address: string, hostname: string) {
    Lower(address) == Lower(route.login) + "@" + Lower(hostname)
  }

  /** A recorded call of a handler function. */
  datatype Call =
    | HandlerCall(func: nat, dkim: bool, spf: bool)
    | DefaultCall(func: nat, dkim: bool, spf: bool)

  /** `MailRoute.process`: whether it handled the address, and the call. */
  function Process(route: MailRoute, address: string, hostname: string, dkim: bool, spf: bool): (r: (bool, seq<Call>))
    ensures r.0 <==> Matches(route, address, hostname)
    ensures r.0 ==> r.1 == [HandlerCall(route.func, dkim, spf)]
    ensures !r.0 ==> r.1 == []
  {
    if Matches(route, address, hostname) then (true, [HandlerCall(route.func, dkim, spf)]) else (false, [])
  }

  /** Every address a handler takes is one `handle_RCPT` accepted. */
  lemma MatchIsInDomain(route: MailRoute, address: string, hostname: string)
    requires Matches(route, address, hostname)
    ensures Handler.InDomain(address, hostname)
  {
    var low := Lower(address);
    var suffix := "@" + Lower(hostname);
    assert low == Lower(route.login) + suffix;
    assert low[|low| - |suffix|..] == suffix;
  }

  // ---------------------------------------------------------------------
  // Registration
  // ---------------------------------------------------------------------

  datatype Registry = Registry(handlers: seq<MailRoute>, default: Option<nat>)

  const Empty: Registry := Registry([], None)

  datatype Registration = Registered(registry: Registry) | AlreadySet

  /** `default_route`: a second default raises `ValueError`. */
  function DefaultRoute(reg: Registry, func: nat): (r: Registration)
    ensures r.AlreadySet? <==> reg.default.Some?
    ensures r.Registered? ==> r.registry == reg.(default := Some(func))
  {
    if reg.default.Some? then AlreadySet else Registered(reg.(default := Some(func)))
  }

  /** Once a default is set it stays: setting another fails, and the
      registry the caller holds still names the first. */
  lemma DefaultRouteKeepsFirst(reg: Registry, f: nat, g: nat)
    requires reg.default.None?
    ensures DefaultRoute(reg, f).Registered?
    ensures DefaultRoute(DefaultRoute(reg, f).registry, g).AlreadySet?
    ensures DefaultRoute(reg, f).registry.default == Some(f)
  {
  }

  // ---------------------------------------------------------------------
  // RCPT
  // ---------------------------------------------------------------------

  /** `handle_RCPT`: the reply, and the recipient list afterwards. */
  function HandleRcpt(rcptTos: seq<string>, address: string, hostname: string): (r: (string, seq<string>))
    ensures Handler.InDomain(address, hostname) ==> r == ("250 OK", rcptTos + [address])
    ensures !Handler.InDomain(address, hostname) ==> r == ("550 Not relaying to this domain", rcptTos)
  {
    if !Handler.InDomain(address, hostname) then ("550 Not relaying to this domain", rcptTos)
    else ("250 OK", rcptTos + [address])
  }

  // ---------------------------------------------------------------------
  // DATA
  // ---------------------------------------------------------------------

  /** The two flags `handle_DATA` computes from the message headers. */
  function DkimFlag(headers: seq<Header>): bool {
    Contains(Get(headers, "Authentication-Results").GetOr(""), "dkim=pass")
  }

  function SpfFlag(headers: seq<Header>): bool {
    Contains(Get(headers, "Received-SPF").GetOr(""), "Pass")
  }

  /** The first handler whose login matches the address. */
  function FirstMatch(handlers: seq<MailRoute>, address: string, hostname: string): (r: Option<nat>)
    ensures r.None? <==> forall k :: 0 <= k < |handlers| ==> !Matches(handlers[k], address, hostname)
    ensures r.Some? ==>
      && r.value < |handlers|
      && Matches(handlers[r.value], address, hostname)
      && forall k :: 0 <= k < r.value ==> !Matches(handlers[k], address, hostname)
    decreases |handlers|
  {
    if |handlers| == 0 then None
    else if Matches(handlers[0], address, hostname) then Some(0)
    else
      var r := FirstMatch(handlers[1..], address, hostname);
      assert forall k :: 0 < k < |handlers| ==> handlers[k] == handlers[1..][k - 1];
      match r
      case None => None
      case Some(i) => Some(i + 1)
  }

  /** The calls made for one recipient: its first matching handler, else
      the default handler if one is set and has not fired yet; and whether
      the default has fired afterwards. */
  function RecipientCalls(reg: Registry, address: string, hostname: string, dkim: bool, spf: bool, triggered: bool): (seq<Call>, bool) {
    match FirstMatch(reg.handlers, address, hostname)
    case Some(i) => ([HandlerCall(reg.handlers[i].func, dkim, spf)], triggered)
    case None =>
      if !triggered && reg.default.Some? then ([DefaultCall(reg.default.value, dkim, spf)], true)
      else ([], triggered)
  }

  /** The calls of `handle_DATA` for the remaining recipients, given
      whether the default has already fired. */
  function Dispatch(reg: Registry, rcpts: seq<string>, hostname: string, dkim: bool, spf: bool, triggered: bool): (r: seq<Call>)
    ensures |r| <= |rcpts|
    ensures forall k :: 0 <= k < |r| ==> r[k].dkim == dkim && r[k].spf == spf
    ensures forall k :: 0 <= k < |r| && r[k].DefaultCall? ==> !triggered && reg.default == Some(r[k].func)
    decreases |rcpts|
  {
    if |rcpts| == 0 then []
    else
      var step := RecipientCalls(reg, rcpts[0], hostname, dkim, spf, triggered);
      var rest := Dispatch(reg, rcpts[1..], hostname, dkim, spf, step.1);
      assert step.1 ==> triggered || step.0 == [DefaultCall(reg.default.value, dkim, spf)];
      assert forall k :: |step.0| <= k < |step.0| + |rest| ==> (step.0 + rest)[k] == rest[k - |step.0|];
      step.0 + rest
  }

  /** The inner `for ... else` of `handle_DATA`: try the handlers in
      order, stop at the first that takes the address, and otherwise call
      the default handler unless it has fired already. */
  method RouteRecipient(reg: Registry, recipient: string, hostname: string, dkim: bool, spf: bool, triggered: bool)
    returns (made: seq<Call>, after: bool)
    ensures (made, after) == RecipientCalls(reg, recipient, hostname, dkim, spf, triggered)
    ensures |made| <= 1 && (after <==> triggered || (|made| == 1 && made[0].DefaultCall?))
  {
    var j := 0;
    var found: Option<nat> := None;
    made := [];
    while j < |reg.handlers| && found.None?
      invariant 0 <= j <= |reg.handlers|
      invariant found.None? ==> made == [] && forall k :: 0 <= k < j ==> !Matches(reg.handlers[k], recipient, hostname)
      invariant found.Some? ==>
        && FirstMatch(reg.handlers, recipient, hostname) == found
        && made == [HandlerCall(reg.handlers[found.value].func, dkim, spf)]
    {
      var r := Process(reg.handlers[j], recipient, hostname, dkim, spf);
      if r.0 {
        found := Some(j);
        made := r.1;
      }
      j := j + 1;
    }
    after := triggered;
    if found.None? && !triggered && reg.default.Some? {
      after := true;
      made := [DefaultCall(reg.default.value, dkim, spf)];
    }
  }

  /** One turn of the recipient loop keeps the dispatch invariant. */
  lemma DispatchStep(reg: Registry, rcpts: seq<string>, i: nat, hostname: string, dkim: bool, spf: bool,
                     triggered: bool, calls: seq<Call>, made: seq<Call>, after: bool)
    requires i < |rcpts|
    requires (made, after) == RecipientCalls(reg, rcpts[i], hostname, dkim, spf, triggered)
    ensures calls + Dispatch(reg, rcpts[i..], hostname, dkim, spf, triggered)
         == (calls + made) + Dispatch(reg, rcpts[i + 1..], hostname, dkim, spf, after)
  {
    assert rcpts[i..][0] == rcpts[i];
    assert rcpts[i..][1..] == rcpts[i + 1..];
    assert Dispatch(reg, rcpts[i..], hostname, dkim, spf, triggered)
        == made + Dispatch(reg, rcpts[i + 1..], hostname, dkim, spf, after);
  }

  /** The loop of `handle_DATA` over the recipients, in order. */
  method DispatchAll(reg: Registry, rcptTos: seq<string>, hostname: string, dkim: bool, spf: bool)
    returns (calls: seq<Call>)
    ensures calls == Dispatch(reg, rcptTos, hostname, dkim, spf, false)
  {
    var triggered := false;
    calls := [];
    var i := 0;
    while i < |rcptTos|
      invariant 0 <= i <= |rcptTos|
      invariant calls + Dispatch(reg, rcptTos[i..], hostname, dkim, spf, triggered)
             == Dispatch(reg, rcptTos, hostname, dkim, spf, false)
    {
      var made, after := RouteRecipient(reg, rcptTos[i], hostname, dkim, spf, triggered);
      DispatchStep(reg, rcptTos, i, hostname, dkim, spf, triggered, calls, made, after);
      calls, triggered, i := calls + made, after, i + 1;
    }
    assert rcptTos[i..] == [];
  }

  /** `handle_DATA` once the message is parsed: the flags read from the
      headers, the calls of the dispatch loop and the reply. The handler
      functions are outside code that may raise; `raises` says which calls
      do. A raise leaves `handle_DATA` at once: the calls made are those
      of the dispatch up to and including the raising one, and there is
      no reply. Since the calls for a recipient depend only on earlier
      recipients, that is the full dispatch cut after its first raising
      call. */
  method HandleData(reg: Registry, rcptTos: seq<string>, headers: seq<Header>, hostname: string, raises: Call -> bool)
    returns (calls: seq<Call>, reply: Option<string>)
    ensures var planned := Dispatch(reg, rcptTos, hostname, DkimFlag(headers), SpfFlag(headers), false);
      && |calls| <= |planned|
      && calls == planned[..|calls|]
      && (forall k :: 0 <= k < |calls| - 1 ==> !raises(calls[k]))
      && (reply.Some? <==> forall k :: 0 <= k < |planned| ==> !raises(planned[k]))
      && (reply.Some? ==> reply.value == "250 Message accepted for delivery" && calls == planned)
      && (reply.None? ==> |calls| > 0 && raises(calls[|calls| - 1]))
  {
    var planned := DispatchAll(reg, rcptTos, hostname, DkimFlag(headers), SpfFlag(headers));
    var i := 0;
    while i < |planned| && !raises(planned[i])
      invariant 0 <= i <= |planned|
      invariant forall k :: 0 <= k < i ==> !raises(planned[k])
    {
      i := i + 1;
    }
    if i < |planned| {
      calls, reply := planned[..i + 1], None;
    } else {
      calls, reply := planned, Some("250 Message accepted for delivery");
    }
  }

  /** How often the default handler is called in a trace. */
  function DefaultCount(calls: seq<Call>): nat {
    if |calls| == 0 then 0 else (if calls[0].DefaultCall? then 1 else 0) + DefaultCount(calls[1..])
  }

  /** Some recipient is matched by no handler. */
  predicate SomeUnmatched(handlers: seq<MailRoute>, rcpts: seq<string>, hostname: string) {
    exists k :: 0 <= k < |rcpts| && FirstMatch(handlers, rcpts[k], hostname).None?
  }

  /** One recipient's calls in front of the rest: counts add up. */
  lemma CountsCons(made: seq<Call>, rest: seq<Call>)
    requires |made| <= 1
    ensures DefaultCount(made + rest) == DefaultCount(made) + DefaultCount(rest)
    ensures HandlerCalls(made + rest) == HandlerCalls(made) + HandlerCalls(rest)
  {
    if |made| == 1 {
      assert (made + rest)[1..] == rest;
      assert made[1..] == [];
    } else {
      assert made + rest == rest;
    }
  }

  /** The default handler fires at most once per message, and it fires iff
      a default is set and some recipient matched no handler. */
  lemma {:induction false} DefaultFiresOnce(reg: Registry, rcpts: seq<string>, hostname: string, dkim: bool, spf: bool, triggered: bool)
    ensures DefaultCount(Dispatch(reg, rcpts, hostname, dkim, spf, triggered)) <= (if triggered then 0 else 1)
    ensures !triggered ==>
      (DefaultCount(Dispatch(reg, rcpts, hostname, dkim, spf, triggered)) == 1 <==>
       reg.default.Some? && SomeUnmatched(reg.handlers, rcpts, hostname))
    decreases |rcpts|
  {
    if |rcpts| > 0 {
      var rest := rcpts[1..];
      var step := RecipientCalls(reg, rcpts[0], hostname, dkim, spf, triggered);
      DefaultFiresOnce(reg, rest, hostname, dkim, spf, step.1);
      CountsCons(step.0, Dispatch(reg, rest, hostname, dkim, spf, step.1));
      if FirstMatch(reg.handlers, rcpts[0], hostname).Some? {
        UnmatchedTail(reg.handlers, rcpts, hostname);
      }
    }
  }

  lemma UnmatchedTail(handlers: seq<MailRoute>, rcpts: seq<string>, hostname: string)
    requires |rcpts| > 0 && FirstMatch(handlers, rcpts[0], hostname).Some?
    ensures SomeUnmatched(handlers, rcpts, hostname) <==> SomeUnmatched(handlers, rcpts[1..], hostname)
  {
    if SomeUnmatched(handlers, rcpts, hostname) {
      var k :| 0 <= k < |rcpts| && FirstMatch(handlers, rcpts[k], hostname).None?;
      assert rcpts[1..][k - 1] == rcpts[k];
    }
    if SomeUnmatched(handlers, rcpts[1..], hostname) {
      var k :| 0 <= k < |rcpts[1..]| && FirstMatch(handlers, rcpts[1..][k], hostname).None?;
      assert rcpts[k + 1] == rcpts[1..][k];
    }
  }

  /** Each recipient that some handler matches produces exactly one call,
      of the first such handler, in recipient order. */
  lemma {:induction false} HandlerCallsFollowRecipients(reg: Registry, rcpts: seq<string>, hostname: string, dkim: bool, spf: bool, triggered: bool)
    ensures HandlerCalls(Dispatch(reg, rcpts, hostname, dkim, spf, triggered)) == FirstHandlers(reg.handlers, rcpts, hostname)
    decreases |rcpts|
  {
    if |rcpts| > 0 {
      var rest := rcpts[1..];
      var step := RecipientCalls(reg, rcpts[0], hostname, dkim, spf, triggered);
      HandlerCallsFollowRecipients(reg, rest, hostname, dkim, spf, step.1);
      CountsCons(step.0, Dispatch(reg, rest, hostname, dkim, spf, step.1));
    }
  }

  /** The handler functions of a trace, in order. */
  function HandlerCalls(calls: seq<Call>): seq<nat> {
    if |calls| == 0 then []
    else (if calls[0].HandlerCall? then [calls[0].func] else []) + HandlerCalls(calls[1..])
  }

  /** For each recipient in turn, the function of its first matching
      handler, if any. */
  function FirstHandlers(handlers: seq<MailRoute>, rcpts: seq<string>, hostname: string): seq<nat> {
    if |rcpts| == 0 then []
    else
      (match FirstMatch(handlers, rcpts[0], hostname)
       case Some(i) => [handlers[i].func]
       case None => [])
      + FirstHandlers(handlers, rcpts[1..], hostname)
  }
}

=== FILE: legacybot.dfy ===
/** bot.py, the older delivery path: it renders a whole message (headers,
    every MIME part, the verification warnings) into one HTML text and
    sends it to one chat, in 4096-character slices when it is long.

    Everything the module gets from outside is a parameter: the decoding
    of encoded headers (`decode_header` plus `bytes.decode`), the transfer
    and UTF-8 decoding of a part's payload, the HTML tokenizer, the MD5
    digest, the clock and the media URL. Both decoders are strict UTF-8
    decodings in the source and raise on bytes that are not UTF-8: they
    are partial here, None standing for that raise. */
module LegacyBot {
  import opened Strings
  import opened Markup
  import opened Mail
  import LegacyParser

  /** A computation that either gives a value or raises. */
  datatype Outcome<T> = Done(value: T) | Raised

  // ---------------------------------------------------------------------
  // sanitize_fn
  // ---------------------------------------------------------------------

  predicate IsAscii(s: string) {
    forall i :: 0 <= i < |s| ==> s[i] < '\U{80}'
  }

  /** `text.split(".")[-1]` when the name has a dot, else "q". */
  function Extension(text: string): (ext: string)
    ensures '.' !in ext
    ensures '.' in text ==> EndsWith(text, "." + ext)
    ensures '.' !in text ==> ext == "q"
  {
    if '.' in text then
      var parts := Split(text, '.');
      SplitLastSegment(text, '.');
      parts[|parts| - 1]
    else "q"
  }

  /** The last piece of a split is the text after the last separator. */
  lemma {:induction false} SplitLastSegment(s: string, sep: char)
    ensures var parts := Split(s, sep);
      var last := parts[|parts| - 1];
      && sep !in last
      && EndsWith(s, last)
      && (sep in s ==> EndsWith(s, [sep] + last))
    decreases |s|
  {
    if sep !in s {
      SplitNoSeparator(s, sep);
    } else {
      var i := FirstIndex(s, sep);
      SplitAtFirst(s, sep);
      SplitLastSegment(s[i + 1..], sep);
      if sep !in s[i + 1..] {
        SplitNoSeparator(s[i + 1..], sep);
      }
      LastAfterFirst(s, i, sep, Split(s, sep), Split(s[i + 1..], sep));
    }
  }

  /** The step of `SplitLastSegment`, free of `Split` itself: the pieces
      after the first separator end the same way as all pieces do. */
  lemma LastAfterFirst(s: string, i: nat, sep: char, parts: seq<string>, rest: seq<string>)
    requires i < |s| && s[i] == sep
    requires |rest| > 0 && parts == [s[..i]] + rest
    requires var last := rest[|rest| - 1];
      && sep !in last
      && EndsWith(s[i + 1..], last)
      && (sep in s[i + 1..] ==> EndsWith(s[i + 1..], [sep] + last))
    requires sep !in s[i + 1..] ==> rest == [s[i + 1..]]
    ensures var last := parts[|parts| - 1];
      && sep !in last
      && EndsWith(s, last)
      && EndsWith(s, [sep] + last)
  {
    var last := rest[|rest| - 1];
    LastOfCons(s[..i], rest);
    EndsWithTail(s, i, last);
    if sep in s[i + 1..] {
      EndsWithTail(s, i, [sep] + last);
    } else {
      SuffixFrom(s, i);
    }
  }

  /** Splitting cuts off the text before the first separator. */
  lemma SplitAtFirst(s: string, sep: char)
    requires sep in s
    ensures var i := FirstIndex(s, sep);
      Split(s, sep) == [s[..i]] + Split(s[i + 1..], sep)
  {
    var i := FirstIndex(s, sep);
    assert s == s[..i] + [sep] + s[i + 1..];
    SplitAfterSegment(s[..i], sep, s[i + 1..]);
  }

  lemma LastOfCons(a: string, rest: seq<string>)
    requires |rest| > 0
    ensures ([a] + rest)[|[a] + rest| - 1] == rest[|rest| - 1]
  {
  }

  /** A suffix of the text after position `i` is a suffix of the text. */
  lemma EndsWithTail(s: string, i: nat, x: string)
    requires i < |s|
    ensures EndsWith(s[i + 1..], x) ==> EndsWith(s, x)
  {
    if EndsWith(s[i + 1..], x) {
      assert s[|s| - |x|..] == s[i + 1..][|s[i + 1..]| - |x|..];
    }
  }

  lemma SuffixFrom(s: string, i: nat)
    requires i < |s|
    ensures EndsWith(s, [s[i]] + s[i + 1..])
  {
    assert s[i..] == [s[i]] + s[i + 1..];
  }

  /** Index of the first occurrence of `c`. */
  function FirstIndex(s: string, c: char): (i: nat)
    requires c in s
    ensures i < |s| && s[i] == c && c !in s[..i]
  {
    if s[0] == c then 0
    else
      var i := FirstIndex(s[1..], c) + 1;
      assert s[..i] == [s[0]] + s[1..][..i - 1];
      i
  }

  /** `sanitize_fn`. A name with a character beyond ASCII makes
      `quopri.decodestring` raise, and the handler's `except e:` then
      raises again because `e` is not defined there; otherwise short
      alphanumeric names are kept, names with an alphanumeric 30-character
      head are cut to it plus the extension, and all others become the
      digest plus the extension. */
  function Sanitize(text: string, md5: string -> string): (r: Outcome<string>)
    ensures r.Raised? <==> !IsAscii(text)
    ensures IsAscii(text) && IsAlnum(text) && |text| < 42 ==> r == Done(text)
    ensures IsAscii(text) && !(IsAlnum(text) && |text| < 42) && |text| >= 30 && IsAlnum(text[..30]) ==>
      r == Done(text[..30] + "." + Extension(text))
    ensures IsAscii(text) && !IsAlnum(text[..Min(30, |text|)]) ==>
      r == Done(md5(text) + "." + Extension(text))
  {
    if !IsAscii(text) then Raised
    else if IsAlnum(text) && |text| < 42 then Done(text)
    else if IsAlnum(text[..Min(30, |text|)]) then Done(text[..Min(30, |text|)] + "." + Extension(text))
    else Done(md5(text) + "." + Extension(text))
  }

  function Min(a: nat, b: nat): nat {
    if a < b then a else b
  }

  /** A name `sanitize_fn` kept or cut comes back unchanged when sanitized
      again; only a digested name is not a fixed point. */
  lemma SanitizeFixesKeptNames(text: string, md5: string -> string)
    requires IsAscii(text) && IsAlnum(text[..Min(30, |text|)])
    ensures Sanitize(text, md5).Done?
    ensures Sanitize(Sanitize(text, md5).value, md5) == Sanitize(text, md5)
  {
    if !(IsAlnum(text) && |text| < 42) {
      ShortHead(text);
      var ext := Extension(text);
      var head := text[..30];
      var r := head + "." + ext;
      assert r[..30] == head;
      assert r == head + ['.'] + ext;
      SplitAfterSegment(head, '.', ext);
      assert '.' !in head by {
        assert forall i :: 0 <= i < 30 ==> IsAlnumChar(head[i]);
      }
      SplitNoSeparator(ext, '.');
      assert r[30] == '.';
      assert !IsAlnum(r);
      assert '.' in r;
      assert IsAscii(ext) by {
        if '.' in text {
          var tail := text[|text| - |ext| - 1..];
          assert tail == "." + ext;
          forall j | 0 <= j < |ext|
            ensures ext[j] < '\U{80}'
          {
            assert ext[j] == tail[j + 1] == text[|text| - |ext| + j];
          }
        }
      }
      assert IsAscii(r) by {
        forall i | 0 <= i < |r|
          ensures r[i] < '\U{80}'
        {
          if i > 30 {
            assert r[i] == ext[i - 31];
          } else if i < 30 {
            assert r[i] == text[i];
          }
        }
      }
    }
  }

  /** The short names `sanitize_fn` returns unchanged are exactly the
      alphanumeric ones, given a 32-character digest. */
  lemma SanitizeShortUnchangedIff(text: string, md5: string -> string)
    requires IsAscii(text) && |text| < 30 && |md5(text)| == 32
    ensures Sanitize(text, md5) == Done(text) <==> IsAlnum(text)
  {
    ShortHead(text);
  }

  /** A name that is not kept but has an alphanumeric 30-character head is
      returned unchanged exactly when it already is that head, a dot and a last
      segment without dots. */
  lemma {:induction false} SanitizeCutUnchangedIff(text: string, md5: string -> string)
    requires IsAscii(text) && |text| > 30 && IsAlnum(text[..30]) && !(IsAlnum(text) && |text| < 42)
    ensures Sanitize(text, md5) == Done(text) <==> text[30] == '.' && '.' !in text[31..]
  {
    var ext := Extension(text);
    var head := text[..30];
    assert '.' !in head by {
      assert forall i :: 0 <= i < 30 ==> IsAlnumChar(head[i]);
    }
    assert Sanitize(text, md5) == Done(head + "." + ext);
    if text[30] == '.' && '.' !in text[31..] {
      var tail := text[31..];
      assert text == head + ['.'] + tail;
      SplitAfterSegment(head, '.', tail);
      SplitNoSeparator(tail, '.');
      assert Split(text, '.') == [head, tail];
      assert ext == tail;
    }
    if head + "." + ext == text {
      assert text[30] == (head + "." + ext)[30] == '.';
      assert text[31..] == ext;
    }
  }

  /** A name shorter than 30 characters is its own head. */
  lemma ShortHead(text: string)
    ensures |text| < 30 ==> text[..Min(30, |text|)] == text
  {
  }

  /** The extension is copied as it stands: a slash after the last dot
      reaches the stored file name. */
  lemma ExtensionKeepsSlash(md5: string -> string)
    ensures Sanitize("a.b/c", md5) == Done(md5("a.b/c") + ".b/c")
  {
    var text := "a.b/c";
    SplitNoSeparator("b/c", '.');
    assert text == "a" + ['.'] + "b/c";
    SplitAfterSegment("a", '.', "b/c");
    assert Split(text, '.') == ["a", "b/c"];
    assert text[1] == '.';
    assert Extension(text) == "b/c";
    assert !IsAlnum(text) && Min(30, |text|) == 5 && text[..5] == text;
    assert IsAscii(text);
    assert Sanitize(text, md5) == Done(md5(text) + "." + Extension(text));
    ConcatAssoc(md5(text), ".", "b/c");
  }

  // ---------------------------------------------------------------------
  // safe
  // ---------------------------------------------------------------------

  /** `safe`: the decoded header with `&`, `<` and `>` replaced in turn. */
  function Safe(decode: string -> Option<string>, text: string): (r: Outcome<string>)
    ensures r.Raised? <==> decode(text).None?
    ensures r.Done? ==> NoAngles(r.value)
  {
    match decode(text)
    case None => Raised
    case Some(d) =>
      ReplaceChainIsEscape(d);
      EscapeIsSafe(d, false);
      Done(ReplaceChain(d))
  }

  /** The chain of three replacements escapes each character once:
      decoding the entities gives the header back. */
  lemma SafeIsEscape(decode: string -> Option<string>, text: string)
    ensures decode(text).Some? ==> Safe(decode, text) == Done(Escape(decode(text).value, false))
  {
    if decode(text).Some? {
      ReplaceChainIsEscape(decode(text).value);
    }
  }

  // ---------------------------------------------------------------------
  // Whitespace normalisation of a text part
  // ---------------------------------------------------------------------

  /** `re.sub(r"(\r\n|\r)", "\n", s)`. */
  function CrLf(s: string): string
    decreases |s|
  {
    if |s| == 0 then ""
    else if s[0] == '\r' && |s| > 1 && s[1] == '\n' then "\n" + CrLf(s[2..])
    else if s[0] == '\r' then "\n" + CrLf(s[1..])
    else [s[0]] + CrLf(s[1..])
  }

  /** The four substitutions of `message_content` on a text part. The
      third, `(\n\s)+\n` to `\n`, is the identity on its input, which has
      no newline left, so it is not spelled out; the fourth, removing
      newlines, finds none either, so every run of whitespace becomes one
      space (`NormaliseRun`). */
  function Normalise(s: string): (r: string)
    ensures r == Collapse(CrLf(s))
    ensures Collapsed(r)
    ensures '\n' !in r
    ensures NonSpaces(r) == NonSpaces(s)
  {
    NormaliseShape(s);
    Without(Collapse(CrLf(s)), '\n')
  }

  /** The text the parser sees is collapsed, holds no newline, and keeps
      every non-whitespace character of the payload in order. */
  lemma NormaliseShape(s: string)
    ensures Without(Collapse(CrLf(s)), '\n') == Collapse(CrLf(s))
    ensures Collapsed(Without(Collapse(CrLf(s)), '\n'))
    ensures '\n' !in Without(Collapse(CrLf(s)), '\n')
    ensures NonSpaces(Without(Collapse(CrLf(s)), '\n')) == NonSpaces(s)
  {
    var c := Collapse(CrLf(s));
    CollapseIsCollapsed(CrLf(s));
    assert '\n' !in c by {
      forall i | 0 <= i < |c|
        ensures c[i] != '\n'
      {
        assert IsSpace('\n');
      }
    }
    WithoutAbsent(c, '\n');
    CollapseKeepsNonSpaces(CrLf(s));
    CrLfKeepsNonSpaces(s);
  }

  lemma {:induction false} WithoutAbsent(s: string, c: char)
    requires c !in s
    ensures Without(s, c) == s
    decreases |s|
  {
    if |s| > 0 {
      WithoutAbsent(s[1..], c);
      assert [s[0]] + s[1..] == s;
    }
  }

  /** Text without carriage returns passes the first substitution
      unchanged. */
  lemma {:induction false} CrLfIdle(s: string)
    requires '\r' !in s
    ensures CrLf(s) == s
    decreases |s|
  {
    if |s| > 0 {
      CrLfIdle(s[1..]);
      assert [s[0]] + s[1..] == s;
    }
  }

  /** On text without carriage returns, a maximal run of whitespace becomes
      one space and the text on either side is normalised on its own. */
  lemma NormaliseRun(a: string, w: string, b: string)
    requires '\r' !in a + w + b
    requires |w| > 0 && forall k :: 0 <= k < |w| ==> IsSpace(w[k])
    requires |a| == 0 || !IsSpace(a[|a| - 1])
    requires |b| == 0 || !IsSpace(b[0])
    ensures Normalise(a + w + b) == Normalise(a) + " " + Normalise(b)
  {
    CrLfIdle(a + w + b);
    CrLfIdle(a);
    CrLfIdle(b);
    CollapseRun(a, w, b);
  }

  lemma {:induction false} CrLfKeepsNonSpaces(s: string)
    ensures NonSpaces(CrLf(s)) == NonSpaces(s)
    decreases |s|
  {
    if |s| > 0 {
      if s[0] == '\r' && |s| > 1 && s[1] == '\n' {
        CrLfKeepsNonSpaces(s[2..]);
        assert NonSpaces(CrLf(s)) == NonSpaces("\n" + CrLf(s[2..]));
        NonSpacesAppend("\n", CrLf(s[2..]));
        NonSpacesAppend(s[..2], s[2..]);
        assert s == s[..2] + s[2..];
        assert NonSpaces(s[..2]) == "" by {
          assert s[..2][1..] == "\n";
        }
      } else {
        CrLfKeepsNonSpaces(s[1..]);
        var h: string := if s[0] == '\r' then "\n" else [s[0]];
        assert CrLf(s) == h + CrLf(s[1..]);
        NonSpacesAppend(h, CrLf(s[1..]));
      }
    }
  }

  // ---------------------------------------------------------------------
  // message_content
  // ---------------------------------------------------------------------

  /** A MIME part: a container of parts, or a single part with its
      content type, its raw payload and its file name if it has one. */
  datatype Part =
    | Multipart(parts: seq<Part>)
    | Single(contentType: string, payload: string, filename: Option<string>)

  /** What `message_content` gets from outside. `stores` says whether the
      media file of the given name can be opened and written; `open`
      raises otherwise, for instance when the name holds a `/` naming a
      directory that does not exist. */
  datatype Env = Env(
    decodePayload: string -> Option<string>,
    tokenize: string -> seq<Event>,
    md5: string -> string,
    now: nat,
    mediaRoot: string,
    stores: string -> bool)

  predicate IsText(contentType: string) {
    contentType == "text/html" || contentType == "text/plain"
  }

  /** Python's `"\n\n".join(xs)`. */
  function JoinParas(xs: seq<string>): string {
    if |xs| == 0 then ""
    else if |xs| == 1 then xs[0]
    else xs[0] + "\n\n" + JoinParas(xs[1..])
  }

  /** The name of the media file an attachment is written to: the time
      stamp, a dash and the sanitized name. */
  function MediaName(name: string, env: Env): string {
    Decimal(env.now) + "-" + name
  }

  /** The line an attachment becomes, naming the URL of its stored file. */
  function AttachmentLine(contentType: string, payload: string, name: string, env: Env): string {
    "Attachment " + contentType + ", " + Decimal(|payload|) + " bytes, "
      + env.mediaRoot + "/" + MediaName(name, env)
  }

  /** `message_content`. A single part raises exactly when it fails on its
      own, a container exactly when one of its children does
      (`ContentRaisesIffPartFails` extends this to the whole tree), and an
      attachment becomes a line naming its type and its stored file. */
  function Content(p: Part, env: Env): (r: Outcome<string>)
    ensures p.Single? ==> (r.Raised? <==> PartFails(p, env))
    ensures p.Single? && !IsText(p.contentType) && r.Done? ==>
      && Sanitize(p.filename.GetOr("file"), env.md5).Done?
      && env.stores(MediaName(Sanitize(p.filename.GetOr("file"), env.md5).value, env))
      && StartsWith(r.value, "Attachment " + p.contentType + ", ")
      && EndsWith(r.value, "-" + Sanitize(p.filename.GetOr("file"), env.md5).value)
    ensures p.Multipart? ==> (r.Raised? <==> ContentsFrom(p, 0, env).Raised?)
    decreases p, if p.Multipart? then |p.parts| + 1 else 0
  {
    match p
    case Multipart(ps) =>
      (match ContentsFrom(p, 0, env)
       case Raised => Raised
       case Done(xs) => Done(JoinParas(xs)))
    case Single(ct, payload, filename) =>
      if IsText(ct) then
        match env.decodePayload(payload)
        case None => Raised
        case Some(text) => Done(LegacyParser.Feed(LegacyParser.Init, env.tokenize(Normalise(text))).output)
      else Attachment(ct, payload, filename, env)
  }

  /** The attachment branch: the name is sanitized, the media file written
      and its line returned; the branch raises exactly when the name
      raises or the file cannot be written. */
  function Attachment(ct: string, payload: string, filename: Option<string>, env: Env): (r: Outcome<string>)
    ensures r.Raised? <==> AttachmentFails(filename, env)
    ensures r.Done? ==>
      && Sanitize(filename.GetOr("file"), env.md5).Done?
      && env.stores(MediaName(Sanitize(filename.GetOr("file"), env.md5).value, env))
      && StartsWith(r.value, "Attachment " + ct + ", ")
      && EndsWith(r.value, "-" + Sanitize(filename.GetOr("file"), env.md5).value)
  {
    match Sanitize(filename.GetOr("file"), env.md5)
    case Raised => Raised
    case Done(name) =>
      if env.stores(MediaName(name, env)) then Done(AttachmentLine(ct, payload, name, env)) else Raised
  }

  /** The name of an attachment raises in `sanitize_fn`, or `open` cannot
      write its media file. */
  predicate AttachmentFails(filename: Option<string>, env: Env) {
    match Sanitize(filename.GetOr("file"), env.md5)
    case Raised => true
    case Done(name) => !env.stores(MediaName(name, env))
  }

  /** The contents of the children of a container from index `i` on. */
  function ContentsFrom(p: Part, i: nat, env: Env): (r: Outcome<seq<string>>)
    requires p.Multipart? && i <= |p.parts|
    ensures r.Done? ==> |r.value| == |p.parts| - i
    decreases p, |p.parts| - i
  {
    if i == |p.parts| then Done([])
    else
      match Content(p.parts[i], env)
      case Raised => Raised
      case Done(x) =>
        match ContentsFrom(p, i + 1, env)
        case Raised => Raised
        case Done(xs) => Done([x] + xs)
  }

  /** Somewhere in the tree a text part's payload does not decode, or an
      attachment's name is not ASCII, or its media file cannot be written. */
  predicate PartFails(p: Part, env: Env)
    decreases p
  {
    match p
    case Single(ct, payload, filename) =>
      if IsText(ct) then env.decodePayload(payload).None? else AttachmentFails(filename, env)
    case Multipart(ps) => exists k :: 0 <= k < |ps| && PartFails(ps[k], env)
  }

  /** `message_content` raises exactly when some text part in the tree does
      not decode, some attachment has a name beyond ASCII, or some
      attachment's media file cannot be written. */
  lemma {:induction false} ContentRaisesIffPartFails(p: Part, env: Env)
    ensures Content(p, env).Raised? <==> PartFails(p, env)
    decreases p, if p.Multipart? then |p.parts| + 1 else 0
  {
    if p.Multipart? {
      ContentsFromRaises(p, 0, env);
      assert PartFails(p, env) <==> FailsFrom(p, 0, env);
    }
  }

  lemma {:induction false} ContentsFromRaises(p: Part, i: nat, env: Env)
    requires p.Multipart? && i <= |p.parts|
    ensures ContentsFrom(p, i, env).Raised? <==> FailsFrom(p, i, env)
    decreases p, |p.parts| - i
  {
    if i < |p.parts| {
      ContentsFromCons(p, i, env);
      ContentRaisesIffPartFails(p.parts[i], env);
      ContentsFromRaises(p, i + 1, env);
      FailsFromCons(p, i, env);
    }
  }

  /** Some child from index `i` on fails. */
  predicate FailsFrom(p: Part, i: nat, env: Env)
    requires p.Multipart?
  {
    exists k :: i <= k < |p.parts| && PartFails(p.parts[k], env)
  }

  lemma FailsFromCons(p: Part, i: nat, env: Env)
    requires p.Multipart? && i < |p.parts|
    ensures FailsFrom(p, i, env) <==> PartFails(p.parts[i], env) || FailsFrom(p, i + 1, env)
  {
  }

  lemma ContentsFromCons(p: Part, i: nat, env: Env)
    requires p.Multipart? && i < |p.parts|
    ensures ContentsFrom(p, i, env).Raised? <==> Content(p.parts[i], env).Raised? || ContentsFrom(p, i + 1, env).Raised?
  {
  }

  // ---------------------------------------------------------------------
  // send_message
  // ---------------------------------------------------------------------

  /** The message as `send_message` reads it. */
  datatype Email = Email(headers: seq<Header>, root: Part)

  /** The envelope icon: the source writes it as two UTF-16 surrogate
      halves, which a Dafny character cannot hold; two replacement
      characters stand in for them, keeping the length Python counts. */
  const Icon: string := "\U{FFFD}\U{FFFD}"

  const DkimLine: string := "\n\U{26A0}\U{FE0F} <i>DKIM is not verified</i>"
  const SpfLine: string := "\n\U{26A0}\U{FE0F} <i>SPF is not verified</i>"

  /** The warning lines, DKIM first. */
  function Warnings(dkim: bool, spf: bool): (w: string)
    ensures w == "" <==> dkim && spf
    ensures !dkim <==> StartsWith(w, DkimLine)
    ensures !spf <==> EndsWith(w, SpfLine)
  {
    assert DkimLine[7] == 'D' && SpfLine[7] == 'S';
    assert DkimLine[|DkimLine| - 21] == 'M' && SpfLine[|SpfLine| - 21] == 'F';
    (if dkim then "" else DkimLine) + (if spf then "" else SpfLine)
  }

  /** The first line: the icon and the escaped subject in bold. */
  function SubjectLine(subject: string): string {
    Icon + " <b>" + subject + "</b>\n"
  }

  function AddressLine(from: string, to: string): string {
    from + " → " + to + "\n\n"
  }

  /** The three header values `send_message` reads, absent ones as "". */
  function Subject(m: Email): string { Get(m.headers, "Subject").GetOr("") }
  function From(m: Email): string { Get(m.headers, "from").GetOr("") }
  function To(m: Email): string { Get(m.headers, "To").GetOr("") }

  /** Subject, sender and recipient all decode. */
  predicate HeadersDecode(m: Email, decode: string -> Option<string>) {
    decode(Subject(m)).Some? && decode(From(m)).Some? && decode(To(m)).Some?
  }

  /** The first lines: subject, sender and recipient, each passed through
      `safe`; raises when one of them does not decode. */
  function Heading(m: Email, decode: string -> Option<string>): (r: Outcome<string>)
    ensures r.Raised? <==> !HeadersDecode(m, decode)
  {
    match (Safe(decode, Subject(m)), Safe(decode, From(m)), Safe(decode, To(m)))
    case (Done(s), Done(f), Done(t)) => Done(SubjectLine(s) + AddressLine(f, t))
    case _ => Raised
  }

  /** The whole text `send_message` builds. */
  function MessageText(m: Email, decode: string -> Option<string>, env: Env, dkim: bool, spf: bool): (r: Outcome<string>)
    ensures r.Raised? <==> Heading(m, decode).Raised? || Content(m.root, env).Raised?
  {
    match (Heading(m, decode), Content(m.root, env))
    case (Done(heading), Done(content)) => Done(heading + content + "\n" + Warnings(dkim, spf))
    case _ => Raised
  }

  /** The text opens with the three header lines and closes with the
      warnings; it is missing exactly when a header or a text part does
      not decode, or some attachment name raises or cannot be stored. */
  lemma MessageTextShape(m: Email, decode: string -> Option<string>, env: Env, dkim: bool, spf: bool)
    ensures MessageText(m, decode, env, dkim, spf).Raised? <==>
      !HeadersDecode(m, decode) || PartFails(m.root, env)
    ensures var r := MessageText(m, decode, env, dkim, spf);
      r.Done? ==>
        && Heading(m, decode).Done?
        && StartsWith(r.value, Heading(m, decode).value)
        && EndsWith(r.value, "\n" + Warnings(dkim, spf))
  {
    ContentRaisesIffPartFails(m.root, env);
    var h := Heading(m, decode);
    var c := Content(m.root, env);
    if h.Done? && c.Done? {
      ConcatEnds(h.value, c.value, "\n" + Warnings(dkim, spf));
      ConcatAssoc(h.value + c.value, "\n", Warnings(dkim, spf));
    }
  }

  /** The subject sits escaped right after the icon: it can open no tag. */
  lemma SubjectCannotOpenTags(m: Email, decode: string -> Option<string>)
    ensures var h := Heading(m, decode);
      h.Done? ==>
        && decode(Subject(m)).Some?
        && var e := Escape(decode(Subject(m)).value, false);
        && |h.value| >= 10 + |e|
        && h.value[..6] == Icon + " <b>" && h.value[6..6 + |e|] == e
        && h.value[6 + |e|..10 + |e|] == "</b>" && '<' !in e
  {
    var h := Heading(m, decode);
    if h.Done? {
      SafeIsEscape(decode, Subject(m));
      var e := Safe(decode, Subject(m)).value;
      BoldLine(Icon + " <b>", e, AddressLine(Safe(decode, From(m)).value, Safe(decode, To(m)).value));
    }
  }

  // ---------------------------------------------------------------------
  // Slicing
  // ---------------------------------------------------------------------

  /** The longest text one Telegram message may carry. */
  const Limit: nat := 4096

  function Concat(xs: seq<string>): string {
    if |xs| == 0 then "" else xs[0] + Concat(xs[1..])
  }

  lemma {:induction false} ConcatAppend(xs: seq<string>, x: string)
    ensures Concat(xs + [x]) == Concat(xs) + x
    decreases |xs|
  {
    if |xs| == 0 {
      assert xs + [x] == [x];
    } else {
      ConcatAppend(xs[1..], x);
      assert (xs + [x])[1..] == xs[1..] + [x];
    }
  }

  /** The texts of `send_message`'s calls: the whole text when it is
      shorter than the limit, else `text[x:x+4096]` for x = 0, 4096, ….
      Concatenated they give the text back; every slice but the last is
      full, and no slice is longer than the limit. */
  method Slices(text: string) returns (chunks: seq<string>)
    ensures Concat(chunks) == text
    ensures |chunks| >= 1
    ensures forall k :: 0 <= k < |chunks| ==> |chunks[k]| <= Limit
    ensures forall k :: 0 <= k < |chunks| - 1 ==> |chunks[k]| == Limit
    ensures |text| < Limit ==> chunks == [text]
    ensures |text| >= Limit ==> (forall k :: 0 <= k < |chunks| ==> |chunks[k]| > 0)
  {
    if |text| < Limit {
      chunks := [text];
      assert Concat(chunks) == text + Concat([]);
      return;
    }
    chunks := [];
    var x := 0;
    while x < |text|
      invariant 0 <= x <= |text|
      invariant Concat(chunks) == text[..x]
      invariant forall k :: 0 <= k < |chunks| ==> 0 < |chunks[k]| <= Limit
      invariant x < |text| ==> forall k :: 0 <= k < |chunks| ==> |chunks[k]| == Limit
      invariant forall k :: 0 <= k < |chunks| - 1 ==> |chunks[k]| == Limit
      invariant x == 0 <==> |chunks| == 0
    {
      var end := if x + Limit < |text| then x + Limit else |text|;
      ConcatAppend(chunks, text[x..end]);
      assert text[..x] + text[x..end] == text[..end];
      chunks := chunks + [text[x..end]];
      x := end;
    }
    assert text[..x] == text;
  }

  /** `send_message`: one call per slice, to the one configured chat. The
      retry without HTML after a failed call and the pause between slices
      are not part of this model. */
  method Send(m: Email, decode: string -> Option<string>, env: Env, dkim: bool, spf: bool, chat: string)
    returns (r: Outcome<seq<BotCall>>)
    ensures r.Raised? <==> !HeadersDecode(m, decode) || PartFails(m.root, env)
    ensures r.Done? ==>
      && MessageText(m, decode, env, dkim, spf).Done?
      && (forall k :: 0 <= k < |r.value| ==>
           (r.value[k].SendMessage? && r.value[k].chat == chat && r.value[k].replyTo.None? && |r.value[k].text| <= Limit))
      && Concat(TextsOf(r.value)) == MessageText(m, decode, env, dkim, spf).value
    ensures r.Done? && |MessageText(m, decode, env, dkim, spf).value| < Limit ==> |r.value| == 1
    ensures r.Done? ==> forall k :: 0 <= k < |r.value| - 1 ==> |r.value[k].text| == Limit
  {
    var text := MessageText(m, decode, env, dkim, spf);
    MessageTextShape(m, decode, env, dkim, spf);
    if text.Raised? {
      return Raised;
    }
    var chunks := Slices(text.value);
    var calls := seq(|chunks|, k requires 0 <= k < |chunks| => SendMessage(chat, chunks[k], None));
    TextsOfSends(chunks, chat);
    r := Done(calls);
  }

  function TextsOf(calls: seq<BotCall>): seq<string>
    requires forall k :: 0 <= k < |calls| ==> calls[k].SendMessage?
  {
    seq(|calls|, k requires 0 <= k < |calls| => calls[k].text)
  }

  lemma TextsOfSends(chunks: seq<string>, chat: string)
    ensures var calls := seq(|chunks|, k requires 0 <= k < |chunks| => SendMessage(chat, chunks[k], None));
      TextsOf(calls) == chunks
  {
  }
}

=== FILE: legacyparser.dfy ===
/** parser.py, the older HTML-to-Telegram converter: a flat transducer
    with no tag stack. Every recognised tag emits its Telegram markup
    whether or not it is balanced, and `script`/`style` switch a single
    visibility flag that hides text but not tags. */
module LegacyParser {
  import opened Strings
  import opened Markup

  datatype State = State(output: string, visible: bool)

  const Init: State := State("", true)

  predicate IsHider(tag: string) {
    tag == "script" || tag == "style"
  }

  /** The attribute name is compared as the tokenizer delivers it. */
  predicate IsHref(a: Attr) {
    a.name == "href"
  }

  /** Index of the first attribute named `href`, if any. */
  function FirstHref(attrs: seq<Attr>): (r: Option<nat>)
    ensures r.None? <==> forall k :: 0 <= k < |attrs| ==> !IsHref(attrs[k])
    ensures r.Some? ==>
      && r.value < |attrs|
      && IsHref(attrs[r.value])
      && forall k :: 0 <= k < r.value ==> !IsHref(attrs[k])
    decreases |attrs|
  {
    if |attrs| == 0 then None
    else if IsHref(attrs[0]) then Some(0)
    else
      var r := FirstHref(attrs[1..]);
      assert forall k :: 0 < k < |attrs| ==> attrs[k] == attrs[1..][k - 1];
      match r
      case None => None
      case Some(i) => Some(i + 1)
  }

  /** The link target: the value of the first `href` attribute; a bare
      `href` renders as Python renders `None`; no `href` at all gives the
      empty string. */
  function LinkTarget(attrs: seq<Attr>): string {
    match FirstHref(attrs)
    case None => ""
    case Some(j) => attrs[j].value.GetOr("None")
  }

  /** What `handle_starttag` appends. */
  function StartText(tag: string, attrs: seq<Attr>): string {
    if tag == "br" then "\n"
    else if tag == "code" then "<code>"
    else if tag == "b" || tag == "strong" then "<b>"
    else if tag == "i" || tag == "em" then "<i>"
    else if tag == "a" then "<a href=\"" + LinkTarget(attrs) + "\">"
    else ""
  }

  /** What `handle_endtag` appends. */
  function EndText(tag: string): string {
    if tag == "p" then "\n\n"
    else if tag == "code" then "</code>"
    else if tag == "b" || tag == "strong" then "</b>"
    else if tag == "i" || tag == "em" then "</i>"
    else if tag == "a" then "</a>"
    else ""
  }

  /** The text an event contributes, given the visibility before it. */
  function EventText(ev: Event, visible: bool): string {
    match ev
    case Start(tag, attrs) => StartText(tag, attrs)
    case End(tag) => EndText(tag)
    case Data(text) => if visible then text else ""
  }

  /** The flag after an event: `script`/`style` hide, their closing tags
      show, anything else keeps it. */
  function NextVisible(ev: Event, visible: bool): bool {
    match ev
    case Start(tag, _) => if IsHider(tag) then false else visible
    case End(tag) => if IsHider(tag) then true else visible
    case Data(_) => visible
  }

  /** One callback of the parser: output is only ever appended to, text
      shows exactly while visible, and only `script`/`style` tags move the
      flag. */
  function Step(s: State, ev: Event): (r: State)
    ensures StartsWith(r.output, s.output)
    ensures ev.Data? ==> r.output == s.output + (if s.visible then ev.text else "")
    ensures ev.Start? ==> r.output == s.output + StartText(ev.tag, ev.attrs)
    ensures ev.End? ==> r.output == s.output + EndText(ev.tag)
    ensures ev.Start? && IsHider(ev.tag) ==> !r.visible
    ensures ev.End? && IsHider(ev.tag) ==> r.visible
    ensures (ev.Data? || !IsHider(ev.tag)) ==> r.visible == s.visible
  {
    State(s.output + EventText(ev, s.visible), NextVisible(ev, s.visible))
  }

  /** `feed`: the callbacks in order; the output so far is never changed. */
  function Feed(s: State, evs: seq<Event>): (r: State)
    ensures StartsWith(r.output, s.output)
    decreases |evs|
  {
    if |evs| == 0 then s
    else
      var next := Step(s, evs[0]);
      var r := Feed(next, evs[1..]);
      assert r.output[..|next.output|][..|s.output|] == r.output[..|s.output|];
      r
  }

  /** Feeding is incremental: two chunks in turn are one stream. */
  lemma {:induction false} FeedAppend(s: State, a: seq<Event>, b: seq<Event>)
    ensures Feed(s, a + b) == Feed(Feed(s, a), b)
    decreases |a|
  {
    if |a| == 0 {
      assert a + b == b;
    } else {
      assert (a + b)[0] == a[0];
      assert (a + b)[1..] == a[1..] + b;
      FeedAppend(Step(s, a[0]), a[1..], b);
    }
  }

  // ---------------------------------------------------------------------
  // Visibility: the last script/style tag decides
  // ---------------------------------------------------------------------

  /** The visibility the most recent `script`/`style` tag of a stream
      sets, if it has one: false after an opening tag, true after a
      closing one. Nesting is not counted. */
  function LastToggle(evs: seq<Event>): Option<bool>
    decreases |evs|
  {
    if |evs| == 0 then None
    else
      var last := evs[|evs| - 1];
      if (last.Start? || last.End?) && IsHider(last.tag) then Some(last.End?)
      else LastToggle(evs[..|evs| - 1])
  }

  /** The parser's flag is exactly what the last `script`/`style` tag
      says, or the starting flag if there was none. */
  lemma {:induction false} VisibleIsLastToggle(s: State, evs: seq<Event>)
    ensures Feed(s, evs).visible == LastToggle(evs).GetOr(s.visible)
    decreases |evs|
  {
    if |evs| > 0 {
      var init := evs[..|evs| - 1];
      var last := evs[|evs| - 1];
      assert evs == init + [last];
      FeedAppend(s, init, [last]);
      VisibleIsLastToggle(s, init);
      assert Feed(Feed(s, init), [last]) == Step(Feed(s, init), last);
    }
  }

  /** `</script>` re-shows text even inside an outer `<style>`: one flag,
      not a nesting count. */
  lemma NestedHidersReopenEarly()
    ensures Feed(Init, [Start("style", []), Start("script", []), End("script"), Data("x")]).output == "x"
  {
    var evs := [Start("style", []), Start("script", []), End("script"), Data("x")];
    VisibleIsLastToggle(Init, evs[..3]);
    assert evs[..3][..2] == evs[..2];
    assert evs == evs[..3] + [evs[3]];
    FeedAppend(Init, evs[..3], [evs[3]]);
  }

  // ---------------------------------------------------------------------
  // Output: tags always, text only while visible
  // ---------------------------------------------------------------------

  /** The markup a stream emits, text left out. */
  function TagText(evs: seq<Event>): string
    decreases |evs|
  {
    if |evs| == 0 then ""
    else (if evs[0].Data? then "" else EventText(evs[0], true)) + TagText(evs[1..])
  }

  /** The stream carries tags only. */
  predicate NoText(evs: seq<Event>)
    decreases |evs|
  {
    |evs| == 0 || (!evs[0].Data? && NoText(evs[1..]))
  }

  /** A stream without text emits the same markup hidden or not. */
  lemma {:induction false} TagsIgnoreVisibility(s: State, evs: seq<Event>)
    requires NoText(evs)
    ensures Feed(s, evs).output == s.output + TagText(evs)
    decreases |evs|
  {
    if |evs| > 0 {
      var t := EventText(evs[0], true);
      var rest := TagText(evs[1..]);
      TagStep(s, evs[0]);
      TagsIgnoreVisibility(Step(s, evs[0]), evs[1..]);
      ConcatAssoc(s.output, t, rest);
    }
  }

  lemma TagStep(s: State, ev: Event)
    requires !ev.Data?
    ensures Step(s, ev).output == s.output + EventText(ev, true)
  {
  }

  /** A piece of text after a prefix of the stream shows up verbatim,
      unescaped, exactly when the last `script`/`style` tag of the prefix
      was a closing one (or there was none). */
  lemma TextShownIffVisible(pre: seq<Event>, text: string)
    ensures Feed(Init, pre + [Data(text)]).output
         == Feed(Init, pre).output + (if LastToggle(pre).GetOr(true) then text else "")
  {
    FeedAppend(Init, pre, [Data(text)]);
    VisibleIsLastToggle(Init, pre);
    assert Feed(Feed(Init, pre), [Data(text)]) == Step(Feed(Init, pre), Data(text));
  }

  /** Nothing pairs tags: a lone closing tag is emitted as is. */
  lemma UnbalancedCloseEmitted()
    ensures Feed(Init, [End("b")]).output == "</b>"
  {
  }
}

=== FILE: mail.dfy ===
/** The parts of an e-mail message the pipeline reads and writes, with the
    header semantics of Python's `email.message`: assigning a header
    appends a new field (it never replaces one), and reading a header
    returns the value of the FIRST field whose name matches without regard
    to case, or nothing. Parsing, MIME decoding and `get_body` are not
    part of this model: a message arrives with its body already chosen. */
module Mail {
  import opened Strings

  datatype Header = Header(name: string, value: string)

  /** The body `get_body()` picked: its content type and decoded text. */
  datatype Body = Body(contentType: string, content: string)

  /** One part `iter_attachments()` yields; `data` is its raw payload. */
  datatype Attachment = Attachment(filename: Option<string>, data: string)

  datatype Message = Message(headers: seq<Header>, body: Option<Body>, attachments: seq<Attachment>)

  /** Header names compare without regard to case. */
  predicate SameName(a: string, b: string) {
    Lower(a) == Lower(b)
  }

  /** `message[name]` / `message.get(name)`: the first matching field. */
  function Get(hs: seq<Header>, name: string): (r: Option<string>)
    ensures r.Some? <==> exists i :: 0 <= i < |hs| && SameName(hs[i].name, name)
    ensures r.Some? ==> exists i :: 0 <= i < |hs| && SameName(hs[i].name, name) && hs[i].value == r.value
                          && forall j :: 0 <= j < i ==> !SameName(hs[j].name, name)
    decreases |hs|
  {
    if |hs| == 0 then None
    else if SameName(hs[0].name, name) then Some(hs[0].value)
    else
      var r := Get(hs[1..], name);
      assert forall i :: 0 < i < |hs| ==> hs[i] == hs[1..][i - 1];
      if r.Some? then
        var k :| 0 <= k < |hs[1..]| && SameName(hs[1..][k].name, name) && hs[1..][k].value == r.value
                   && forall j :: 0 <= j < k ==> !SameName(hs[1..][j].name, name);
        assert forall j :: 0 <= j < k + 1 ==> !SameName(hs[j].name, name) by {
          forall j | 0 <= j < k + 1
            ensures !SameName(hs[j].name, name)
          {
            if j > 0 {
              assert hs[j] == hs[1..][j - 1];
            }
          }
        }
        r
      else
        r
  }

  /** `message[name] = value`: a new field at the end. */
  function Add(m: Message, name: string, value: string): (r: Message)
    ensures r.body == m.body && r.attachments == m.attachments
    ensures |r.headers| == |m.headers| + 1 && r.headers[..|m.headers|] == m.headers
    ensures r.headers[|m.headers|] == Header(name, value)
  {
    m.(headers := m.headers + [Header(name, value)])
  }

  /** Reading a header back after setting it: the new value is seen only
      when no field of that name existed before; an earlier field shadows
      it. */
  lemma GetAfterAdd(m: Message, name: string, value: string, key: string)
    ensures Get(Add(m, name, value).headers, key) ==
      if Get(m.headers, key).Some? then Get(m.headers, key)
      else if SameName(name, key) then Some(value)
      else None
  {
    GetAppend(m.headers, [Header(name, value)], key);
    assert [Header(name, value)][1..] == [];
  }

  lemma {:induction false} GetAppend(a: seq<Header>, b: seq<Header>, key: string)
    ensures Get(a + b, key) == if Get(a, key).Some? then Get(a, key) else Get(b, key)
    decreases |a|
  {
    if |a| == 0 {
      assert a + b == b;
    } else {
      GetAppend(a[1..], b, key);
      assert (a + b)[0] == a[0];
      assert (a + b)[1..] == a[1..] + b;
    }
  }

  // ---------------------------------------------------------------------
  // Calls made to the Telegram Bot API, recorded instead of performed
  // ---------------------------------------------------------------------

  /** `InputFile(io, filename=part.get_filename(failobj="Attachment"))`. */
  datatype InputFile = InputFile(filename: string, data: string)

  datatype BotCall =
    | SendMessage(chat: string, text: string, replyTo: Option<int>)
    | SendDocument(chat: string, document: InputFile, replyTo: Option<int>)
    | SendMediaGroup(chat: string, media: seq<InputFile>, replyTo: Option<int>)
}

=== FILE: markup.dfy ===
/** The event stream both HTML transducers consume, and Python's
    `html.escape`. The tokenizer that turns markup text into events (the
    standard library's `HTMLParser`) is not part of this model: events
    arrive pre-tokenised, with tag and attribute names already lower-cased
    as that tokenizer delivers them. */
module Markup {
  import opened Strings

  /** One attribute of a start tag; `value` is None for a bare attribute. */
  datatype Attr = Attr(name: string, value: Option<string>)

  datatype Event =
    | Start(tag: string, attrs: seq<Attr>)
    | Data(text: string)
    | End(tag: string)

  /** What `html.escape(s, quote)` produces for one character. */
  function EscapeChar(c: char, quote: bool): string {
    if c == '&' then "&amp;"
    else if c == '<' then "&lt;"
    else if c == '>' then "&gt;"
    else if quote && c == '"' then "&quot;"
    else if quote && c == '\'' then "&#x27;"
    else [c]
  }

  /** Python's `html.escape(s, quote)`. */
  function Escape(s: string, quote: bool): string {
    if |s| == 0 then "" else EscapeChar(s[0], quote) + Escape(s[1..], quote)
  }

  predicate NoAngles(s: string) {
    '<' !in s && '>' !in s
  }

  lemma {:induction false} EscapeAppend(a: string, b: string, quote: bool)
    ensures Escape(a + b, quote) == Escape(a, quote) + Escape(b, quote)
    decreases |a|
  {
    if |a| == 0 {
      assert a + b == b;
    } else {
      EscapeAppend(a[1..], b, quote);
      var h := EscapeChar(a[0], quote);
      assert (a + b)[0] == a[0];
      assert (a + b)[1..] == a[1..] + b;
      assert Escape(a + b, quote) == h + Escape(a[1..] + b, quote);
      ConcatAssoc(h, Escape(a[1..], quote), Escape(b, quote));
    }
  }

  /** Escaped text never holds a raw angle bracket, and with `quote` set no
      raw quote either. */
  lemma {:induction false} EscapeIsSafe(s: string, quote: bool)
    ensures NoAngles(Escape(s, quote))
    ensures quote ==> '"' !in Escape(s, quote) && '\'' !in Escape(s, quote)
    decreases |s|
  {
    if |s| > 0 {
      EscapeIsSafe(s[1..], quote);
      EscapeCharIsSafe(s[0], quote);
      var h := EscapeChar(s[0], quote);
      var e := Escape(s[1..], quote);
      assert Escape(s, quote) == h + e;
    }
  }

  lemma EscapeCharIsSafe(c: char, quote: bool)
    ensures NoAngles(EscapeChar(c, quote))
    ensures quote ==> '"' !in EscapeChar(c, quote) && '\'' !in EscapeChar(c, quote)
  {
  }

  lemma {:induction false} EscapeKeepsPlain(s: string, quote: bool)
    requires forall i :: 0 <= i < |s| ==> EscapeChar(s[i], quote) == [s[i]]
    ensures Escape(s, quote) == s
    decreases |s|
  {
    if |s| > 0 {
      EscapeKeepsPlain(s[1..], quote);
      assert [s[0]] + s[1..] == s;
    }
  }

  /** A line closed by `</b>` in front of the rest of a text: the three
      pieces can be read back at their offsets. */
  lemma BoldLine(lead: string, e: string, rest: string)
    ensures var h := lead + e + "</b>\n" + rest;
      && h[..|lead|] == lead
      && h[|lead|..|lead| + |e|] == e
      && h[|lead| + |e|..|lead| + |e| + 4] == "</b>"
  {
    var line := lead + e + "</b>\n";
    ConcatEnds(lead, e, "</b>\n");
    var h := line + rest;
    assert h[..|line|] == line;
    assert line[|line| - 5..] == "</b>\n";
    assert h[|lead| + |e|..|lead| + |e| + 4] == line[|lead| + |e|..|lead| + |e| + 4];
  }

  /** The source spells escaping as a chain of `str.replace` calls, `&`
      first so that the entities introduced later are not escaped again. */
  function ReplaceChain(s: string): string {
    Replace(Replace(Replace(s, '&', "&amp;"), '<', "&lt;"), '>', "&gt;")
  }

  lemma ReplaceSingle(c: char, x: char, repl: string)
    ensures Replace([c], x, repl) == if c == x then repl else [c]
  {
    assert [c][1..] == "";
  }

  lemma {:induction false} ReplaceAbsent(s: string, x: char, repl: string)
    requires x !in s
    ensures Replace(s, x, repl) == s
    decreases |s|
  {
    if |s| > 0 {
      ReplaceAbsent(s[1..], x, repl);
      assert [s[0]] + s[1..] == s;
    }
  }

  lemma ReplaceChainChar(c: char)
    ensures ReplaceChain([c]) == EscapeChar(c, false)
  {
    ReplaceSingle(c, '&', "&amp;");
    if c == '&' {
      EntityUntouched("&amp;");
    } else {
      ReplaceSingle(c, '<', "&lt;");
      if c == '<' {
        ReplaceAbsent("&lt;", '>', "&gt;");
      } else {
        ReplaceSingle(c, '>', "&gt;");
      }
    }
  }

  /** The later replacements leave an entity alone. */
  lemma EntityUntouched(e: string)
    requires '<' !in e && '>' !in e
    ensures Replace(Replace(e, '<', "&lt;"), '>', "&gt;") == e
  {
    ReplaceAbsent(e, '<', "&lt;");
    ReplaceAbsent(e, '>', "&gt;");
  }

  lemma ReplaceChainAppend(a: string, b: string)
    ensures ReplaceChain(a + b) == ReplaceChain(a) + ReplaceChain(b)
  {
    ReplaceAppend(a, b, '&', "&amp;");
    ReplaceAppend(Replace(a, '&', "&amp;"), Replace(b, '&', "&amp;"), '<', "&lt;");
    ReplaceAppend(Replace(Replace(a, '&', "&amp;"), '<', "&lt;"),
                  Replace(Replace(b, '&', "&amp;"), '<', "&lt;"), '>', "&gt;");
  }

  /** The replace chain is the same as escaping character by character. */
  lemma {:induction false} ReplaceChainIsEscape(s: string)
    ensures ReplaceChain(s) == Escape(s, false)
    decreases |s|
  {
    if |s| > 0 {
      ReplaceChainIsEscape(s[1..]);
      assert s == [s[0]] + s[1..];
      ReplaceChainAppend([s[0]], s[1..]);
      ReplaceChainChar(s[0]);
    }
  }

  lemma {:induction false} ReplaceAppend(a: string, b: string, c: char, repl: string)
    ensures Replace(a + b, c, repl) == Replace(a, c, repl) + Replace(b, c, repl)
    decreases |a|
  {
    if |a| == 0 {
      assert a + b == b;
    } else {
      ReplaceAppend(a[1..], b, c, repl);
      var h := if a[0] == c then repl else [a[0]];
      assert (a + b)[0] == a[0];
      assert (a + b)[1..] == a[1..] + b;
      assert Replace(a + b, c, repl) == h + Replace(a[1..] + b, c, repl);
      assert Replace(a, c, repl) == h + Replace(a[1..], c, repl);
      ConcatAssoc(h, Replace(a[1..], c, repl), Replace(b, c, repl));
    }
  }
}

=== FILE: simplifier.dfy ===
/** `HTMLSimplifier` of smtg/parsers.py: turns the events of a rich HTML
    body into Telegram's restricted markup, which knows only `<code>`,
    `<b>`, `<i>` and `<a href>`. It keeps a stack of the open tags it has
    emitted, a single visibility flag for `<script>`/`<style>`, and closes
    whatever is still open when the stream ends. */
module Simplifier {
  import opened Strings
  import opened Markup

  /** The four tags Telegram renders. */
  datatype Kind = Code | Bold | Italic | Link

  /** What the simplifier appends to its result: plain text, or the opening
      or closing markup of one of the four tags. The source's `result`
      string is the concatenation of the rendered pieces. */
  datatype Piece = Literal(s: string) | Open(kind: Kind, href: string) | Close(kind: Kind)

  function RenderPiece(p: Piece): string {
    match p
    case Literal(s) => s
    case Open(Code, _) => "<code>"
    case Open(Bold, _) => "<b>"
    case Open(Italic, _) => "<i>"
    case Open(Link, href) => "<a href=\"" + Escape(href, true) + "\">"
    case Close(Code) => "</code>"
    case Close(Bold) => "</b>"
    case Close(Italic) => "</i>"
    case Close(Link) => "</a>"
  }

  function Render(ps: seq<Piece>): string {
    if |ps| == 0 then "" else RenderPiece(ps[0]) + Render(ps[1..])
  }

  /** The tag names the simplifier keeps on its stack. */
  predicate IsTracked(t: string) {
    t == "code" || t == "b" || t == "strong" || t == "i" || t == "em" || t == "a"
  }

  type TrackedTag = t: string | IsTracked(t) witness "b"

  /** `strong` renders as `b` and `em` as `i`. */
  function KindOf(t: TrackedTag): (k: Kind)
    ensures k == Code <==> t == "code"
    ensures k == Bold <==> t == "b" || t == "strong"
    ensures k == Italic <==> t == "i" || t == "em"
    ensures k == Link <==> t == "a"
  {
    if t == "code" then Code
    else if t == "b" || t == "strong" then Bold
    else if t == "i" || t == "em" then Italic
    else Link
  }

  /** The tags that switch visibility off. */
  predicate IsHider(t: string) {
    t == "script" || t == "style"
  }

  function Kinds(st: seq<TrackedTag>): (ks: seq<Kind>)
    ensures |ks| == |st|
  {
    if |st| == 0 then [] else Kinds(st[..|st| - 1]) + [KindOf(st[|st| - 1])]
  }

  lemma KindsPush(st: seq<TrackedTag>, t: TrackedTag)
    ensures Kinds(st + [t]) == Kinds(st) + [KindOf(t)]
  {
    assert (st + [t])[..|st|] == st;
  }

  // ---------------------------------------------------------------------
  // Tag balance
  // ---------------------------------------------------------------------

  /** Reads pieces left to right with the kinds still open; None as soon as
      a closing piece does not close the innermost open tag. */
  function Nest(ps: seq<Piece>, open: seq<Kind>): Option<seq<Kind>>
    decreases |ps|
  {
    if |ps| == 0 then Some(open)
    else match ps[0]
      case Literal(_) => Nest(ps[1..], open)
      case Open(k, _) => Nest(ps[1..], open + [k])
      case Close(k) =>
        if |open| > 0 && open[|open| - 1] == k then Nest(ps[1..], open[..|open| - 1]) else None
  }

  /** Every opening is closed, innermost first, and nothing else is closed. */
  predicate Balanced(ps: seq<Piece>) {
    Nest(ps, []) == Some([])
  }

  lemma {:induction false} NestAppend(a: seq<Piece>, b: seq<Piece>, open: seq<Kind>)
    ensures Nest(a + b, open) == if Nest(a, open).None? then None else Nest(b, Nest(a, open).value)
    decreases |a|
  {
    if |a| == 0 {
      assert a + b == b;
    } else {
      assert (a + b)[0] == a[0];
      assert (a + b)[1..] == a[1..] + b;
      match a[0]
      case Literal(_) => NestAppend(a[1..], b, open);
      case Open(k, _) => NestAppend(a[1..], b, open + [k]);
      case Close(k) =>
        if |open| > 0 && open[|open| - 1] == k {
          NestAppend(a[1..], b, open[..|open| - 1]);
        }
    }
  }

  /** The closing pieces for `st`, innermost first: the loop in `close`
      and in `handle_endtag`. */
  function CloseAll(st: seq<TrackedTag>): (ps: seq<Piece>)
    ensures |ps| == |st|
  {
    if |st| == 0 then [] else [Close(KindOf(st[|st| - 1]))] + CloseAll(st[..|st| - 1])
  }

  lemma {:induction false} CloseAllNest(pre: seq<TrackedTag>, xs: seq<TrackedTag>)
    ensures Nest(CloseAll(xs), Kinds(pre + xs)) == Some(Kinds(pre))
    decreases |xs|
  {
    if |xs| == 0 {
      assert pre + xs == pre;
    } else {
      var init := xs[..|xs| - 1];
      assert (pre + xs)[..|pre + xs| - 1] == pre + init;
      var ks := Kinds(pre + xs);
      assert ks == Kinds(pre + init) + [KindOf(xs[|xs| - 1])];
      assert ks[..|ks| - 1] == Kinds(pre + init);
      CloseAllNest(pre, init);
      var ps := CloseAll(xs);
      assert ps[0] == Close(KindOf(xs[|xs| - 1]));
      assert ps[1..] == CloseAll(init);
    }
  }

  // ---------------------------------------------------------------------
  // State and invariant
  // ---------------------------------------------------------------------

  datatype State = State(out: seq<Piece>, visible: bool, stack: seq<TrackedTag>)

  const Init: State := State([], true, [])

  /** The stack holds exactly the tags whose opening was emitted and not
      yet closed, in order. */
  predicate Inv(s: State) {
    Nest(s.out, []) == Some(Kinds(s.stack))
  }

  lemma InvAppendOpen(s: State, t: TrackedTag, href: string)
    requires Inv(s)
    ensures Nest(s.out + [Open(KindOf(t), href)], []) == Some(Kinds(s.stack + [t]))
  {
    NestAppend(s.out, [Open(KindOf(t), href)], []);
    KindsPush(s.stack, t);
  }

  lemma InvAppendLiteral(s: State, x: string)
    requires Inv(s)
    ensures Nest(s.out + [Literal(x)], []) == Some(Kinds(s.stack))
  {
    NestAppend(s.out, [Literal(x)], []);
  }

  // ---------------------------------------------------------------------
  // handle_starttag
  // ---------------------------------------------------------------------

  predicate IsHref(a: Attr) {
    Lower(a.name) == "href" && a.value.Some?
  }

  /** The link target: the first attribute named href (in any case) that
      has a value, else "#". */
  function Href(attrs: seq<Attr>): (url: string)
    ensures (forall i :: 0 <= i < |attrs| ==> !IsHref(attrs[i])) ==> url == "#"
    ensures forall j :: (0 <= j < |attrs| && IsHref(attrs[j]) && (forall i :: 0 <= i < j ==> !IsHref(attrs[i])))
                        ==> url == attrs[j].value.value
  {
    if |attrs| == 0 then "#"
    else if IsHref(attrs[0]) then attrs[0].value.value
    else
      var r := Href(attrs[1..]);
      assert forall j :: 1 <= j < |attrs| ==> attrs[j] == attrs[1..][j - 1];
      r
  }

  /** The piece a start tag emits, if any. */
  function OpenPieces(t: string, attrs: seq<Attr>): seq<Piece> {
    if t == "br" then [Literal("\n")]
    else if t == "code" then [Open(Code, "")]
    else if t == "b" || t == "strong" then [Open(Bold, "")]
    else if t == "i" || t == "em" then [Open(Italic, "")]
    else if t == "a" then [Open(Link, Href(attrs))]
    else []
  }

  function OnStart(s: State, tag: string, attrs: seq<Attr>): (r: State)
    ensures !s.visible ==> r == s
    ensures s.visible ==> r.visible == !IsHider(Lower(tag))
    ensures s.visible && IsTracked(Lower(tag)) ==> r.stack == s.stack + [Lower(tag)]
    ensures s.visible && !IsTracked(Lower(tag)) ==> r.stack == s.stack
    ensures s.visible && Lower(tag) == "br" ==> r.out == s.out + [Literal("\n")]
    ensures s.visible && Lower(tag) == "a" ==> r.out == s.out + [Open(Link, Href(attrs))]
    ensures s.visible && IsTracked(Lower(tag)) ==>
      r.out == s.out + [Open(KindOf(Lower(tag)), if Lower(tag) == "a" then Href(attrs) else "")]
    ensures s.visible && !IsTracked(Lower(tag)) && Lower(tag) != "br" ==> r.out == s.out
    ensures Inv(s) ==> Inv(r)
  {
    if !s.visible then s
    else
      var t := Lower(tag);
      var r := State(s.out + OpenPieces(t, attrs), !IsHider(t), if IsTracked(t) then s.stack + [t] else s.stack);
      if Inv(s) then
        if IsTracked(t) then
          InvAppendOpen(s, t, if t == "a" then Href(attrs) else "");
          r
        else if t == "br" then
          InvAppendLiteral(s, "\n");
          r
        else
          assert s.out + OpenPieces(t, attrs) == s.out;
          r
      else r
  }

  // ---------------------------------------------------------------------
  // handle_data
  // ---------------------------------------------------------------------

  /** Text the simplifier emits: escaped, whitespace collapsed, not blank. */
  predicate EmittedText(t: string) {
    NoAngles(t) && '"' !in t && Collapsed(t) && HasNonSpace(t)
  }

  lemma {:induction false} EscapeKeepsNonSpace(s: string, quote: bool)
    requires HasNonSpace(s)
    ensures HasNonSpace(Escape(s, quote))
    decreases |s|
  {
    var h := EscapeChar(s[0], quote);
    var e := Escape(s[1..], quote);
    assert Escape(s, quote) == h + e;
    EscapeCharShape(s[0], quote);
    if IsSpace(s[0]) {
      var i :| 0 <= i < |s| && !IsSpace(s[i]);
      assert !IsSpace(s[1..][i - 1]);
      EscapeKeepsNonSpace(s[1..], quote);
      HasNonSpaceAppend(h, e);
    } else {
      assert !IsSpace((h + e)[0]);
    }
  }

  /** One escaped character: an entity holds no whitespace, and a space
      stays a single space. */
  lemma EscapeCharShape(c: char, quote: bool)
    ensures var h := EscapeChar(c, quote);
      && |h| > 0
      && (IsSpace(h[0]) <==> IsSpace(c))
      && (h[0] == ' ' <==> c == ' ')
      && (h[|h| - 1] == ' ' <==> c == ' ')
      && (IsSpace(c) ==> h == [c])
      && (!IsSpace(c) ==> forall i :: 0 <= i < |h| ==> !IsSpace(h[i]))
  {
  }

  /** Escaping keeps the collapsed shape: entities hold no whitespace. */
  lemma {:induction false} EscapeKeepsCollapsed(s: string, quote: bool)
    requires Collapsed(s)
    ensures Collapsed(Escape(s, quote))
    ensures |s| > 0 ==> |Escape(s, quote)| > 0 && (Escape(s, quote)[0] == ' ' <==> s[0] == ' ')
    decreases |s|
  {
    if |s| > 0 {
      assert Collapsed(s[1..]);
      EscapeKeepsCollapsed(s[1..], quote);
      var h := EscapeChar(s[0], quote);
      var e := Escape(s[1..], quote);
      assert Escape(s, quote) == h + e;
      EscapeCharShape(s[0], quote);
      assert Collapsed(h);
      assert h[|h| - 1] == ' ' && |e| > 0 ==> e[0] != ' ' by {
        if h[|h| - 1] == ' ' && |e| > 0 {
          assert s[0] == ' ' && s[1] != ' ';
        }
      }
      CollapsedAppend(h, e);
    }
  }

  function OnData(s: State, text: string): (r: State)
    ensures r.visible == s.visible && r.stack == s.stack
    ensures !s.visible || !HasNonSpace(text) ==> r == s
    ensures s.visible && HasNonSpace(text) ==>
      |r.out| == |s.out| + 1 && r.out[..|s.out|] == s.out
      && r.out[|s.out|] == Literal(Escape(Collapse(text), true))
      && EmittedText(r.out[|s.out|].s)
    ensures Inv(s) ==> Inv(r)
  {
    if !s.visible then s
    else
      var d := Collapse(text);
      CollapsePreservesNonSpace(text);
      if |Strip(d)| > 0 then
        var t := Escape(d, true);
        CollapseIsCollapsed(text);
        EscapeKeepsCollapsed(d, true);
        EscapeKeepsNonSpace(d, true);
        EscapeIsSafe(d, true);
        var r := s.(out := s.out + [Literal(t)]);
        assert r.out[..|s.out|] == s.out;
        if Inv(s) then InvAppendLiteral(s, t); r else r
      else s
  }

  /** Whitespace is never escaped and entities hold none, so the text
      without its whitespace escapes to the escaped text without its
      whitespace. */
  lemma {:induction false} EscapeNonSpaces(s: string, quote: bool)
    ensures NonSpaces(Escape(s, quote)) == Escape(NonSpaces(s), quote)
    decreases |s|
  {
    if |s| > 0 {
      var h := EscapeChar(s[0], quote);
      assert Escape(s, quote) == h + Escape(s[1..], quote);
      NonSpacesAppend(h, Escape(s[1..], quote));
      EscapeNonSpaces(s[1..], quote);
      EscapeCharShape(s[0], quote);
      if IsSpace(s[0]) {
        assert NonSpaces(h) == "";
        assert NonSpaces(s) == NonSpaces(s[1..]);
      } else {
        NonSpacesOfSolid(h);
        var rest := NonSpaces(s[1..]);
        assert NonSpaces(s) == [s[0]] + rest;
        assert ([s[0]] + rest)[1..] == rest;
      }
    }
  }

  /** The text of an HTML body reaches the output: the piece `OnData`
      adds for a visible, non-blank run, `Escape(Collapse(text), true)`,
      holds exactly the escaped non-whitespace characters of the run, in
      order. */
  lemma OnDataKeepsText(text: string)
    ensures NonSpaces(Escape(Collapse(text), true)) == Escape(NonSpaces(text), true)
  {
    CollapseKeepsNonSpaces(text);
    EscapeNonSpaces(Collapse(text), true);
  }

  // ---------------------------------------------------------------------
  // handle_endtag
  // ---------------------------------------------------------------------

  /** Position of the topmost occurrence of `t` in the stack. */
  function LastIndex(st: seq<TrackedTag>, t: string): (j: nat)
    requires t in st
    ensures j < |st| && st[j] == t
    ensures forall k :: j < k < |st| ==> st[k] != t
  {
    if st[|st| - 1] == t then |st| - 1 else LastIndex(st[..|st| - 1], t)
  }

  /** The `while tag != self.tag_stack[-1]` loop followed by the final
      close and pop: closes and pops down to and including the topmost
      occurrence of `t`. */
  function PopThrough(out: seq<Piece>, st: seq<TrackedTag>, t: string): (r: (seq<Piece>, seq<TrackedTag>))
    requires t in st
    ensures r.1 == st[..LastIndex(st, t)]
    ensures r.0 == out + CloseAll(st[LastIndex(st, t)..])
    decreases |st|
  {
    var top := st[|st| - 1];
    var init := st[..|st| - 1];
    var out' := out + [Close(KindOf(top))];
    if top == t then
      assert st[|st| - 1..] == [top];
      assert CloseAll([top]) == [Close(KindOf(top))];
      (out', init)
    else
      PopDeeper(st, t);
      var r := PopThrough(out', init, t);
      AppendAssoc(out, [Close(KindOf(top))], CloseAll(init[LastIndex(st, t)..]));
      r
  }

  /** Below a top that is not `t`: the topmost `t` is the same one, and
      closing through it closes the top first. */
  lemma PopDeeper(st: seq<TrackedTag>, t: string)
    requires t in st && st[|st| - 1] != t
    ensures t in st[..|st| - 1]
    ensures LastIndex(st[..|st| - 1], t) == LastIndex(st, t)
    ensures st[..|st| - 1][..LastIndex(st, t)] == st[..LastIndex(st, t)]
    ensures CloseAll(st[LastIndex(st, t)..]) == [Close(KindOf(st[|st| - 1]))] + CloseAll(st[..|st| - 1][LastIndex(st, t)..])
  {
    var top := st[|st| - 1];
    var init := st[..|st| - 1];
    assert t in init by {
      var j :| 0 <= j < |st| && st[j] == t;
      assert j < |st| - 1 && init[j] == t;
    }
    var j := LastIndex(st, t);
    assert LastIndex(init, t) == j;
    var tail := st[j..];
    assert tail[..|tail| - 1] == init[j..];
    assert tail[|tail| - 1] == top;
  }

  lemma AppendAssoc(a: seq<Piece>, b: seq<Piece>, c: seq<Piece>)
    ensures a + b + c == a + (b + c)
  {
  }

  /** The piece closing a tag the stack does not track: paragraphs and
      divisions end with a blank line, anything else emits nothing. */
  function PlainClose(t: string): seq<Piece> {
    if t == "p" || t == "div" then [Literal("\n\n")] else []
  }

  function OnEnd(s: State, tag: string): (r: State)
    ensures IsHider(tag) ==> r.visible
    ensures !IsHider(tag) ==> r.visible == s.visible
    ensures !IsHider(tag) && !s.visible ==> r == s
    ensures (s.visible || IsHider(tag)) && IsTracked(tag) && tag !in s.stack ==>
      r.out == s.out && r.stack == s.stack
    ensures (s.visible || IsHider(tag)) && tag in s.stack ==>
      && r.stack == s.stack[..LastIndex(s.stack, tag)]
      && r.out == s.out + CloseAll(s.stack[LastIndex(s.stack, tag)..])
    ensures (s.visible || IsHider(tag)) && (tag == "p" || tag == "div") ==>
      r.out == s.out + [Literal("\n\n")] && r.stack == s.stack
    ensures (s.visible || IsHider(tag)) && !IsTracked(tag) && tag != "p" && tag != "div" ==>
      r.out == s.out && r.stack == s.stack
    ensures Inv(s) ==> Inv(r)
  {
    var visible := if IsHider(tag) then true else s.visible;
    if !visible then s
    else if IsTracked(tag) then EndTracked(s.(visible := visible), tag)
    else EndUntracked(s.(visible := visible), tag)
  }

  /** A tracked end tag: closes down to its topmost occurrence, or does
      nothing when it is not on the stack. */
  function EndTracked(s: State, tag: TrackedTag): (r: State)
    ensures r.visible == s.visible
    ensures tag !in s.stack ==> r == s
    ensures tag in s.stack ==>
      && r.stack == s.stack[..LastIndex(s.stack, tag)]
      && r.out == s.out + CloseAll(s.stack[LastIndex(s.stack, tag)..])
    ensures Inv(s) ==> Inv(r)
  {
    if tag in s.stack then
      var (out, st) := PopThrough(s.out, s.stack, tag);
      var r := State(out, s.visible, st);
      if Inv(s) then
        var j := LastIndex(s.stack, tag);
        assert s.stack == s.stack[..j] + s.stack[j..];
        NestAppend(s.out, CloseAll(s.stack[j..]), []);
        CloseAllNest(s.stack[..j], s.stack[j..]);
        r
      else r
    else s
  }

  /** Any other end tag: `close_tag` emits a blank line for `p` and `div`
      and nothing otherwise; the stack is left alone. */
  function EndUntracked(s: State, tag: string): (r: State)
    requires !IsTracked(tag)
    ensures r.visible == s.visible && r.stack == s.stack
    ensures r.out == s.out + PlainClose(tag)
    ensures Inv(s) ==> Inv(r)
  {
    var r := s.(out := s.out + PlainClose(tag));
    if Inv(s) then
      if tag == "p" || tag == "div" then InvAppendLiteral(s, "\n\n"); r
      else assert s.out + PlainClose(tag) == s.out; r
    else r
  }

  // ---------------------------------------------------------------------
  // The whole stream and close()
  // ---------------------------------------------------------------------

  function Step(s: State, e: Event): State {
    match e
    case Start(t, attrs) => OnStart(s, t, attrs)
    case Data(text) => OnData(s, text)
    case End(t) => OnEnd(s, t)
  }

  /** `feed`: the events in order. */
  function Feed(s: State, evs: seq<Event>): (r: State)
    ensures Inv(s) ==> Inv(r)
    decreases |evs|
  {
    if |evs| == 0 then s else Feed(Step(s, evs[0]), evs[1..])
  }

  /** `close`: every tag still open is closed, innermost first. */
  function OnClose(s: State): (r: State)
    ensures r.stack == [] && r.visible == s.visible
    ensures r.out == s.out + CloseAll(s.stack)
    ensures Inv(s) ==> Balanced(r.out)
  {
    var r := State(s.out + CloseAll(s.stack), s.visible, []);
    if Inv(s) then
      NestAppend(s.out, CloseAll(s.stack), []);
      CloseAllNest([], s.stack);
      assert [] + s.stack == s.stack;
      r
    else r
  }

  /** The pieces of the result for a whole stream: always balanced, however
      malformed the nesting of the input. */
  function Pieces(evs: seq<Event>): (ps: seq<Piece>)
    ensures Balanced(ps)
  {
    OnClose(Feed(Init, evs)).out
  }

  /** The simplifier's `result` after `close`: no run of three newlines,
      apart from newlines exactly the rendered balanced pieces, and the
      rendered pieces themselves whenever they hold no such run (each
      longer run becomes two newlines, see `CollapseNewlinesRun`). */
  function Simplify(evs: seq<Event>): (r: string)
    ensures NoTripleNewline(r)
    ensures Without(r, '\n') == Without(Render(Pieces(evs)), '\n')
    ensures NoTripleNewline(Render(Pieces(evs))) ==> r == Render(Pieces(evs))
  {
    var rendered := Render(Pieces(evs));
    CollapseNewlinesNoTriple(rendered);
    CollapseNewlinesKeepsText(rendered);
    assert NoTripleNewline(rendered) ==> CollapseNewlines(rendered) == rendered by {
      if NoTripleNewline(rendered) {
        CollapseNewlinesIdle(rendered);
      }
    }
    CollapseNewlines(rendered)
  }

  // ---------------------------------------------------------------------
  // Visibility is a flag, not a nesting count
  // ---------------------------------------------------------------------

  /** How an event sets the visibility flag, if it does. */
  function HiderEffect(e: Event): Option<bool> {
    match e
    case Start(t, _) => if IsHider(Lower(t)) then Some(false) else None
    case End(t) => if IsHider(t) then Some(true) else None
    case Data(_) => None
  }

  /** The effect of the last event in the stream that sets the flag. */
  function LastHider(evs: seq<Event>): Option<bool> {
    if |evs| == 0 then None
    else if LastHider(evs[1..]).Some? then LastHider(evs[1..])
    else HiderEffect(evs[0])
  }

  /** After any stream the output is visible exactly when the last
      script/style tag seen was an end tag (or there was none and it was
      visible before): nested hiders are not counted. */
  lemma {:induction false} VisibilityIsLastHider(s: State, evs: seq<Event>)
    ensures Feed(s, evs).visible == LastHider(evs).GetOr(s.visible)
    decreases |evs|
  {
    if |evs| > 0 {
      VisibilityIsLastHider(Step(s, evs[0]), evs[1..]);
    }
  }

  /** While hidden, nothing is emitted or pushed until a script or style end
      tag arrives. */
  lemma {:induction false} HiddenEmitsNothing(s: State, evs: seq<Event>)
    requires !s.visible
    requires forall i :: 0 <= i < |evs| ==> HiderEffect(evs[i]) != Some(true)
    ensures Feed(s, evs) == s
    decreases |evs|
  {
    if |evs| > 0 {
      assert HiderEffect(evs[0]) != Some(true);
      assert Step(s, evs[0]) == s;
      HiddenEmitsNothing(s, evs[1..]);
    }
  }
}

=== FILE: splitter.dfy ===
/** `HTMLSplitter` of smtg/parsers.py: re-renders Telegram markup into
    parts short enough for one chat message. When a text run would make
    the current part too long, the part is filled up, every open tag is
    closed innermost-first, and the next part starts by reopening them in
    stack order.

    Two details are modelled as the source has them. The remainder of a
    split text run goes through `handle_data` again and is therefore
    escaped a second time. And when the markup that reopens the stack is
    itself at least `SplitThreshold` long, every recursive call splits
    again without end; Python stops that with a `RecursionError`, which is
    the `UnboundedRecursion` failure here. */
module Splitter {
  import opened Strings
  import opened Markup

  /** A text run is split once the part would reach this many characters. */
  const SplitThreshold: nat := 3876

  /** At a split, text is added until the part holds this many characters. */
  const PartBudget: nat := 3939

  /** One open tag, kept with its attributes so it can be reopened. */
  datatype Frame = Frame(tag: string, attrs: seq<Attr>)

  datatype State = State(active: string, parts: seq<string>, stack: seq<Frame>)

  const Init: State := State("", [], [])

  datatype Failure =
    | EmptyStackPop        // an end tag with nothing open: `list.pop` raises IndexError
    | UnboundedRecursion   // the reopened tags alone exceed the threshold

  datatype Outcome = Running(state: State) | Failed(failure: Failure)

  // ---------------------------------------------------------------------
  // Markup rendering
  // ---------------------------------------------------------------------

  function AttrsMarkup(attrs: seq<Attr>): string {
    if |attrs| == 0 then ""
    else " " + attrs[0].name + "=\"" + Escape(attrs[0].value.GetOr(""), true) + "\"" + AttrsMarkup(attrs[1..])
  }

  /** `push_starttag`. */
  function StartMarkup(f: Frame): string {
    "<" + f.tag + AttrsMarkup(f.attrs) + ">"
  }

  /** Attribute values are escaped with quotes on, so each rendered
      attribute holds exactly its two delimiting `"`: a value cannot close
      its own quotes, as long as the names hold none. */
  lemma {:induction false} AttrsMarkupQuotes(attrs: seq<Attr>)
    requires forall i :: 0 <= i < |attrs| ==> '"' !in attrs[i].name
    ensures Count(AttrsMarkup(attrs), '"') == 2 * |attrs|
    decreases |attrs|
  {
    if |attrs| > 0 {
      var name := attrs[0].name;
      var v := Escape(attrs[0].value.GetOr(""), true);
      EscapeIsSafe(attrs[0].value.GetOr(""), true);
      AttrsMarkupQuotes(attrs[1..]);
      var rest := AttrsMarkup(attrs[1..]);
      CountAppend(" " + name + "=\"" + v + "\"", rest, '"');
      CountAppend(" " + name + "=\"" + v, "\"", '"');
      CountAppend(" " + name + "=\"", v, '"');
      CountAppend(" " + name, "=\"", '"');
      CountAppend(" ", name, '"');
      CountAbsent(v, '"');
      CountAbsent(name, '"');
      assert Count("=\"", '"') == 1 && Count("\"", '"') == 1 && Count(" ", '"') == 0;
    }
  }

  /** `push_endtag`. */
  function EndMarkup(tag: string): string {
    "</" + tag + ">"
  }

  /** The start tags of the stack, outermost first. */
  function Reopen(st: seq<Frame>): string {
    if |st| == 0 then "" else Reopen(st[..|st| - 1]) + StartMarkup(st[|st| - 1])
  }

  /** The end tags of the stack, innermost first. */
  function Closing(st: seq<Frame>): string {
    if |st| == 0 then "" else EndMarkup(st[|st| - 1].tag) + Closing(st[..|st| - 1])
  }

  function Max(a: nat, b: nat): nat {
    if a < b then b else a
  }

  function Min(a: nat, b: nat): nat {
    if a < b then a else b
  }

  // ---------------------------------------------------------------------
  // One split
  // ---------------------------------------------------------------------

  /** How a text run is divided at a split: `body` ends the current part
      (before its closing tags), `rest` goes on to the next one. */
  datatype Cut = Cut(body: string, rest: string)

  /** `data[:data_size]` and `data[data_size:]` with
      `data_size = max(3939 - len(active_part), 0)`. */
  function CutData(active: string, e: string): (c: Cut)
    ensures c.body + c.rest == active + e
    ensures StartsWith(c.body, active)
    ensures |c.body| == Min(Max(|active|, PartBudget), |active| + |e|)
    ensures c.rest == e[|c.body| - |active|..]
  {
    var room: nat := if |active| < PartBudget then PartBudget - |active| else 0;
    var k := Min(room, |e|);
    assert active + e == (active + e[..k]) + e[k..];
    Cut(active + e[..k], e[k..])
  }

  // ---------------------------------------------------------------------
  // Termination of the recursive handle_data
  // ---------------------------------------------------------------------

  /** Index of the first `&`, or the length when there is none. */
  function FirstAmp(s: string): (n: nat)
    ensures n <= |s|
  {
    if |s| == 0 then 0 else if s[0] == '&' then 0 else 1 + FirstAmp(s[1..])
  }

  lemma {:induction false} CountAppend(a: string, b: string, c: char)
    ensures Count(a + b, c) == Count(a, c) + Count(b, c)
    decreases |a|
  {
    if |a| == 0 {
      assert a + b == b;
    } else {
      CountAppend(a[1..], b, c);
      assert (a + b)[0] == a[0];
      assert (a + b)[1..] == a[1..] + b;
    }
  }

  /** Re-escaping angle-free text keeps the number of `&` and the position
      of the first one: each `&` becomes `&amp;`, which starts with `&`. */
  lemma {:induction false} EscapeMeasure(x: string)
    requires NoAngles(x)
    ensures Count(Escape(x, false), '&') == Count(x, '&')
    ensures FirstAmp(Escape(x, false)) == FirstAmp(x)
    decreases |x|
  {
    if |x| > 0 {
      assert NoAngles(x[1..]) by {
        assert forall c :: c in x[1..] ==> c in x;
      }
      EscapeMeasure(x[1..]);
      var h := EscapeChar(x[0], false);
      CountAppend(h, Escape(x[1..], false), '&');
      if x[0] == '&' {
        assert h == "&amp;";
        assert h == "&" + "amp;";
        CountAppend("&", "amp;", '&');
        CountAbsent("amp;", '&');
      } else {
        assert h == [x[0]];
        assert Escape(x, false)[1..] == Escape(x[1..], false);
      }
    }
  }

  /** Cutting off a prefix never adds `&`; if the prefix held one, it
      removes one, otherwise it moves the first one closer. */
  lemma {:induction false} SuffixMeasure(e: string, k: nat)
    requires k <= |e|
    ensures Count(e[k..], '&') <= Count(e, '&')
    ensures FirstAmp(e) < k ==> Count(e[k..], '&') < Count(e, '&')
    ensures FirstAmp(e) >= k ==> Count(e[k..], '&') == Count(e, '&') && FirstAmp(e[k..]) == FirstAmp(e) - k
    decreases k
  {
    if k > 0 {
      SuffixMeasure(e[1..], k - 1);
      assert e[1..][k - 1..] == e[k..];
    }
  }

  lemma {:induction false} CountAbsent(s: string, c: char)
    requires c !in s
    ensures Count(s, c) == 0
    decreases |s|
  {
    if |s| > 0 {
      CountAbsent(s[1..], c);
    }
  }

  lemma NoAnglesSuffix(e: string, k: nat)
    requires NoAngles(e) && k <= |e|
    ensures NoAngles(e[k..])
  {
    assert forall c :: c in e[k..] ==> c in e;
  }

  // ---------------------------------------------------------------------
  // handle_data
  // ---------------------------------------------------------------------

  /** The body of `handle_data` after its first line: `e` is already
      escaped. A split re-enters `handle_data` with the raw remainder, which
      escapes it once more. */
  function PushEscaped(s: State, e: string): (r: Outcome)
    requires NoAngles(e)
    ensures |s.active| + |e| < SplitThreshold ==> r == Running(s.(active := s.active + e))
    ensures r.Failed? <==> |s.active| + |e| >= SplitThreshold && |Reopen(s.stack)| >= SplitThreshold
    ensures r.Failed? ==> r.failure == UnboundedRecursion
    ensures r.Running? ==> r.state.stack == s.stack
    decreases Count(e, '&'), FirstAmp(e), if |s.active| >= SplitThreshold then 1 else 0
  {
    if |s.active| + |e| >= SplitThreshold then
      var c := CutData(s.active, e);
      var next := State(Reopen(s.stack), s.parts + [c.body + Closing(s.stack)], s.stack);
      if |next.active| >= SplitThreshold then Failed(UnboundedRecursion)
      else
        RemainderShrinks(s, e);
        PushEscaped(next, Escape(c.rest, false))
    else Running(s.(active := s.active + e))
  }

  /** The termination argument: after a split the re-escaped remainder has
      no more `&` than before, and either fewer or its first one earlier,
      or else the part that overflowed had already reached the threshold
      and the new one, holding only reopened tags, has not. */
  lemma RemainderShrinks(s: State, e: string)
    requires NoAngles(e)
    requires |s.active| + |e| >= SplitThreshold
    requires |Reopen(s.stack)| < SplitThreshold
    ensures var e' := Escape(CutData(s.active, e).rest, false);
      && NoAngles(e')
      && (|s.active| < SplitThreshold ==>
            Count(e', '&') < Count(e, '&') || (Count(e', '&') == Count(e, '&') && FirstAmp(e') < FirstAmp(e)))
      && Count(e', '&') <= Count(e, '&')
      && (Count(e', '&') == Count(e, '&') ==> FirstAmp(e') <= FirstAmp(e))
  {
    var c := CutData(s.active, e);
    var k := |c.body| - |s.active|;
    CutAdvances(|s.active|, |e|);
    assert 0 <= k <= |e| && c.rest == e[k..];
    EscapedSuffixMeasure(e, k);
  }

  /** Below the threshold a split always moves some text into the part. */
  lemma CutAdvances(a: nat, n: nat)
    requires a + n >= SplitThreshold
    ensures a <= Min(Max(a, PartBudget), a + n) <= a + n
    ensures a < SplitThreshold ==> Min(Max(a, PartBudget), a + n) > a
  {
  }

  /** Dropping `k` characters and escaping the rest again. */
  lemma EscapedSuffixMeasure(e: string, k: nat)
    requires NoAngles(e) && k <= |e|
    ensures var e' := Escape(e[k..], false);
      && NoAngles(e')
      && Count(e', '&') <= Count(e, '&')
      && (k > 0 ==> Count(e', '&') < Count(e, '&') || (Count(e', '&') == Count(e, '&') && FirstAmp(e') < FirstAmp(e)))
      && (Count(e', '&') == Count(e, '&') ==> FirstAmp(e') <= FirstAmp(e))
  {
    NoAnglesSuffix(e, k);
    EscapeMeasure(e[k..]);
    EscapeIsSafe(e[k..], false);
    SuffixMeasure(e, k);
  }

  /** Every part a text run finishes ends with the stack's closing tags and
      is filled to at most `max(len(active_part), 3939)` characters before
      them; every part after the first begins by reopening the stack, and
      so does the new active part. */
  predicate SplitPartsOk(s: State, r: State) {
    && |r.parts| >= |s.parts| && r.parts[..|s.parts|] == s.parts
    && (|r.parts| == |s.parts| ==> StartsWith(r.active, s.active))
    && (|r.parts| > |s.parts| ==>
          StartsWith(r.parts[|s.parts|], s.active) && StartsWith(r.active, Reopen(s.stack)))
    && (forall i :: |s.parts| <= i < |r.parts| ==>
          && EndsWith(r.parts[i], Closing(s.stack))
          && |r.parts[i]| <= Max(|s.active|, PartBudget) + |Closing(s.stack)|)
    && (forall i :: |s.parts| < i < |r.parts| ==> StartsWith(r.parts[i], Reopen(s.stack)))
  }

  lemma {:induction false} PushEscapedParts(s: State, e: string)
    requires NoAngles(e)
    requires PushEscaped(s, e).Running?
    ensures SplitPartsOk(s, PushEscaped(s, e).state)
    ensures |PushEscaped(s, e).state.parts| == |s.parts| ==> PushEscaped(s, e).state.active == s.active + e
    decreases Count(e, '&'), FirstAmp(e), if |s.active| >= SplitThreshold then 1 else 0
  {
    if |s.active| + |e| >= SplitThreshold {
      var c := CutData(s.active, e);
      var next := State(Reopen(s.stack), s.parts + [c.body + Closing(s.stack)], s.stack);
      RemainderShrinks(s, e);
      var e' := Escape(c.rest, false);
      PushEscapedParts(next, e');
      ComposeSplit(s, c.body, next, PushEscaped(next, e').state);
    } else {
      assert (s.active + e)[..|s.active|] == s.active;
    }
  }

  /** One split followed by the rest of the recursion keeps `SplitPartsOk`. */
  lemma ComposeSplit(s: State, body: string, next: State, r: State)
    requires StartsWith(body, s.active) && |body| <= Max(|s.active|, PartBudget)
    requires next == State(Reopen(s.stack), s.parts + [body + Closing(s.stack)], s.stack)
    requires |Reopen(s.stack)| < SplitThreshold
    requires SplitPartsOk(next, r)
    ensures SplitPartsOk(s, r)
  {
    var finished := body + Closing(s.stack);
    FinishedPart(s.active, body, Closing(s.stack));
    assert r.parts[..|next.parts|] == next.parts;
    assert r.parts[|s.parts|] == finished;
    assert r.parts[..|s.parts|] == s.parts;
    forall i | |s.parts| <= i < |r.parts|
      ensures EndsWith(r.parts[i], Closing(s.stack))
      ensures |r.parts[i]| <= Max(|s.active|, PartBudget) + |Closing(s.stack)|
    {
      if i > |s.parts| {
        assert |r.parts[i]| <= Max(|next.active|, PartBudget) + |Closing(s.stack)|;
      }
    }
    forall i | |s.parts| < i < |r.parts|
      ensures StartsWith(r.parts[i], Reopen(s.stack))
    {
      if i == |next.parts| {
        assert StartsWith(r.parts[i], next.active);
      }
    }
  }

  /** The part a split finishes: the old active part, filled up, then the
      closing tags. */
  lemma FinishedPart(active: string, body: string, closing: string)
    requires StartsWith(body, active)
    ensures StartsWith(body + closing, active)
    ensures EndsWith(body + closing, closing)
  {
    var f := body + closing;
    assert f[..|body|] == body;
    assert f[..|active|] == body[..|active|];
    assert f[|f| - |closing|..] == closing;
  }

  // ---------------------------------------------------------------------
  // Events and close()
  // ---------------------------------------------------------------------

  /** One callback. A start tag is pushed with its lower-cased name, text
      goes through `PushEscaped`, and an end tag pops whatever is on top,
      whichever tag it names; with nothing open, `tag_stack.pop()` raises. */
  function Step(s: State, ev: Event): (r: Outcome)
    ensures ev.End? ==> (r.Failed? <==> |s.stack| == 0)
    ensures r.Failed? ==> (r.failure == EmptyStackPop <==> ev.End?)
    ensures ev.Start? ==> r == Running(State(s.active + StartMarkup(Frame(Lower(ev.tag), ev.attrs)), s.parts,
                                             s.stack + [Frame(Lower(ev.tag), ev.attrs)]))
    ensures ev.End? && r.Running? ==>
      && r.state.active == s.active + EndMarkup(ev.tag)
      && r.state.parts == s.parts
      && r.state.stack == s.stack[..|s.stack| - 1]
    ensures r.Running? ==> |r.state.stack| == NextDepth(ev, |s.stack|)
  {
    match ev
    case Start(t, attrs) =>
      var f := Frame(Lower(t), attrs);
      Running(State(s.active + StartMarkup(f), s.parts, s.stack + [f]))
    case Data(x) =>
      EscapeIsSafe(x, false);
      PushEscaped(s, Escape(x, false))
    case End(t) =>
      if |s.stack| == 0 then Failed(EmptyStackPop)
      else Running(State(s.active + EndMarkup(t), s.parts, s.stack[..|s.stack| - 1]))
  }

  /** `feed`: the events in order; the first exception ends the run. */
  function Feed(s: State, evs: seq<Event>): (r: Outcome)
    ensures r.Running? ==> |r.state.parts| >= |s.parts| && r.state.parts[..|s.parts|] == s.parts
    decreases |evs|
  {
    if |evs| == 0 then Running(s)
    else
      match Step(s, evs[0])
      case Failed(f) => Failed(f)
      case Running(s') =>
        assert s'.parts[..|s.parts|] == s.parts by {
          StepKeepsParts(s, evs[0]);
        }
        var r := Feed(s', evs[1..]);
        if r.Running? then
          assert r.state.parts[..|s'.parts|][..|s.parts|] == r.state.parts[..|s.parts|];
          r
        else r
  }

  lemma StepKeepsParts(s: State, ev: Event)
    requires Step(s, ev).Running?
    ensures |Step(s, ev).state.parts| >= |s.parts| && Step(s, ev).state.parts[..|s.parts|] == s.parts
  {
    match ev
    case Start(_, _) =>
      assert Step(s, ev).state.parts == s.parts;
    case End(_) =>
      assert Step(s, ev).state.parts == s.parts;
    case Data(x) =>
      EscapeIsSafe(x, false);
      PushEscapedParts(s, Escape(x, false));
  }

  /** `close`: the active part is always appended, so a successful run
      yields at least one part, even for an empty stream. */
  function OnClose(s: State): (r: State)
    ensures |r.parts| == |s.parts| + 1 && r.parts[..|s.parts|] == s.parts
    ensures r.parts[|s.parts|] == s.active
  {
    s.(parts := s.parts + [s.active])
  }

  /** The parts for a whole stream: the splitter is fed and closed. An end
      tag with nothing open makes the run fail; `EmptyStackPop` happens
      for no other stream, and `UnboundedRecursion` can only come first. */
  function Run(evs: seq<Event>): (r: Outcome)
    ensures r.Running? ==> |r.state.parts| >= 1
    ensures r.Running? <==> Feed(Init, evs).Running?
    ensures r.Running? ==> r.state.parts == Feed(Init, evs).state.parts + [Feed(Init, evs).state.active]
    ensures !EndsFit(evs, 0) ==> r.Failed?
    ensures r == Failed(EmptyStackPop) ==> !EndsFit(evs, 0)
  {
    PopFailsIffUnfit(Init, evs);
    match Feed(Init, evs)
    case Failed(f) => Failed(f)
    case Running(s) => Running(OnClose(s))
  }

  /** An end tag with nothing open ends every run that gets that far:
      a stream that does not fit the stack depth always fails, and a run
      fails with `EmptyStackPop` only on such a stream. */
  lemma {:induction false} PopFailsIffUnfit(s: State, evs: seq<Event>)
    ensures !EndsFit(evs, |s.stack|) ==> Feed(s, evs).Failed?
    ensures Feed(s, evs) == Failed(EmptyStackPop) ==> !EndsFit(evs, |s.stack|)
    decreases |evs|
  {
    if |evs| > 0 {
      match Step(s, evs[0])
      case Failed(f) =>
      case Running(s') =>
        FeedRunningStep(s, evs, s');
        PopFailsIffUnfit(s', evs[1..]);
    }
  }

  // ---------------------------------------------------------------------
  // Short streams stay in one part
  // ---------------------------------------------------------------------

  /** What the splitter writes for one event when no split happens. */
  function EventMarkup(ev: Event): string {
    match ev
    case Start(t, attrs) => StartMarkup(Frame(Lower(t), attrs))
    case Data(x) => Escape(x, false)
    case End(t) => EndMarkup(t)
  }

  /** What the splitter writes for a stream when no split happens. */
  function RenderEvents(evs: seq<Event>): string {
    if |evs| == 0 then "" else EventMarkup(evs[0]) + RenderEvents(evs[1..])
  }

  /** Stack depth after one event, when it does not fail. */
  function NextDepth(ev: Event, depth: nat): nat {
    match ev
    case Start(_, _) => depth + 1
    case Data(_) => depth
    case End(_) => if depth > 0 then depth - 1 else 0
  }

  /** No end tag arrives while nothing is open. */
  predicate EndsFit(evs: seq<Event>, depth: nat)
    decreases |evs|
  {
    |evs| == 0 || ((evs[0].End? ==> depth > 0) && EndsFit(evs[1..], NextDepth(evs[0], depth)))
  }

  /** A stream whose re-rendering stays under the threshold is copied into
      the active part unchanged: no split, no second escape. */
  lemma {:induction false} ShortStreamStaysActive(s: State, evs: seq<Event>)
    requires EndsFit(evs, |s.stack|)
    requires |s.active| + |RenderEvents(evs)| < SplitThreshold
    ensures Feed(s, evs).Running?
    ensures Feed(s, evs).state.active == s.active + RenderEvents(evs)
    ensures Feed(s, evs).state.parts == s.parts
    decreases |evs|
  {
    if |evs| == 0 {
      assert s.active + "" == s.active;
    } else {
      var s' := ShortStreamHead(s, evs);
      ShortStreamStaysActive(s', evs[1..]);
    }
  }

  /** The first event of a short stream, and what is left to feed. */
  lemma ShortStreamHead(s: State, evs: seq<Event>) returns (s': State)
    requires |evs| > 0 && EndsFit(evs, |s.stack|)
    requires |s.active| + |RenderEvents(evs)| < SplitThreshold
    ensures Feed(s, evs) == Feed(s', evs[1..]) && s'.parts == s.parts
    ensures EndsFit(evs[1..], |s'.stack|)
    ensures s'.active + RenderEvents(evs[1..]) == s.active + RenderEvents(evs)
    ensures |s'.active| + |RenderEvents(evs[1..])| < SplitThreshold
  {
    s' := Advance(s, evs[0]);
    RenderEventsCons(evs);
    EndsFitCons(evs, |s.stack|);
    ShortStep(s, evs[0], |RenderEvents(evs[1..])|);
    FeedRunningStep(s, evs, s');
    AdvanceText(s, evs);
  }

  lemma AdvanceText(s: State, evs: seq<Event>)
    requires |evs| > 0
    ensures Advance(s, evs[0]).active + RenderEvents(evs[1..]) == s.active + RenderEvents(evs)
  {
    RenderEventsCons(evs);
    var head := EventMarkup(evs[0]);
    var tail := RenderEvents(evs[1..]);
    ConcatAssoc(s.active, head, tail);
  }

  lemma RenderEventsCons(evs: seq<Event>)
    requires |evs| > 0
    ensures RenderEvents(evs) == EventMarkup(evs[0]) + RenderEvents(evs[1..])
  {
  }

  lemma EndsFitCons(evs: seq<Event>, depth: nat)
    requires |evs| > 0 && EndsFit(evs, depth)
    ensures evs[0].End? ==> depth > 0
    ensures EndsFit(evs[1..], NextDepth(evs[0], depth))
  {
  }

  lemma FeedRunningStep(s: State, evs: seq<Event>, s': State)
    requires |evs| > 0 && Step(s, evs[0]) == Running(s')
    ensures Feed(s, evs) == Feed(s', evs[1..])
  {
  }

  /** What one event does when it causes no split. */
  function Advance(s: State, ev: Event): State {
    var stack := match ev
      case Start(t, attrs) => s.stack + [Frame(Lower(t), attrs)]
      case Data(_) => s.stack
      case End(_) => if |s.stack| > 0 then s.stack[..|s.stack| - 1] else [];
    State(s.active + EventMarkup(ev), s.parts, stack)
  }

  /** One event of a short stream: no split, its markup appended. */
  lemma ShortStep(s: State, ev: Event, more: nat)
    requires |s.active| + |EventMarkup(ev)| + more < SplitThreshold
    requires ev.End? ==> |s.stack| > 0
    ensures Step(s, ev) == Running(Advance(s, ev))
    ensures |Advance(s, ev).stack| == NextDepth(ev, |s.stack|)
  {
    match ev
    case Start(t, attrs) =>
    case Data(x) =>
      EscapeIsSafe(x, false);
    case End(t) =>
  }

  /** Hence a short well-nested stream becomes exactly one part. */
  lemma ShortStreamIsOnePart(evs: seq<Event>)
    requires EndsFit(evs, 0)
    requires |RenderEvents(evs)| < SplitThreshold
    ensures Run(evs).Running? && Run(evs).state.parts == [RenderEvents(evs)]
  {
    ShortStreamStaysActive(Init, evs);
    assert "" + RenderEvents(evs) == RenderEvents(evs);
  }

  // ---------------------------------------------------------------------
  // The second escape of a split remainder
  // ---------------------------------------------------------------------

  /** A concrete run showing the remainder escaped twice: with any 3938
      characters already in the part, the text `a&b` escapes to `a&amp;b`,
      one character fits, and the remainder `&amp;b` is escaped again into
      `&amp;amp;b`, which Telegram displays as `&amp;b` instead of `&b`. */
  lemma RemainderEscapedTwice(filler: string)
    requires |filler| == 3938
    ensures Step(State(filler, [], []), Data("a&b")) == Running(State("&amp;amp;b", [filler + "a"], []))
  {
    var s := State(filler, [], []);
    var e := "a&amp;b";
    EscapeExample();
    assert Step(s, Data("a&b")) == PushEscaped(s, e);
    CutExample(filler);
    EscapeAmpOnce();
    SplitOnce(s, e);
    assert Reopen([]) == "" && Closing([]) == "";
    var body := filler + "a";
    assert body + "" == body;
    var again := "&amp;amp;b";
    var next := State("", [body], []);
    assert PushEscaped(s, e) == PushEscaped(next, again);
    assert "" + again == again;
  }

  lemma EscapeExample()
    ensures Escape("a&b", false) == "a&amp;b"
  {
  }

  /** With 3938 characters in the part, one more fits. */
  lemma CutExample(active: string)
    requires |active| == 3938
    ensures CutData(active, "a&amp;b") == Cut(active + "a", "&amp;b")
  {
    var c := CutData(active, "a&amp;b");
    assert |c.body| == 3939;
    assert c.rest == "a&amp;b"[1..];
    assert c.body[..3938] == active && c.body[3938] == 'a';
  }

  /** The remainder of the worked example, escaped again. */
  lemma EscapeAmpOnce()
    ensures Escape("&amp;b", false) == "&amp;amp;b"
  {
    EscapeKeepsPlain("amp;b", false);
    assert "&amp;b" == "&" + "amp;b";
    EscapeAppend("&", "amp;b", false);
  }

  /** A split, unfolded once: the finished part is stored, the stack is
      reopened, and the escaped remainder goes round again. */
  lemma SplitOnce(s: State, e: string)
    requires NoAngles(e)
    requires |s.active| + |e| >= SplitThreshold
    requires |Reopen(s.stack)| < SplitThreshold
    ensures NoAngles(Escape(CutData(s.active, e).rest, false))
    ensures PushEscaped(s, e) ==
      PushEscaped(State(Reopen(s.stack), s.parts + [CutData(s.active, e).body + Closing(s.stack)], s.stack),
                  Escape(CutData(s.active, e).rest, false))
  {
    RemainderShrinks(s, e);
  }
}

=== FILE: strings.dfy ===
/** String helpers shared by the whole model: the parts of Python's `str`
    and `re` behaviour the mail pipeline relies on (`lower`, `endswith`,
    `in`, `strip`, `split(",")`, `",".join`, and the whitespace and newline
    rewrites done with `re.sub`). Strings are sequences of code points, as
    Python's `str` is. */
module Strings {

  datatype Option<+T> = None | Some(value: T) {
    /** Python's `x or default` / `dict.get(key, default)` on an optional value. */
    function GetOr(default: T): T {
      match this
      case Some(v) => v
      case None => default
    }
  }

  /** Concatenation regroups freely; stated once so that proofs can cite
      it instead of asserting the equation in a crowded context. */
  lemma ConcatAssoc(a: string, b: string, c: string)
    ensures a + b + c == a + (b + c)
  {
  }

  /** The three pieces of a three-piece concatenation. */
  lemma ConcatEnds(a: string, b: string, c: string)
    ensures StartsWith(a + b + c, a) && EndsWith(a + b + c, c)
    ensures (a + b + c)[|a|..|a| + |b|] == b
  {
    assert (a + b + c)[..|a|] == a;
    assert (a + b + c)[|a + b + c| - |c|..] == c;
    assert (a + b + c)[|a|..|a| + |b|] == b;
  }

  // ---------------------------------------------------------------------
  // Character classes
  // ---------------------------------------------------------------------

  /** Python's whitespace class: `str.isspace`, `str.strip` and the `\s`
      class of `re` on str patterns all use this set. */
  predicate IsSpace(c: char) {
    c == ' ' || ('\t' <= c <= '\r') || ('\U{1C}' <= c <= '\U{1F}')
    || c == '\U{85}' || c == '\U{A0}' || c == '\U{1680}'
    || ('\U{2000}' <= c <= '\U{200A}') || c == '\U{2028}' || c == '\U{2029}'
    || c == '\U{202F}' || c == '\U{205F}' || c == '\U{3000}'
  }

  predicate IsAlnumChar(c: char) {
    ('a' <= c <= 'z') || ('A' <= c <= 'Z') || ('0' <= c <= '9')
  }

  /** Python's `str.isalnum()`: false on the empty string. */
  predicate IsAlnum(s: string) {
    |s| > 0 && forall i :: 0 <= i < |s| ==> IsAlnumChar(s[i])
  }

  function LowerChar(c: char): char {
    if 'A' <= c <= 'Z' then (c as int + 32) as char else c
  }

  /** Python's `str.lower()` on the ASCII range. */
  function Lower(s: string): string {
    seq(|s|, i requires 0 <= i < |s| => LowerChar(s[i]))
  }

  // ---------------------------------------------------------------------
  // Substrings
  // ---------------------------------------------------------------------

  predicate StartsWith(s: string, prefix: string) {
    |prefix| <= |s| && s[..|prefix|] == prefix
  }

  predicate EndsWith(s: string, suffix: string) {
    |suffix| <= |s| && s[|s| - |suffix|..] == suffix
  }

  /** Python's `needle in haystack` on strings. */
  predicate Contains(haystack: string, needle: string)
    decreases |haystack|
  {
    StartsWith(haystack, needle) || (|haystack| > 0 && Contains(haystack[1..], needle))
  }

  /** Number of occurrences of `c` in `s`. */
  function Count(s: string, c: char): nat {
    if |s| == 0 then 0 else (if s[0] == c then 1 else 0) + Count(s[1..], c)
  }

  /** `s` with every `c` removed. */
  function Without(s: string, c: char): string {
    if |s| == 0 then "" else (if s[0] == c then "" else [s[0]]) + Without(s[1..], c)
  }

  /** `s` with every whitespace character removed. */
  function NonSpaces(s: string): string {
    if |s| == 0 then "" else (if IsSpace(s[0]) then "" else [s[0]]) + NonSpaces(s[1..])
  }

  predicate HasNonSpace(s: string) {
    exists i :: 0 <= i < |s| && !IsSpace(s[i])
  }

  /** Python's `s.replace(c, by)` for a one-character pattern. */
  function Replace(s: string, c: char, repl: string): (r: string)
    ensures c !in repl ==> c !in r
  {
    if |s| == 0 then "" else (if s[0] == c then repl else [s[0]]) + Replace(s[1..], c, repl)
  }

  lemma {:induction false} ReplaceKeepsAbsent(s: string, c: char, repl: string, d: char)
    requires d !in s && d !in repl
    ensures d !in Replace(s, c, repl)
  {
    if |s| > 0 {
      ReplaceKeepsAbsent(s[1..], c, repl, d);
    }
  }

  // ---------------------------------------------------------------------
  // Whitespace collapse: re.sub(r"\s+", " ", s)
  // ---------------------------------------------------------------------

  /** `s` without its leading run of whitespace (Python's `str.lstrip()`). */
  function DropSpaces(s: string): (r: string)
    ensures |r| <= |s| && r == s[|s| - |r|..]
    ensures |r| == 0 || !IsSpace(r[0])
    ensures forall i :: 0 <= i < |s| - |r| ==> IsSpace(s[i])
  {
    if |s| > 0 && IsSpace(s[0]) then DropSpaces(s[1..]) else s
  }

  /** Every maximal run of whitespace replaced by one space. */
  function Collapse(s: string): string
    decreases |s|
  {
    if |s| == 0 then ""
    else if IsSpace(s[0]) then " " + Collapse(DropSpaces(s))
    else [s[0]] + Collapse(s[1..])
  }

  /** The shape `Collapse` leaves: the only whitespace is a single space,
      never two in a row. */
  predicate Collapsed(t: string) {
    && (forall i :: 0 <= i < |t| && IsSpace(t[i]) ==> t[i] == ' ')
    && (forall i :: 0 <= i < |t| - 1 ==> !(t[i] == ' ' && t[i + 1] == ' '))
  }

  /** Two collapsed strings stay collapsed when joined, unless the seam
      puts two spaces together. */
  lemma CollapsedAppend(a: string, b: string)
    requires Collapsed(a) && Collapsed(b)
    requires |a| > 0 && |b| > 0 ==> !(a[|a| - 1] == ' ' && b[0] == ' ')
    ensures Collapsed(a + b)
  {
    var t := a + b;
    forall i | 0 <= i < |t| && IsSpace(t[i])
      ensures t[i] == ' '
    {
      if i >= |a| {
        assert t[i] == b[i - |a|];
      }
    }
    forall i | 0 <= i < |t| - 1
      ensures !(t[i] == ' ' && t[i + 1] == ' ')
    {
      if i >= |a| {
        assert t[i] == b[i - |a|] && t[i + 1] == b[i + 1 - |a|];
      } else if i == |a| - 1 {
        assert t[i + 1] == b[0];
      }
    }
  }

  lemma HasNonSpaceAppend(a: string, b: string)
    requires HasNonSpace(b)
    ensures HasNonSpace(a + b)
  {
    var i :| 0 <= i < |b| && !IsSpace(b[i]);
    assert (a + b)[|a| + i] == b[i];
  }

  lemma {:induction false} CollapseKeepsHead(s: string)
    requires |s| > 0
    ensures |Collapse(s)| > 0
    ensures IsSpace(s[0]) <==> Collapse(s)[0] == ' '
    ensures !IsSpace(s[0]) ==> Collapse(s)[0] == s[0]
  {
  }

  lemma {:induction false} CollapseIsCollapsed(s: string)
    ensures Collapsed(Collapse(s))
    decreases |s|
  {
    if |s| == 0 {
    } else if IsSpace(s[0]) {
      var rest := DropSpaces(s);
      CollapseIsCollapsed(rest);
      if |rest| > 0 {
        CollapseKeepsHead(rest);
      }
      assert Collapse(s) == " " + Collapse(rest);
    } else {
      CollapseIsCollapsed(s[1..]);
      assert Collapse(s) == [s[0]] + Collapse(s[1..]);
    }
  }

  lemma {:induction false} NonSpacesOfDropped(s: string)
    ensures NonSpaces(DropSpaces(s)) == NonSpaces(s)
    decreases |s|
  {
    if |s| > 0 && IsSpace(s[0]) {
      NonSpacesOfDropped(s[1..]);
    }
  }

  /** Collapsing whitespace never changes the non-whitespace text. */
  lemma {:induction false} CollapseKeepsNonSpaces(s: string)
    ensures NonSpaces(Collapse(s)) == NonSpaces(s)
    decreases |s|
  {
    if |s| == 0 {
    } else if IsSpace(s[0]) {
      var rest := DropSpaces(s);
      CollapseKeepsNonSpaces(rest);
      NonSpacesOfDropped(s);
      assert (" " + Collapse(rest))[1..] == Collapse(rest);
    } else {
      CollapseKeepsNonSpaces(s[1..]);
      assert ([s[0]] + Collapse(s[1..]))[1..] == Collapse(s[1..]);
    }
  }

  /** Text already in collapsed form is left alone, so collapsing is idempotent. */
  lemma {:induction false} CollapseFixesCollapsed(t: string)
    requires Collapsed(t)
    ensures Collapse(t) == t
    decreases |t|
  {
    if |t| > 0 {
      assert Collapsed(t[1..]);
      if IsSpace(t[0]) {
        assert DropSpaces(t) == t[1..] by {
          if |t| > 1 {
            assert !IsSpace(t[1]);
          }
        }
      }
      CollapseFixesCollapsed(t[1..]);
    }
  }

  lemma CollapseIdempotent(s: string)
    ensures Collapse(Collapse(s)) == Collapse(s)
  {
    CollapseIsCollapsed(s);
    CollapseFixesCollapsed(Collapse(s));
  }

  lemma {:induction false} HasNonSpaceIff(s: string)
    ensures HasNonSpace(s) <==> |NonSpaces(s)| > 0
    decreases |s|
  {
    if |s| > 0 {
      HasNonSpaceIff(s[1..]);
      if HasNonSpace(s[1..]) {
        var i :| 0 <= i < |s[1..]| && !IsSpace(s[1..][i]);
        assert !IsSpace(s[i + 1]);
      }
      if HasNonSpace(s) && IsSpace(s[0]) {
        var i :| 0 <= i < |s| && !IsSpace(s[i]);
        assert !IsSpace(s[1..][i - 1]);
      }
    }
  }

  /** `re.sub(r"\s+", " ", d).strip()` is non-empty exactly when `d` holds a
      non-whitespace character. */
  lemma CollapsePreservesNonSpace(s: string)
    ensures HasNonSpace(Collapse(s)) <==> HasNonSpace(s)
  {
    CollapseKeepsNonSpaces(s);
    HasNonSpaceIff(s);
    HasNonSpaceIff(Collapse(s));
  }

  /** A leading run of whitespace that stops inside `a` is dropped from
      `a` alone. */
  lemma {:induction false} DropSpacesAppend(a: string, t: string)
    requires |a| > 0 && !IsSpace(a[|a| - 1])
    ensures DropSpaces(a + t) == DropSpaces(a) + t
    decreases |a|
  {
    if IsSpace(a[0]) {
      assert (a + t)[1..] == a[1..] + t;
      DropSpacesAppend(a[1..], t);
    }
  }

  /** A run of whitespace in front of `b` is dropped whole. */
  lemma {:induction false} DropSpacesRun(w: string, b: string)
    requires forall k :: 0 <= k < |w| ==> IsSpace(w[k])
    requires |b| == 0 || !IsSpace(b[0])
    ensures DropSpaces(w + b) == b
    decreases |w|
  {
    if |w| == 0 {
      assert w + b == b;
    } else {
      assert (w + b)[1..] == w[1..] + b;
      DropSpacesRun(w[1..], b);
    }
  }

  /** A maximal run of whitespace anywhere in the text becomes one space,
      and the text on either side is collapsed on its own. */
  lemma CollapseRun(a: string, w: string, b: string)
    requires |w| > 0 && forall k :: 0 <= k < |w| ==> IsSpace(w[k])
    requires |a| == 0 || !IsSpace(a[|a| - 1])
    requires |b| == 0 || !IsSpace(b[0])
    ensures Collapse(a + w + b) == Collapse(a) + " " + Collapse(b)
  {
    DropSpacesRun(w, b);
    RunJoin(a, w, b);
  }

  lemma RunJoin(a: string, w: string, b: string)
    requires |w| > 0 && IsSpace(w[0]) && DropSpaces(w + b) == b
    requires |a| == 0 || !IsSpace(a[|a| - 1])
    ensures Collapse(a + w + b) == Collapse(a) + " " + Collapse(b)
  {
    ConcatRegroup(a, w, b);
    CollapseAppend(a, w + b);
    RunHead(w, b);
    ConcatRegroup(Collapse(a), " ", Collapse(b));
  }

  lemma RunHead(w: string, b: string)
    requires |w| > 0 && IsSpace(w[0]) && DropSpaces(w + b) == b
    ensures Collapse(w + b) == " " + Collapse(b)
  {
    CollapseSpaceHead(w + b);
  }

  /** Texts joined after a non-whitespace character, so that the seam is
      not inside a run, are collapsed separately. */
  lemma {:induction false} CollapseAppend(a: string, x: string)
    requires |a| == 0 || !IsSpace(a[|a| - 1])
    ensures Collapse(a + x) == Collapse(a) + Collapse(x)
    decreases |a|
  {
    if |a| == 0 {
      assert a + x == x;
    } else if IsSpace(a[0]) {
      var d := DropSpaces(a);
      assert |d| > 0 && d[|d| - 1] == a[|a| - 1];
      DropSpacesAppend(a, x);
      CollapseAppend(d, x);
      AppendAfterSpace(a, x, d);
    } else {
      CollapseAppend(a[1..], x);
      AppendAfterChar(a, x);
    }
  }

  lemma AppendAfterSpace(a: string, x: string, d: string)
    requires |a| > 0 && IsSpace(a[0]) && d == DropSpaces(a)
    requires DropSpaces(a + x) == d + x
    requires Collapse(d + x) == Collapse(d) + Collapse(x)
    ensures Collapse(a + x) == Collapse(a) + Collapse(x)
  {
    var t := a + x;
    assert t[0] == a[0];
    CollapseSpaceHead(t);
    CollapseSpaceHead(a);
    ConcatRegroup(" ", Collapse(d), Collapse(x));
  }

  lemma AppendAfterChar(a: string, x: string)
    requires |a| > 0 && !IsSpace(a[0])
    requires Collapse(a[1..] + x) == Collapse(a[1..]) + Collapse(x)
    ensures Collapse(a + x) == Collapse(a) + Collapse(x)
  {
    var t := a + x;
    SlicesOfAppend(a, x, 1);
    assert t[0] == a[0];
    CollapseCharHead(t);
    CollapseCharHead(a);
    ConcatRegroup([a[0]], Collapse(a[1..]), Collapse(x));
  }

  lemma ConcatRegroup(x: string, y: string, z: string)
    ensures x + (y + z) == (x + y) + z
  {
  }

  lemma CollapseSpaceHead(s: string)
    requires |s| > 0 && IsSpace(s[0])
    ensures Collapse(s) == " " + Collapse(DropSpaces(s))
  {
  }

  lemma CollapseCharHead(s: string)
    requires |s| > 0 && !IsSpace(s[0])
    ensures Collapse(s) == [s[0]] + Collapse(s[1..])
  {
  }

  // ---------------------------------------------------------------------
  // strip()
  // ---------------------------------------------------------------------

  /** `s` without its trailing run of whitespace (Python's `str.rstrip()`). */
  function DropTrailingSpaces(s: string): (r: string)
    ensures |r| <= |s| && r == s[..|r|]
    ensures |r| == 0 || !IsSpace(r[|r| - 1])
    ensures forall i :: |r| <= i < |s| ==> IsSpace(s[i])
  {
    if |s| > 0 && IsSpace(s[|s| - 1]) then DropTrailingSpaces(s[..|s| - 1]) else s
  }

  /** Neither starts nor ends with whitespace. */
  predicate Trimmed(s: string) {
    |s| == 0 || (!IsSpace(s[0]) && !IsSpace(s[|s| - 1]))
  }

  /** `r` is `s` with whitespace cut from its two ends and nothing else
      changed: a slice of `s` with only whitespace outside it. */
  predicate TrimsTo(s: string, r: string) {
    exists i, j :: 0 <= i <= j <= |s| && r == s[i..j]
      && (forall k :: 0 <= k < i ==> IsSpace(s[k]))
      && (forall k :: j <= k < |s| ==> IsSpace(s[k]))
  }

  /** Python's `str.strip()`: only whitespace is removed, only at the two
      ends, and the result neither starts nor ends with whitespace. */
  function Strip(s: string): (r: string)
    ensures TrimsTo(s, r)
    ensures NonSpaces(r) == NonSpaces(s)
    ensures |r| > 0 ==> !IsSpace(r[0]) && !IsSpace(r[|r| - 1])
    ensures Trimmed(r)
    ensures |r| == 0 <==> !HasNonSpace(s)
  {
    StripFacts(s);
    StripSlice(s);
    DropTrailingSpaces(DropSpaces(s))
  }

  lemma StripSlice(s: string)
    ensures TrimsTo(s, DropTrailingSpaces(DropSpaces(s)))
  {
    var i, j := StripBounds(s);
    SliceTrims(s, DropTrailingSpaces(DropSpaces(s)), i, j);
  }

  lemma SliceTrims(s: string, r: string, i: nat, j: nat)
    requires i <= j <= |s| && r == s[i..j]
    requires forall k :: 0 <= k < i ==> IsSpace(s[k])
    requires forall k :: j <= k < |s| ==> IsSpace(s[k])
    ensures TrimsTo(s, r)
  {
  }

  /** Strip is the only trimmed slice of its kind: any way of cutting
      whitespace from the ends of `s` that leaves no whitespace at either
      end gives `Strip(s)`. */
  lemma StripIsTheTrim(s: string, r: string)
    requires TrimsTo(s, r) && Trimmed(r)
    ensures r == Strip(s)
  {
    var i, j :| 0 <= i <= j <= |s| && r == s[i..j]
      && (forall k :: 0 <= k < i ==> IsSpace(s[k]))
      && (forall k :: j <= k < |s| ==> IsSpace(s[k]));
    var i', j' := StripBounds(s);
    StripFacts(s);
    SameTrim(s, i, j, i', j');
  }

  /** Where `Strip(s)` sits in `s`. */
  lemma StripBounds(s: string) returns (i: nat, j: nat)
    ensures i <= j <= |s| && DropTrailingSpaces(DropSpaces(s)) == s[i..j]
    ensures forall k :: 0 <= k < i ==> IsSpace(s[k])
    ensures forall k :: j <= k < |s| ==> IsSpace(s[k])
  {
    var d := DropSpaces(s);
    var t := DropTrailingSpaces(d);
    i := |s| - |d|;
    j := i + |t|;
    assert d == s[i..] && t == d[..|t|];
    forall k | j <= k < |s|
      ensures IsSpace(s[k])
    {
      assert s[k] == d[k - i];
    }
    assert t == s[i..j];
  }

  /** Two trimmed slices with only whitespace outside them are the same
      slice. */
  lemma SameTrim(s: string, i: nat, j: nat, i': nat, j': nat)
    requires i <= j <= |s| && i' <= j' <= |s|
    requires forall k :: 0 <= k < i ==> IsSpace(s[k])
    requires forall k :: j <= k < |s| ==> IsSpace(s[k])
    requires forall k :: 0 <= k < i' ==> IsSpace(s[k])
    requires forall k :: j' <= k < |s| ==> IsSpace(s[k])
    requires Trimmed(s[i..j]) && Trimmed(s[i'..j'])
    ensures s[i..j] == s[i'..j']
  {
    if i < j {
      assert !IsSpace(s[i]) && !IsSpace(s[j - 1]) by {
        assert s[i..j][0] == s[i] && s[i..j][j - i - 1] == s[j - 1];
      }
    }
    if i' < j' {
      assert !IsSpace(s[i']) && !IsSpace(s[j' - 1]) by {
        assert s[i'..j'][0] == s[i'] && s[i'..j'][j' - i' - 1] == s[j' - 1];
      }
    }
    if i < j && i' < j' {
      assert i == i' && j == j';
    }
  }

  lemma StripFacts(s: string)
    ensures var r := DropTrailingSpaces(DropSpaces(s));
      && NonSpaces(r) == NonSpaces(s)
      && (|r| > 0 ==> !IsSpace(r[0]) && !IsSpace(r[|r| - 1]))
      && (|r| == 0 <==> !HasNonSpace(s))
  {
    var d := DropSpaces(s);
    var r := DropTrailingSpaces(d);
    NonSpacesOfDropped(s);
    NonSpacesOfTrimmed(d);
    HasNonSpaceIff(s);
    HasNonSpaceIff(r);
    if |r| > 0 {
      assert r[0] == d[0];
      assert HasNonSpace(r);
    }
  }

  lemma {:induction false} NonSpacesAppend(a: string, b: string)
    ensures NonSpaces(a + b) == NonSpaces(a) + NonSpaces(b)
    decreases |a|
  {
    if |a| > 0 {
      NonSpacesAppend(a[1..], b);
      assert (a + b)[0] == a[0];
      assert (a + b)[1..] == a[1..] + b;
    } else {
      assert a + b == b;
    }
  }

  lemma {:induction false} NonSpacesOfSpaces(s: string)
    requires forall i :: 0 <= i < |s| ==> IsSpace(s[i])
    ensures NonSpaces(s) == ""
    decreases |s|
  {
    if |s| > 0 {
      NonSpacesOfSpaces(s[1..]);
    }
  }

  lemma {:induction false} NonSpacesOfSolid(s: string)
    requires forall i :: 0 <= i < |s| ==> !IsSpace(s[i])
    ensures NonSpaces(s) == s
    decreases |s|
  {
    if |s| > 0 {
      NonSpacesOfSolid(s[1..]);
      assert [s[0]] + s[1..] == s;
    }
  }

  /** Removing one kind of whitespace character leaves the non-whitespace
      text alone. */
  lemma {:induction false} NonSpacesWithout(s: string, c: char)
    requires IsSpace(c)
    ensures NonSpaces(Without(s, c)) == NonSpaces(s)
    decreases |s|
  {
    if |s| > 0 {
      NonSpacesWithout(s[1..], c);
      var h: string := if s[0] == c then "" else [s[0]];
      NonSpacesAppend(h, Without(s[1..], c));
    }
  }

  lemma NonSpacesOfTrimmed(s: string)
    ensures NonSpaces(DropTrailingSpaces(s)) == NonSpaces(s)
  {
    var r := DropTrailingSpaces(s);
    assert s == r + s[|r|..];
    NonSpacesAppend(r, s[|r|..]);
    NonSpacesOfSpaces(s[|r|..]);
  }

  // ---------------------------------------------------------------------
  // Newline collapse: re.sub(r"\n{3,}", "\n\n", s)
  // ---------------------------------------------------------------------

  /** Length of the leading run of newlines. */
  function LeadingNewlines(s: string): (n: nat)
    ensures n <= |s|
    ensures forall i :: 0 <= i < n ==> s[i] == '\n'
    ensures n == |s| || s[n] != '\n'
  {
    if |s| > 0 && s[0] == '\n' then 1 + LeadingNewlines(s[1..]) else 0
  }

  /** Every run of three or more newlines replaced by exactly two. */
  function CollapseNewlines(s: string): string
    decreases |s|
  {
    if |s| == 0 then ""
    else if s[0] == '\n' then
      var n := LeadingNewlines(s);
      (if n >= 3 then "\n\n" else s[..n]) + CollapseNewlines(s[n..])
    else [s[0]] + CollapseNewlines(s[1..])
  }

  predicate NoTripleNewline(t: string) {
    forall i :: 0 <= i < |t| - 2 ==> !(t[i] == '\n' && t[i + 1] == '\n' && t[i + 2] == '\n')
  }

  lemma {:induction false} CollapseNewlinesHead(s: string)
    requires |s| > 0 && s[0] != '\n'
    ensures |CollapseNewlines(s)| > 0 && CollapseNewlines(s)[0] == s[0]
  {
  }

  lemma {:induction false} CollapseNewlinesNoTriple(s: string)
    ensures NoTripleNewline(CollapseNewlines(s))
    decreases |s|
  {
    if |s| == 0 {
    } else if s[0] == '\n' {
      var n := LeadingNewlines(s);
      var head: string := if n >= 3 then "\n\n" else s[..n];
      var tail := CollapseNewlines(s[n..]);
      assert CollapseNewlines(s) == head + tail;
      CollapseNewlinesNoTriple(s[n..]);
      if n < |s| {
        CollapseNewlinesHead(s[n..]);
      }
      NoTripleAfterShort(head, tail);
    } else {
      CollapseNewlinesNoTriple(s[1..]);
      var tail := CollapseNewlines(s[1..]);
      assert CollapseNewlines(s) == [s[0]] + tail;
      NoTripleAfterShort([s[0]], tail);
    }
  }

  /** At most two characters in front of a string without three newlines
      in a row, where the seam cannot complete a run. */
  lemma NoTripleAfterShort(h: string, t: string)
    requires |h| <= 2 && NoTripleNewline(t)
    requires |h| > 0 && |t| > 0 ==> t[0] != '\n' || h[|h| - 1] != '\n'
    requires |h| == 2 && |t| > 0 ==> t[0] != '\n' || h[0] != '\n'
    ensures NoTripleNewline(h + t)
  {
    var u := h + t;
    forall i | 0 <= i < |u| - 2
      ensures !(u[i] == '\n' && u[i + 1] == '\n' && u[i + 2] == '\n')
    {
      if i >= |h| {
        assert u[i] == t[i - |h|] && u[i + 1] == t[i + 1 - |h|] && u[i + 2] == t[i + 2 - |h|];
      }
    }
  }

  lemma {:induction false} WithoutAppend(a: string, b: string, c: char)
    ensures Without(a + b, c) == Without(a, c) + Without(b, c)
    decreases |a|
  {
    if |a| > 0 {
      WithoutAppend(a[1..], b, c);
      assert (a + b)[0] == a[0];
      assert (a + b)[1..] == a[1..] + b;
    } else {
      assert a + b == b;
    }
  }

  lemma {:induction false} WithoutAllOf(s: string, c: char)
    requires forall i :: 0 <= i < |s| ==> s[i] == c
    ensures Without(s, c) == ""
    decreases |s|
  {
    if |s| > 0 {
      WithoutAllOf(s[1..], c);
    }
  }

  /** The newline collapse only deletes newlines: everything else is kept, in order. */
  lemma {:induction false} CollapseNewlinesKeepsText(s: string)
    ensures Without(CollapseNewlines(s), '\n') == Without(s, '\n')
    decreases |s|
  {
    if |s| == 0 {
    } else if s[0] == '\n' {
      var n := LeadingNewlines(s);
      var head: string := if n >= 3 then "\n\n" else s[..n];
      CollapseNewlinesKeepsText(s[n..]);
      WithoutAppend(head, CollapseNewlines(s[n..]), '\n');
      WithoutAppend(s[..n], s[n..], '\n');
      assert s == s[..n] + s[n..];
      WithoutAllOf(s[..n], '\n');
      WithoutAllOf(head, '\n');
    } else {
      CollapseNewlinesKeepsText(s[1..]);
      assert ([s[0]] + CollapseNewlines(s[1..]))[1..] == CollapseNewlines(s[1..]);
    }
  }

  /** `n` newline characters. */
  function Newlines(n: nat): (r: string)
    ensures |r| == n && forall i :: 0 <= i < n ==> r[i] == '\n'
  {
    seq(n, _ => '\n')
  }

  /** The run length is determined by the characters. */
  lemma LeadingNewlinesIs(s: string, n: nat)
    requires n <= |s| && forall i :: 0 <= i < n ==> s[i] == '\n'
    requires n == |s| || s[n] != '\n'
    ensures LeadingNewlines(s) == n
  {
  }

  lemma NoTripleSuffix(s: string, k: nat)
    requires NoTripleNewline(s) && k <= |s|
    ensures NoTripleNewline(s[k..])
  {
    var t := s[k..];
    forall i | 0 <= i < |t| - 2
      ensures !(t[i] == '\n' && t[i + 1] == '\n' && t[i + 2] == '\n')
    {
      assert t[i] == s[k + i] && t[i + 1] == s[k + i + 1] && t[i + 2] == s[k + i + 2];
    }
  }

  lemma ShortLeadingRun(s: string)
    requires NoTripleNewline(s)
    ensures LeadingNewlines(s) < 3
  {
    if |s| >= 3 {
      assert !(s[0] == '\n' && s[1] == '\n' && s[2] == '\n');
    }
  }

  /** Text without three newlines in a row is left exactly as it is:
      single line breaks and blank lines survive the rewrite. */
  lemma {:induction false} CollapseNewlinesIdle(s: string)
    requires NoTripleNewline(s)
    ensures CollapseNewlines(s) == s
    decreases |s|
  {
    if |s| > 0 {
      if s[0] == '\n' {
        var n := LeadingNewlines(s);
        ShortLeadingRun(s);
        NoTripleSuffix(s, n);
        CollapseNewlinesIdle(s[n..]);
        IdleAfterRun(s, n);
      } else {
        NoTripleSuffix(s, 1);
        CollapseNewlinesIdle(s[1..]);
        IdleAfterChar(s);
      }
    }
  }

  lemma IdleAfterRun(s: string, n: nat)
    requires |s| > 0 && s[0] == '\n' && n == LeadingNewlines(s) && n < 3
    requires CollapseNewlines(s[n..]) == s[n..]
    ensures CollapseNewlines(s) == s
  {
    assert s[..n] + s[n..] == s;
  }

  lemma IdleAfterChar(s: string)
    requires |s| > 0 && s[0] != '\n'
    requires CollapseNewlines(s[1..]) == s[1..]
    ensures CollapseNewlines(s) == s
  {
    assert [s[0]] + s[1..] == s;
  }

  /** The rewrite works run by run: a seam that is not inside a run of
      newlines can be rewritten on either side separately. */
  lemma {:induction false} CollapseNewlinesAppend(a: string, b: string)
    requires |a| == 0 || |b| == 0 || a[|a| - 1] != '\n' || b[0] != '\n'
    ensures CollapseNewlines(a + b) == CollapseNewlines(a) + CollapseNewlines(b)
    decreases |a|
  {
    if |a| == 0 {
      assert a + b == b;
    } else if a[0] != '\n' {
      assert (a + b)[0] == a[0];
      assert (a + b)[1..] == a[1..] + b;
      CollapseNewlinesAppend(a[1..], b);
      ConcatAssoc([a[0]], CollapseNewlines(a[1..]), CollapseNewlines(b));
    } else {
      var n := LeadingNewlines(a);
      if n < |a| {
        CollapseNewlinesAppend(a[n..], b);
      }
      AppendAfterRun(a, b);
    }
  }

  /** The step of `CollapseNewlinesAppend` for text that opens with a run
      of newlines, given the claim for what follows the run. */
  lemma AppendAfterRun(a: string, b: string)
    requires |a| > 0 && a[0] == '\n'
    requires |b| == 0 || a[|a| - 1] != '\n' || b[0] != '\n'
    requires LeadingNewlines(a) < |a| ==>
      CollapseNewlines(a[LeadingNewlines(a)..] + b) == CollapseNewlines(a[LeadingNewlines(a)..]) + CollapseNewlines(b)
    ensures CollapseNewlines(a + b) == CollapseNewlines(a) + CollapseNewlines(b)
  {
    var n := LeadingNewlines(a);
    var head: string := if n >= 3 then "\n\n" else a[..n];
    LeadingNewlinesIs(a + b, n);
    SlicesOfAppend(a, b, n);
    CollapseNewlinesRunHead(a + b);
    CollapseNewlinesRunHead(a);
    if n == |a| {
      assert a[n..] == "";
      assert head + "" == head;
    } else {
      ConcatAssoc(head, CollapseNewlines(a[n..]), CollapseNewlines(b));
    }
  }

  lemma CollapseNewlinesRunHead(s: string)
    requires |s| > 0 && s[0] == '\n'
    ensures var n := LeadingNewlines(s);
      CollapseNewlines(s) == (if n >= 3 then "\n\n" else s[..n]) + CollapseNewlines(s[n..])
  {
  }

  lemma SlicesOfAppend(a: string, b: string, n: nat)
    requires n <= |a|
    ensures (a + b)[..n] == a[..n] && (a + b)[n..] == a[n..] + b
  {
  }

  /** A run of `n` newlines on its own becomes min(n, 2) newlines. */
  lemma CollapseNewlinesOfRun(n: nat)
    ensures CollapseNewlines(Newlines(n)) == Newlines(if n < 2 then n else 2)
  {
    var s := Newlines(n);
    if n > 0 {
      LeadingNewlinesIs(s, n);
      assert s[n..] == "";
      if n < 3 {
        assert s[..n] == s;
      }
    }
  }

  /** A maximal run of `n >= 1` newlines anywhere in the text becomes
      min(n, 2) newlines, and the text on either side of it is rewritten
      on its own. */
  lemma CollapseNewlinesRun(a: string, n: nat, b: string)
    requires n > 0
    requires |a| == 0 || a[|a| - 1] != '\n'
    requires |b| == 0 || b[0] != '\n'
    ensures CollapseNewlines(a + Newlines(n) + b)
      == CollapseNewlines(a) + Newlines(if n < 2 then n else 2) + CollapseNewlines(b)
  {
    var run := Newlines(n);
    CollapseNewlinesAppend(a, run + b);
    CollapseNewlinesAppend(run, b);
    CollapseNewlinesOfRun(n);
    ConcatAssoc(a, run, b);
    ConcatAssoc(CollapseNewlines(a), CollapseNewlines(run), CollapseNewlines(b));
  }

  // ---------------------------------------------------------------------
  // split(sep) and sep.join(xs)
  // ---------------------------------------------------------------------

  /** Python's `s.split(sep)` for a one-character separator: never empty,
      `"".split(",") == [""]`. */
  function Split(s: string, sep: char): (r: seq<string>)
    ensures |r| >= 1
  {
    if |s| == 0 then [""]
    else
      var rest := Split(s[1..], sep);
      if s[0] == sep then [""] + rest else [[s[0]] + rest[0]] + rest[1..]
  }

  /** Python's `sep.join(xs)`. */
  function Join(xs: seq<string>, sep: char): string {
    if |xs| == 0 then ""
    else if |xs| == 1 then xs[0]
    else xs[0] + [sep] + Join(xs[1..], sep)
  }

  lemma {:induction false} SplitNoSeparator(a: string, sep: char)
    requires sep !in a
    ensures Split(a, sep) == [a]
    decreases |a|
  {
    if |a| > 0 {
      SplitNoSeparator(a[1..], sep);
      assert [a[0]] + a[1..] == a;
    }
  }

  lemma {:induction false} SplitAfterSegment(a: string, sep: char, b: string)
    requires sep !in a
    ensures Split(a + [sep] + b, sep) == [a] + Split(b, sep)
    decreases |a|
  {
    if |a| == 0 {
      assert (a + [sep] + b)[1..] == b;
    } else {
      SplitAfterSegment(a[1..], sep, b);
      assert (a + [sep] + b)[1..] == a[1..] + [sep] + b;
      assert [a[0]] + a[1..] == a;
    }
  }

  /** Splitting a join of separator-free pieces gives the pieces back. */
  lemma {:induction false} SplitJoin(xs: seq<string>, sep: char)
    requires |xs| > 0
    requires forall i :: 0 <= i < |xs| ==> sep !in xs[i]
    ensures Split(Join(xs, sep), sep) == xs
    decreases |xs|
  {
    if |xs| == 1 {
      SplitNoSeparator(xs[0], sep);
    } else {
      SplitJoin(xs[1..], sep);
      SplitAfterSegment(xs[0], sep, Join(xs[1..], sep));
      assert [xs[0]] + xs[1..] == xs;
    }
  }

  lemma SplitJoinEmpty(sep: char)
    ensures Split(Join([], sep), sep) == [""]
  {
  }

  // ---------------------------------------------------------------------
  // Decimal rendering of naturals (Python's f"{n}")
  // ---------------------------------------------------------------------

  function DigitChar(d: nat): char
    requires d < 10
  {
    "0123456789"[d]
  }

  function Decimal(n: nat): (r: string)
    ensures |r| > 0
    decreases n
  {
    if n < 10 then [DigitChar(n)] else Decimal(n / 10) + [DigitChar(n % 10)]
  }
}

=== FILE: telegram.dfy ===
/** smtg/telegram.py: `convert_message` assembles one Telegram markup text
    for a message (header line, body, warnings), the splitter cuts it into
    parts, and `TelegramRoute` sends the parts and then the attachments.

    The markup tokenizer is a parameter (`tokenize`), as in the transducer
    modules. The id Telegram gives the first sent part is the parameter
    `firstId`, and the chat is the parameter `chat`. */
module Telegram {
  import opened Strings
  import opened Markup
  import opened Mail
  import Simplifier
  import Splitter
  import Handler

  /** The e-mail icon that opens every message (U+1F4E7). */
  const Icon: string := "\U{1F4E7}"

  const NoBodyText: string := "<i>Message does not contain body</i>"

  const SpfWarning: string := "\n⚠️ <i>Message sender is not verified</i>"

  const DkimWarning: string := "\n⚠️ <i>Message signature is missing or invalid</i>"

  /** The first lines: icon and bold subject, then sender and recipient,
      each escaped without quote escaping, then an empty line. */
  function HeaderLines(subject: string, from: string, to: string): string {
    SubjectLine(subject) + AddressLines(from, to)
  }

  function AddressLines(from: string, to: string): string {
    Escape(from, false) + " → " + Escape(to, false) + "\n\n"
  }

  function SubjectLine(subject: string): string {
    Icon + " <b>" + Escape(subject, false) + "</b>\n"
  }

  /** The subject can be read back from the header lines: it is the text
      between the icon's `<b>` and the first `</b>`, because escaped text
      holds no `<`. */
  lemma HeaderLinesKeepSubject(subject: string, from: string, to: string)
    ensures var h := HeaderLines(subject, from, to);
      var e := Escape(subject, false);
      h[..5] == Icon + " <b>" && h[5..5 + |e|] == e && h[5 + |e|..9 + |e|] == "</b>" && '<' !in e
  {
    EscapeIsSafe(subject, false);
    BoldLine(Icon + " <b>", Escape(subject, false), AddressLines(from, to));
  }

  /** What the body contributes, before the newline that always follows:
      for html and plain bodies the converted text with whitespace cut
      from its two ends only (`StripIsTheTrim`: this determines it). */
  function BodyText(body: Option<Body>, tokenize: string -> seq<Event>): (r: string)
    ensures body.None? ==> r == NoBodyText
    ensures body.Some? && body.value.contentType == "text/html" ==>
      && Trimmed(r)
      && TrimsTo(Simplifier.Simplify(tokenize(body.value.content)), r)
      && NonSpaces(r) == NonSpaces(Simplifier.Render(Simplifier.Pieces(tokenize(body.value.content))))
    ensures body.Some? && body.value.contentType == "text/plain" ==>
      && Trimmed(r)
      && TrimsTo(Escape(body.value.content, false), r)
      && NoAngles(r)
      && NonSpaces(r) == Escape(NonSpaces(body.value.content), false)
    ensures body.Some? && body.value.contentType !in {"text/html", "text/plain"} ==> r == ""
  {
    match body
    case None => NoBodyText
    case Some(b) =>
      if b.contentType == "text/html" then
        HtmlBodyKeepsText(tokenize(b.content));
        Strip(Simplifier.Simplify(tokenize(b.content)))
      else if b.contentType == "text/plain" then
        PlainBodyIsSafe(b.content);
        Simplifier.EscapeNonSpaces(b.content, false);
        Strip(Escape(b.content, false))
      else ""
  }

  /** Stripping and the newline collapse remove only whitespace: what is
      left of the simplifier's result is its rendered pieces. */
  lemma HtmlBodyKeepsText(evs: seq<Event>)
    ensures NonSpaces(Strip(Simplifier.Simplify(evs))) == NonSpaces(Simplifier.Render(Simplifier.Pieces(evs)))
  {
    var rendered := Simplifier.Render(Simplifier.Pieces(evs));
    var simple := Simplifier.Simplify(evs);
    NonSpacesWithout(simple, '\n');
    NonSpacesWithout(rendered, '\n');
  }

  lemma PlainBodyIsSafe(s: string)
    ensures NoAngles(Strip(Escape(s, false)))
  {
    EscapeIsSafe(s, false);
    StripIsSlice(Escape(s, false));
  }

  lemma StripIsSlice(s: string)
    ensures forall c :: c in Strip(s) ==> c in s
  {
    var r := Strip(s);
    forall c | c in r
      ensures c in s
    {
      var i :| 0 <= i < |r| && r[i] == c;
      StripElement(s, i);
    }
  }

  lemma StripElement(s: string, i: nat)
    requires i < |Strip(s)|
    ensures Strip(s)[i] in s
  {
    var d := DropSpaces(s);
    assert Strip(s) == DropTrailingSpaces(d);
    DropTrailingIsPrefix(d);
    assert Strip(s)[i] == d[i];
    assert d == s[|s| - |d|..];
    assert d[i] == s[|s| - |d| + i];
  }

  lemma DropTrailingIsPrefix(s: string)
    ensures |DropTrailingSpaces(s)| <= |s| && DropTrailingSpaces(s) == s[..|DropTrailingSpaces(s)|]
    decreases |s|
  {
  }

  /** Is the SPF result shown as verified? */
  predicate SpfVerified(spf: Option<string>) {
    spf == Some("pass") || spf == Some("neutral")
  }

  /** The warning lines: SPF first, then DKIM. */
  function Warnings(spf: Option<string>, dkim: Option<string>): (r: string)
    ensures StartsWith(r, SpfWarning) <==> !SpfVerified(spf)
    ensures EndsWith(r, DkimWarning) <==> dkim == Some("fail")
    ensures r == "" <==> SpfVerified(spf) && dkim != Some("fail")
  {
    var a := if !SpfVerified(spf) then SpfWarning else "";
    var b := if dkim == Some("fail") then DkimWarning else "";
    assert DkimWarning[16] != SpfWarning[16];
    assert (a + b)[..|a|] == a;
    assert (a + b)[|a + b| - |b|..] == b;
    a + b
  }

  /** The whole text of `convert_message`; None when Subject, From or To is
      missing (`html.escape(None)` raises). */
  function Content(m: Message, tokenize: string -> seq<Event>): (r: Option<string>)
    ensures r.Some? <==> Get(m.headers, "Subject").Some? && Get(m.headers, "From").Some? && Get(m.headers, "To").Some?
    ensures r.Some? ==>
      var h := HeaderLines(Get(m.headers, "Subject").value, Get(m.headers, "From").value, Get(m.headers, "To").value);
      var w := "\n" + Warnings(Get(m.headers, "X-SPF-Check"), Get(m.headers, "X-DKIM-Check"));
      && StartsWith(r.value, h)
      && EndsWith(r.value, w)
      && |r.value| == |h| + |BodyText(m.body, tokenize)| + |w|
      && r.value[|h|..|r.value| - |w|] == BodyText(m.body, tokenize)
  {
    var subject := Get(m.headers, "Subject");
    var from := Get(m.headers, "From");
    var to := Get(m.headers, "To");
    if subject.Some? && from.Some? && to.Some? then
      var h := HeaderLines(subject.value, from.value, to.value);
      var w := "\n" + Warnings(Get(m.headers, "X-SPF-Check"), Get(m.headers, "X-DKIM-Check"));
      var body := BodyText(m.body, tokenize);
      ConcatEnds(h, body, w);
      Some(h + body + w)
    else None
  }

  datatype Converted = Converted(htmlParts: seq<string>, attachments: seq<InputFile>)

  datatype Conversion =
    | Ok(value: Converted)
    | MissingHeader                      // Subject, From or To absent
    | SplitFailed(failure: Splitter.Failure)

  /** `InputFile(..., filename=part.get_filename(failobj="Attachment"))`. */
  function Files(atts: seq<Attachment>): (r: seq<InputFile>)
    ensures |r| == |atts|
    ensures forall i :: 0 <= i < |atts| ==>
      r[i].data == atts[i].data && r[i].filename == atts[i].filename.GetOr("Attachment")
  {
    seq(|atts|, i requires 0 <= i < |atts| => InputFile(atts[i].filename.GetOr("Attachment"), atts[i].data))
  }

  /** `convert_message`. */
  function ConvertMessage(m: Message, tokenize: string -> seq<Event>): (r: Conversion)
    ensures r.MissingHeader? <==> Content(m, tokenize).None?
    ensures r.Ok? ==> |r.value.htmlParts| >= 1 && r.value.attachments == Files(m.attachments)
    ensures r.SplitFailed? <==> Content(m, tokenize).Some? && Splitter.Run(tokenize(Content(m, tokenize).value)).Failed?
    ensures r.Ok? ==>
      && Splitter.Run(tokenize(Content(m, tokenize).value)).Running?
      && r.value.htmlParts == Splitter.Run(tokenize(Content(m, tokenize).value)).state.parts
  {
    SplitContent(Content(m, tokenize), m.attachments, tokenize)
  }

  /** The splitter run over the assembled content, when there is one. */
  function SplitContent(content: Option<string>, atts: seq<Attachment>, tokenize: string -> seq<Event>): (r: Conversion)
    ensures r.MissingHeader? <==> content.None?
    ensures r.Ok? ==> |r.value.htmlParts| >= 1 && r.value.attachments == Files(atts)
    ensures r.SplitFailed? <==> content.Some? && Splitter.Run(tokenize(content.value)).Failed?
    ensures r.Ok? ==>
      && Splitter.Run(tokenize(content.value)).Running?
      && r.value.htmlParts == Splitter.Run(tokenize(content.value)).state.parts
  {
    match content
    case None => MissingHeader
    case Some(c) =>
      match Splitter.Run(tokenize(c))
      case Failed(f) => SplitFailed(f)
      case Running(s) => Ok(Converted(s.parts, Files(atts)))
  }

  // ---------------------------------------------------------------------
  // TelegramRoute.__call__
  // ---------------------------------------------------------------------

  /** One `send_message` per part, in order; the first has no reply anchor
      and every later one replies to the first part. */
  function PartSends(chat: string, parts: seq<string>, firstId: int): (r: seq<BotCall>)
    ensures |r| == |parts|
    ensures forall i :: 0 <= i < |parts| ==>
      r[i] == SendMessage(chat, parts[i], if i == 0 then None else Some(firstId))
  {
    seq(|parts|, i requires 0 <= i < |parts| => SendMessage(chat, parts[i], if i == 0 then None else Some(firstId)))
  }

  /** The attachment call: none, one `send_document`, or one
      `send_media_group` with all files in order. */
  function AttachmentSends(chat: string, files: seq<InputFile>, anchor: Option<int>): (r: seq<BotCall>)
    ensures |files| == 0 <==> |r| == 0
    ensures |r| <= 1
    ensures |files| == 1 ==> r == [SendDocument(chat, files[0], anchor)]
    ensures |files| >= 2 ==> r == [SendMediaGroup(chat, files, anchor)]
  {
    if |files| == 0 then []
    else if |files| == 1 then [SendDocument(chat, files[0], anchor)]
    else [SendMediaGroup(chat, files, anchor)]
  }

  /** Every call the route makes for a converted message. */
  function Deliver(chat: string, c: Converted, firstId: int): (r: seq<BotCall>)
    ensures |r| == |c.htmlParts| + (if |c.attachments| == 0 then 0 else 1)
    ensures r[..|c.htmlParts|] == PartSends(chat, c.htmlParts, firstId)
    ensures r[|c.htmlParts|..] == AttachmentSends(chat, c.attachments, if |c.htmlParts| > 0 then Some(firstId) else None)
  {
    var anchor := if |c.htmlParts| > 0 then Some(firstId) else None;
    var r := PartSends(chat, c.htmlParts, firstId) + AttachmentSends(chat, c.attachments, anchor);
    assert r[..|c.htmlParts|] == PartSends(chat, c.htmlParts, firstId);
    assert r[|c.htmlParts|..] == AttachmentSends(chat, c.attachments, anchor);
    r
  }

  /** The texts of the `send_message` calls of a trace. */
  function SentTexts(calls: seq<BotCall>): seq<string> {
    if |calls| == 0 then []
    else (if calls[0].SendMessage? then [calls[0].text] else []) + SentTexts(calls[1..])
  }

  lemma {:induction false} SentTextsAppend(a: seq<BotCall>, b: seq<BotCall>)
    ensures SentTexts(a + b) == SentTexts(a) + SentTexts(b)
    decreases |a|
  {
    if |a| == 0 {
      assert a + b == b;
    } else {
      SentTextsAppend(a[1..], b);
      ConsAppend(a, b);
      var h := if a[0].SendMessage? then [a[0].text] else [];
      assert SentTexts(a + b) == h + SentTexts(a[1..] + b);
      TextsAssoc(h, SentTexts(a[1..]), SentTexts(b));
    }
  }

  lemma ConsAppend(a: seq<BotCall>, b: seq<BotCall>)
    requires |a| > 0
    ensures (a + b)[0] == a[0] && (a + b)[1..] == a[1..] + b
  {
  }

  lemma TextsAssoc(a: seq<string>, b: seq<string>, c: seq<string>)
    ensures a + (b + c) == a + b + c
  {
  }

  lemma {:induction false} SentTextsOfParts(chat: string, parts: seq<string>, firstId: int)
    ensures SentTexts(PartSends(chat, parts, firstId)) == parts
    decreases |parts|
  {
    var r := PartSends(chat, parts, firstId);
    if |parts| > 0 {
      var tail := PartSends(chat, parts[1..], firstId);
      SentTextsOfParts(chat, parts[1..], firstId);
      SameTexts(r[1..], tail);
      assert [parts[0]] + parts[1..] == parts;
    }
  }

  /** Traces that differ only in reply anchors send the same texts. */
  lemma {:induction false} SameTexts(a: seq<BotCall>, b: seq<BotCall>)
    requires |a| == |b|
    requires forall i :: 0 <= i < |a| ==> a[i].SendMessage? && b[i].SendMessage? && a[i].text == b[i].text
    ensures SentTexts(a) == SentTexts(b)
    decreases |a|
  {
    if |a| > 0 {
      SameTexts(a[1..], b[1..]);
    }
  }

  /** The parts reach the chat complete and in order, each exactly once:
      reading the texts back from the trace gives the parts. */
  lemma DeliverSendsParts(chat: string, c: Converted, firstId: int)
    ensures SentTexts(Deliver(chat, c, firstId)) == c.htmlParts
  {
    var anchor := if |c.htmlParts| > 0 then Some(firstId) else None;
    var att := AttachmentSends(chat, c.attachments, anchor);
    SentTextsAppend(PartSends(chat, c.htmlParts, firstId), att);
    SentTextsOfParts(chat, c.htmlParts, firstId);
    assert SentTexts(att) == [] by {
      if |att| > 0 {
        assert att[1..] == [];
      }
    }
    assert c.htmlParts + [] == c.htmlParts;
  }

  /** Every attachment call replies to the first part. */
  lemma AttachmentsAnchorToFirstPart(chat: string, c: Converted, firstId: int)
    requires |c.htmlParts| > 0 && |c.attachments| > 0
    ensures var r := Deliver(chat, c, firstId);
      !r[|r| - 1].SendMessage? && r[|r| - 1].replyTo == Some(firstId)
  {
  }

  /** The files carried by the `send_document` and `send_media_group`
      calls of a trace, in order. */
  function SentFiles(calls: seq<BotCall>): seq<InputFile> {
    if |calls| == 0 then []
    else
      (match calls[0]
       case SendMessage(_, _, _) => []
       case SendDocument(_, d, _) => [d]
       case SendMediaGroup(_, fs, _) => fs)
      + SentFiles(calls[1..])
  }

  lemma {:induction false} SentFilesAppend(a: seq<BotCall>, b: seq<BotCall>)
    ensures SentFiles(a + b) == SentFiles(a) + SentFiles(b)
    decreases |a|
  {
    if |a| == 0 {
      assert a + b == b;
    } else {
      SentFilesAppend(a[1..], b);
      ConsAppend(a, b);
    }
  }

  /** A trace of `send_message` calls only carries no file. */
  lemma {:induction false} MessagesCarryNoFiles(calls: seq<BotCall>)
    requires forall k :: 0 <= k < |calls| ==> calls[k].SendMessage?
    ensures SentFiles(calls) == []
    decreases |calls|
  {
    if |calls| > 0 {
      MessagesCarryNoFiles(calls[1..]);
    }
  }

  /** Reading the files back from the trace gives the converted
      attachments, complete and in order. */
  lemma DeliverSendsFiles(chat: string, c: Converted, firstId: int)
    ensures SentFiles(Deliver(chat, c, firstId)) == c.attachments
  {
    var anchor := if |c.htmlParts| > 0 then Some(firstId) else None;
    var att := AttachmentSends(chat, c.attachments, anchor);
    SentFilesAppend(PartSends(chat, c.htmlParts, firstId), att);
    MessagesCarryNoFiles(PartSends(chat, c.htmlParts, firstId));
    if |att| > 0 {
      assert att[1..] == [];
    }
  }

  /** The files a converted message's calls carry are the message's
      attachments, each with its data and its file name or `Attachment`. */
  lemma MessageFilesDelivered(chat: string, m: Message, tokenize: string -> seq<Event>, firstId: int)
    ensures var conv := ConvertMessage(m, tokenize);
      conv.Ok? ==> SentFiles(Deliver(chat, conv.value, firstId)) == Files(m.attachments)
  {
    var conv := ConvertMessage(m, tokenize);
    if conv.Ok? {
      DeliverSendsFiles(chat, conv.value, firstId);
    }
  }

  /** `run` is what a planned series of Bot API calls comes to when the
      calls `fails` picks raise: the calls made are the plan up to and
      including its first failing call, the run raises exactly when some
      planned call fails, and otherwise every call is made and nothing is
      left for later routes. */
  predicate StopsAtFirstFailure(run: Handler.RouteRun, planned: seq<BotCall>, fails: BotCall -> bool) {
    && |run.calls| <= |planned| && run.calls == planned[..|run.calls|]
    && (forall k :: 0 <= k < |run.calls| - 1 ==> !fails(run.calls[k]))
    && (run.result.Raised? <==> exists k :: 0 <= k < |planned| && fails(planned[k]))
    && (run.result.Raised? ==> |run.calls| > 0 && fails(run.calls[|run.calls| - 1]))
    && (run.result.Returned? ==> run.calls == planned && run.result.remaining == [])
  }

  /** The sends of a route, one after the other, until one raises.
      `fails` says which calls the Bot API rejects. */
  function Attempt(calls: seq<BotCall>, fails: BotCall -> bool): (r: Handler.RouteRun)
    ensures StopsAtFirstFailure(r, calls, fails)
    decreases |calls|
  {
    if |calls| == 0 then Handler.RouteRun([], Handler.Returned([]))
    else if fails(calls[0]) then Handler.RouteRun([calls[0]], Handler.Raised)
    else
      var rest := Attempt(calls[1..], fails);
      assert forall k :: 1 <= k < |calls| ==> calls[k] == calls[1..][k - 1];
      Handler.RouteRun([calls[0]] + rest.calls, rest.result)
  }

  /** `TelegramRoute.__call__` on one message: convert it, then send the
      parts and the attachments until a Bot API call raises. A message
      that cannot be converted raises before any call; otherwise the calls
      made are `Deliver`'s up to the first that raises, and the route
      returns `[]` exactly when none does. */
  function RouteCall(chat: string, firstId: int, tokenize: string -> seq<Event>,
                     fails: BotCall -> bool, m: Message): (r: Handler.RouteRun)
    ensures !ConvertMessage(m, tokenize).Ok? ==> r.calls == [] && r.result.Raised?
    ensures ConvertMessage(m, tokenize).Ok? ==>
      StopsAtFirstFailure(r, Deliver(chat, ConvertMessage(m, tokenize).value, firstId), fails)
  {
    match ConvertMessage(m, tokenize)
    case Ok(c) => Attempt(Deliver(chat, c, firstId), fails)
    case _ => Handler.RouteRun([], Handler.Raised)
  }

  /** `TelegramRoute(bot)` as a route of the chain: the recipients it is
      given play no part. */
  function TelegramRoute(chat: string, firstId: int, tokenize: string -> seq<Event>, fails: BotCall -> bool): Handler.Route {
    (recipients: seq<string>, m: Message) => RouteCall(chat, firstId, tokenize, fails, m)
  }

  /** A Telegram route is the last route that runs, whether its sends
      succeed or one of them raises: whatever follows it in the chain is
      never invoked, and what it does does not depend on the recipients it
      receives. */
  lemma TelegramRouteEndsChain(chat: string, firstId: int, tokenize: string -> seq<Event>, fails: BotCall -> bool,
                               rest: seq<Handler.Route>, recipients: seq<string>, m: Message)
    ensures Handler.RunChain([TelegramRoute(chat, firstId, tokenize, fails)] + rest, recipients, m).inputs == [recipients]
    ensures forall other: seq<string> ::
      TelegramRoute(chat, firstId, tokenize, fails)(other, m) == TelegramRoute(chat, firstId, tokenize, fails)(recipients, m)
  {
    var routes := [TelegramRoute(chat, firstId, tokenize, fails)] + rest;
    assert routes[0] == TelegramRoute(chat, firstId, tokenize, fails);
    assert Handler.Stops(routes[0](recipients, m));
  }

  /** When every Bot API call succeeds, the route makes every planned call. */
  lemma RouteDeliversWithoutFailures(chat: string, firstId: int, tokenize: string -> seq<Event>, m: Message)
    requires ConvertMessage(m, tokenize).Ok?
    ensures RouteCall(chat, firstId, tokenize, _ => false, m)
      == Handler.RouteRun(Deliver(chat, ConvertMessage(m, tokenize).value, firstId), Handler.Returned([]))
  {
  }

  // ---------------------------------------------------------------------
  // Annotations as the route reads them
  // ---------------------------------------------------------------------

  /** For a message that arrives without check headers of its own, the
      warnings reflect the checks: the SPF line unless the result was
      `pass` or `neutral`, the DKIM line iff DKIM failed. */
  lemma WarningsReflectChecks(m: Message, id: string, checks: Handler.Checks, spam: bool)
    requires Get(m.headers, "X-SPF-Check").None? && Get(m.headers, "X-DKIM-Check").None?
    ensures var a := Handler.Annotate(m, id, checks, spam);
      var w := Warnings(Get(a.headers, "X-SPF-Check"), Get(a.headers, "X-DKIM-Check"));
      && (StartsWith(w, SpfWarning) <==> checks.spfResult != "pass" && checks.spfResult != "neutral")
      && (EndsWith(w, DkimWarning) <==> !checks.dkim)
  {
    var a := Handler.Annotate(m, id, checks, spam);
    var tail := a.headers[|m.headers|..];
    assert a.headers == m.headers + tail;
    GetAppend(m.headers, tail, "X-SPF-Check");
    GetAppend(m.headers, tail, "X-DKIM-Check");
    AnnotatedChecks(m, id, checks, spam);
  }

  lemma AnnotatedChecks(m: Message, id: string, checks: Handler.Checks, spam: bool)
    ensures var tail := Handler.Annotate(m, id, checks, spam).headers[|m.headers|..];
      && Get(tail, "X-SPF-Check") == Some(checks.spfResult)
      && Get(tail, "X-DKIM-Check") == Some(if checks.dkim then "pass" else "fail")
  {
    var tail := Handler.Annotate(m, id, checks, spam).headers[|m.headers|..];
    Handler.DifferentNames(tail[0].name, "X-SPF-Check");
    Handler.DifferentNames(tail[0].name, "X-DKIM-Check");
    Handler.DifferentNames(tail[1].name, "X-DKIM-Check");
    Handler.DifferentNames(tail[2].name, "X-DKIM-Check");
    assert tail[1..][0] == tail[1];
    assert tail[1..][1..][1..][0] == tail[3];
  }

  /** Because a header is read by first match, a sender who puts its own
      `X-SPF-Check: pass` and `X-DKIM-Check: pass` fields into the message
      suppresses both warnings, whatever the checks found. */
  lemma ForgedChecksHideWarnings(m: Message, id: string, checks: Handler.Checks, spam: bool)
    requires Get(m.headers, "X-SPF-Check") == Some("pass") && Get(m.headers, "X-DKIM-Check") == Some("pass")
    ensures var a := Handler.Annotate(m, id, checks, spam);
      Warnings(Get(a.headers, "X-SPF-Check"), Get(a.headers, "X-DKIM-Check")) == ""
  {
    var a := Handler.Annotate(m, id, checks, spam);
    var tail := a.headers[|m.headers|..];
    assert a.headers == m.headers + tail;
    GetAppend(m.headers, tail, "X-SPF-Check");
    GetAppend(m.headers, tail, "X-DKIM-Check");
  }
}
